=== FILE: README.md ===
# Appointment-booking business agent: service store model

A Dafny model of the core of the appointment-booking sample agent. The agent
sells bookable services from a Square catalog through a UCP-style checkout.
The model covers:

- the `ServiceStore` checkout lifecycle (`store.py`):
  - the service-variation cache and `search_services`, which fills it;
  - `add_to_checkout`, `get_checkout`, `remove_from_checkout` and `update_checkout`;
  - the appointment-slot upsert behind `add_to_checkout` and `update_checkout`;
  - `set_appointment`;
  - the totals recalculation;
  - `start_payment` and `place_order`;
- the appointment data types and their constructors (`models/appointment_types.py`);
- the A2A extension base class (`a2a_extensions/base_extension.py`);
- the pure helpers of the Square client (`square_client.py`):
  - the fuzzy filter with its "return everything when nothing matches" fallback;
  - the location, staff, service and booking search texts;
  - status mapping and duration conversions.

The store is a value of three maps:
- active checkouts;
- placed orders, keyed `ORD-<checkout id>`;
- the service cache.

Every operation is a function from a store to a `Reply`, which holds the new
store and either the result or the error the source raises. External inputs
become parameters:
- Square is a snapshot parameter: an `Option<Square>` of services and location names by id and the catalog listing, where `None` means no client;
- fresh uuids are an `IdSupply` (`nat -> string`);
- the tax rule is a `TaxPolicy` (`int -> int`).

Modules:

- `Base`: `Option`, `Result`, the store's error conditions, `Filter` (a list comprehension) and `FirstIndex` (a `for … break` scan);
- `Strings`: lower-casing, substring search, Python `strip`, `join` and `split`;
- `UcpTypes`, `AppointmentTypes`: the checkout and appointment records;
- `BaseExtension`: `A2AExtensionBase`;
- `SquareHelpers`: the pure parts of `SquareServiceClient`;
- `Pricing`: `_recalculate_checkout`;
- `ServiceStore`: the store operations;
- `StoreInvariant`: the invariant every operation keeps;
- `StoreProperties`, `AppointmentProperties`, `PaymentProperties`: what each operation does to the checkout it touches.

The store invariant says:
- the cache files each variation under its own id;
- every active checkout is filed under its id, is not completed, names only cached services, has non-empty line ids, and carries totals that agree with its lines;
- every order is completed and confirmed under the key it is filed by.

One consequence: under the invariant the service lookup inside `update_checkout` cannot fail.

## Model

| member | source | states |
|---|---|---|
| Base.Filter | a2a/business_agent/src/business_agent/store.py:409-411 | the comprehension keeps only elements satisfying the condition and is no longer than its input |
| Base.FilterMembership | a2a/business_agent/src/business_agent/store.py:415-419 | an element is in the filtered list exactly when it is in the input and satisfies the condition |
| Base.FilterAppend | a2a/business_agent/src/business_agent/square_client.py:190-194 | filtering distributes over concatenation, so relative order is kept |
| Base.FilterKeepsAll | a2a/business_agent/src/business_agent/store.py:415-419 | when every element passes, the comprehension returns its input unchanged |
| Base.FilterEmptyIff | a2a/business_agent/src/business_agent/store.py:657-660 | the comprehension is empty exactly when no element passes |
| Base.FirstIndex | a2a/business_agent/src/business_agent/store.py:284-289 | the `for … break` scan finds the first matching position, none before it match, and it finds none exactly when nothing matches |
| Strings.Lower | a2a/business_agent/src/business_agent/square_client.py:42-44 | lower-casing keeps the length and maps each character on its own |
| Strings.LowerIdempotent | a2a/business_agent/src/business_agent/square_client.py:42-44 | lower-casing twice is lower-casing once |
| Strings.LowerAppend | a2a/business_agent/src/business_agent/square_client.py:42-44 | lower-casing distributes over concatenation |
| Strings.Contains | a2a/business_agent/src/business_agent/square_client.py:44 | Python's `in` on strings answers true exactly when the query occurs at some position of the text |
| Strings.TrimStart | a2a/business_agent/src/business_agent/models/appointment_types.py:120 | the result is a suffix, everything dropped is whitespace, and it starts with non-whitespace or is empty |
| Strings.TrimEnd | a2a/business_agent/src/business_agent/models/appointment_types.py:120 | the result is a prefix, everything dropped is whitespace, and it ends with non-whitespace or is empty |
| Strings.TrimStartAppend | a2a/business_agent/src/business_agent/models/appointment_types.py:120 | a leading strip only touches the first part when that part has non-whitespace |
| Strings.TrimStartAppendSpaces | a2a/business_agent/src/business_agent/models/appointment_types.py:120 | a leading strip removes an all-whitespace first part entirely |
| Strings.Strip | a2a/business_agent/src/business_agent/models/appointment_types.py:120 | only surrounding whitespace is removed: the result is the piece of the input between a whitespace prefix and a whitespace suffix, and neither starts nor ends with whitespace |
| Strings.StripUnique | a2a/business_agent/src/business_agent/models/appointment_types.py:120 | the contract of strip determines its result: any piece of the input with only whitespace around it and none at its own ends is the stripped text |
| Strings.Join | a2a/business_agent/src/business_agent/store.py:665-666 | joining one message gives that message, and joining none gives the empty text |
| Strings.SplitJoin | a2a/business_agent/src/business_agent/store.py:665-666 | joining pieces that hold no separator and splitting the text at the separator gives the same pieces back, in order |
| AppointmentTypes.NewStaff | a2a/business_agent/src/business_agent/models/appointment_types.py:106-115 | a staff record built from its required fields has the field defaults and an active status value |
| AppointmentTypes.NewStaffSummary | a2a/business_agent/src/business_agent/models/appointment_types.py:96-104 | a staff summary built from id and name has no optional parts |
| AppointmentTypes.StaffName | a2a/business_agent/src/business_agent/models/appointment_types.py:117-120 | the display name is "first last" with only its surrounding whitespace removed, so it neither starts nor ends with whitespace |
| AppointmentTypes.StaffNameEmptyLast | a2a/business_agent/src/business_agent/models/appointment_types.py:117-120 | with an empty last name the display name is the stripped first name |
| AppointmentTypes.StaffNameJoinsParts | a2a/business_agent/src/business_agent/models/appointment_types.py:117-120 | with names that need no stripping the display name is first and last name joined by one space |
| AppointmentTypes.NewSlot | a2a/business_agent/src/business_agent/models/appointment_types.py:230-254 | a slot built from its required fields has no options, selection or notes |
| AppointmentTypes.NewSlotRequest | a2a/business_agent/src/business_agent/models/appointment_types.py:256-277 | a slot request built from its required fields has no id, staff or notes |
| AppointmentTypes.NewAppointmentCheckout | a2a/business_agent/src/business_agent/models/appointment_types.py:304-314 | a checkout built from checkout fields alone has no appointment, buyer or order |
| BaseExtension.GetAgentExtension | a2a/business_agent/src/business_agent/a2a_extensions/base_extension.py:48-60 | the advertisement carries the extension's URI, description and params and is never required |
| BaseExtension.AddToAgentCard | a2a/business_agent/src/business_agent/a2a_extensions/base_extension.py:62-75 | adding appends exactly one advertisement, keeps the earlier ones and creates the list when it was absent |
| BaseExtension.AddTwiceListsTwice | a2a/business_agent/src/business_agent/a2a_extensions/base_extension.py:72-74 | adding the same extension twice lists it twice, because there is no duplicate check |
| BaseExtension.Advertisements | a2a/business_agent/src/business_agent/a2a_extensions/base_extension.py:48-60 | one advertisement per extension, in order |
| BaseExtension.AddAllAppends | a2a/business_agent/src/business_agent/a2a_extensions/base_extension.py:62-75 | adding several extensions appends their advertisements in order |
| BaseExtension.Activate | a2a/business_agent/src/business_agent/a2a_extensions/base_extension.py:77-88 | only this extension's URI can be activated, exactly when it was requested; with nothing requested the context is unchanged |
| BaseExtension.ActivateIdempotent | a2a/business_agent/src/business_agent/a2a_extensions/base_extension.py:77-88 | activating twice is activating once |
| BaseExtension.ActivateCommutes | a2a/business_agent/src/business_agent/a2a_extensions/base_extension.py:77-88 | the order in which extensions activate does not matter |
| SquareHelpers.FuzzyMatch | a2a/business_agent/src/business_agent/square_client.py:42-44 | a matching query is no longer than the text, and a text matches itself whatever the letter case |
| SquareHelpers.FuzzyMatchIgnoresCase | a2a/business_agent/src/business_agent/square_client.py:42-44 | the match ignores the case of query and text |
| SquareHelpers.FuzzyMatchEmptyQuery | a2a/business_agent/src/business_agent/square_client.py:42-44 | the empty query matches every text |
| SquareHelpers.FuzzyMatchFindsInfix | a2a/business_agent/src/business_agent/square_client.py:42-44 | a query that occurs inside the text matches it |
| SquareHelpers.FuzzyMatchLength | a2a/business_agent/src/business_agent/square_client.py:42-44 | a matching query is no longer than the text |
| SquareHelpers.FilterWithFallback | a2a/business_agent/src/business_agent/square_client.py:114-127 | without a query everything is returned; with one, the matches when there are any and everything otherwise; never empty for a non-empty input |
| SquareHelpers.OrElse | a2a/business_agent/src/business_agent/square_client.py:104-106 | Python's `or` on an optional string: an absent or empty string gives the default, any other string is kept |
| SquareHelpers.ToAddress | a2a/business_agent/src/business_agent/square_client.py:82-92 | the required address fields fall back to the empty string when Square leaves them out; the second line and the postal code are passed through |
| SquareHelpers.ToActiveLocation | a2a/business_agent/src/business_agent/square_client.py:82-110 | a listed location keeps its id and description, is active, takes its name or the empty name, takes its timezone unless it is absent or empty (then UTC, so it is never empty), and has its address converted when Square gives one |
| SquareHelpers.ActiveLocations | a2a/business_agent/src/business_agent/square_client.py:78-111 | only active locations are listed |
| SquareHelpers.ActiveLocationsAreFiltered | a2a/business_agent/src/business_agent/square_client.py:78-111 | the listing loop is the conversion of the Square locations whose status is ACTIVE, in order |
| SquareHelpers.ListLocations | a2a/business_agent/src/business_agent/square_client.py:64-128 | only active locations are listed; without a query all of them; with a query that something matches, exactly the matches on name, city and first address line, in input order; otherwise all of them |
| SquareHelpers.ListLocationsOnlyActive | a2a/business_agent/src/business_agent/square_client.py:64-128 | every listed location is active and comes from an ACTIVE Square location; with one such location the list is never empty |
| SquareHelpers.ListStaff | a2a/business_agent/src/business_agent/square_client.py:186-197 | without a query every staff member; with a query that something matches, exactly the members matching on first name, last name and email, in input order; otherwise everyone |
| SquareHelpers.ListStaffFindsByFirstName | a2a/business_agent/src/business_agent/square_client.py:189-195 | searching for a staff member's first name finds that member |
| SquareHelpers.ListServiceVariations | a2a/business_agent/src/business_agent/square_client.py:259-265 | without a query every variation; with a query that something matches, exactly the variations whose name matches, in input order; otherwise all of them |
| SquareHelpers.ListBookings | a2a/business_agent/src/business_agent/square_client.py:504-519 | without a query every booking; with a query that something matches, exactly the bookings matching on location, service and staff names, in input order; otherwise all of them |
| SquareHelpers.BookingSearchParts | a2a/business_agent/src/business_agent/square_client.py:507-512 | each segment contributes its service and its staff name |
| SquareHelpers.StatusFromSquare | a2a/business_agent/src/business_agent/square_client.py:172-174 | the status is always a valid value and is active exactly when Square says ACTIVE |
| SquareHelpers.DurationSeconds | a2a/business_agent/src/business_agent/square_client.py:246-247 | milliseconds are rounded down to whole seconds; a missing duration is 0 |
| SquareHelpers.BookingDurationMinutes | a2a/business_agent/src/business_agent/square_client.py:422-430 | a zero or missing duration books 60 minutes; otherwise milliseconds are rounded down to whole minutes |
| SquareHelpers.TotalDurationMinutes | a2a/business_agent/src/business_agent/square_client.py:684-687 | the summation loop yields the sum of the segment minutes, missing ones counted as 0, and is non-negative when every segment is |
| SquareHelpers.SegmentMinutesAppend | a2a/business_agent/src/business_agent/square_client.py:684-687 | segment minutes add up across concatenation |
| Pricing.LineTotalsAmounts | a2a/business_agent/src/business_agent/store.py:585-601 | a line's totals read back as discount 0 and subtotal and total equal to the amount |
| Pricing.CheckoutTotalsAmounts | a2a/business_agent/src/business_agent/store.py:606-627 | the checkout totals read back as discounts 0, the subtotal, the tax, and total = subtotal + tax |
| Pricing.PriceLines | a2a/business_agent/src/business_agent/store.py:580-601 | every line is priced on its own, in place |
| Pricing.PricedSubtotalsSum | a2a/business_agent/src/business_agent/store.py:603-617 | the checkout subtotal is the sum of the line subtotals |
| Pricing.Recalculate | a2a/business_agent/src/business_agent/store.py:573-629 | only the status and the totals of checkout and lines change; the status becomes incomplete |
| Pricing.RecalculateAmounts | a2a/business_agent/src/business_agent/store.py:580-627 | each line has subtotal = total = price × quantity and discount 0; the checkout subtotal is the sum of the line subtotals, its tax is the tax of that subtotal, and its total is their sum |
| Pricing.RecalculateSubtotal | a2a/business_agent/src/business_agent/store.py:603-617 | the checkout subtotal is the sum of price × quantity |
| Pricing.RecalculateConsistent | a2a/business_agent/src/business_agent/store.py:573-629 | after recalculation the totals agree with the lines |
| Pricing.RecalculateFixpoint | a2a/business_agent/src/business_agent/store.py:573-629 | on a checkout whose totals already agree, recalculation changes only the status |
| Pricing.RecalculateIdempotent | a2a/business_agent/src/business_agent/store.py:573-629 | recalculating twice is recalculating once |
| Pricing.ComputeSubtotal | a2a/business_agent/src/business_agent/store.py:577-606 | the accumulation loop yields the sum of price × quantity and a zero discount |
| Pricing.SumBaseUpdate | a2a/business_agent/src/business_agent/store.py:603 | replacing one line changes the sum by the difference of the two lines |
| ServiceStore.GetServiceVariation | a2a/business_agent/src/business_agent/store.py:122-139 | a cached variation is returned as is; otherwise Square's answer carries the requested id and is cached; no client or an unknown id is the matching error and leaves the cache alone |
| ServiceStore.CacheExtendsTransitive | a2a/business_agent/src/business_agent/store.py:131-138 | the cache only grows, and only by Square's answers, across any number of lookups |
| ServiceStore.CacheAll | a2a/business_agent/src/business_agent/store.py:116-118 | every listed variation ends up cached under its id, with the last one listed winning; entries for other ids are kept; nothing is dropped |
| ServiceStore.SearchServices | a2a/business_agent/src/business_agent/store.py:102-120 | without a client nothing is found and nothing changes; otherwise every variation found comes from the catalog and is cached, a non-empty catalog always finds something, and checkouts and orders are untouched |
| ServiceStore.ResolveLocation | a2a/business_agent/src/business_agent/store.py:336-348 | the slot's location carries the requested id; its name is Square's name for a known location, and empty without a client or when the lookup fails |
| ServiceStore.GetCheckout | a2a/business_agent/src/business_agent/store.py:381-390 | a checkout is returned exactly when one is filed under the id |
| ServiceStore.NewCheckout | a2a/business_agent/src/business_agent/store.py:258-275 | a new checkout is incomplete, has no lines, no slots, no buyer and no order |
| ServiceStore.NewLineItem | a2a/business_agent/src/business_agent/store.py:203-226 | a new line names the service, charges its price (0 when it has none) and has no totals |
| ServiceStore.MergeLineItem | a2a/business_agent/src/business_agent/store.py:281-294 | with a line already booking the service, no line is appended: only that first line changes, its quantity growing by `quantity`, and its id is reported; without one, exactly one new line for the service is appended at the end under the fresh id; every other line and the rest of the checkout are kept |
| ServiceStore.SlotOption | a2a/business_agent/src/business_agent/store.py:350-361 | the option ends when it starts and lasts the service's duration rounded down to minutes |
| ServiceStore.Reschedule | a2a/business_agent/src/business_agent/store.py:363-368 | a rescheduled slot keeps its id and its line items, and gets the new location and notes and the one option, selected |
| ServiceStore.UpsertSlot | a2a/business_agent/src/business_agent/store.py:312-379 | only the slots change; the first slot listing the line is rescheduled in place, keeping its id, its line items and the slot count, with the new location, notes and a single selected option at the start time; without such a slot, a new slot for exactly that line is appended at the end; every other slot is kept |
| ServiceStore.AddService | a2a/business_agent/src/business_agent/store.py:281-306 | the merge and slot step changes only lines and slots |
| ServiceStore.AddToCheckout | a2a/business_agent/src/business_agent/store.py:228-310 | a failed lookup changes nothing; an unknown checkout id is "not found"; on success the incomplete result is filed under the given or fresh id and orders are kept (the lines and slots it leaves are stated by `StoreProperties.AddToCheckoutLines` and `StoreProperties.AddToCheckoutSlots`) |
| ServiceStore.RemoveLine | a2a/business_agent/src/business_agent/store.py:408-419 | the lines without the id are kept in order, and the slots listing the id are dropped |
| ServiceStore.RemoveFromCheckout | a2a/business_agent/src/business_agent/store.py:392-423 | succeeds exactly for a known checkout, leaves no line with the id, and files the incomplete result |
| ServiceStore.SetQuantity | a2a/business_agent/src/business_agent/store.py:453-460 | only the found line's quantity changes, and only when a quantity is given |
| ServiceStore.UpdateCheckout | a2a/business_agent/src/business_agent/store.py:425-480 | unknown checkout or line is the matching error with the store untouched; on success the incomplete result is filed and the cache only grows |
| ServiceStore.ApplySlotRequest | a2a/business_agent/src/business_agent/store.py:505-567 | one request changes only the slots and only grows the cache |
| ServiceStore.ApplySlotRequestSlots | a2a/business_agent/src/business_agent/store.py:542-567 | a request naming an existing slot id overwrites that slot in place; otherwise a slot with the requested or a fresh id is appended; either way the slot is as requested |
| ServiceStore.ApplySlotRequests | a2a/business_agent/src/business_agent/store.py:504-567 | working through the requests changes only the slots and only grows the cache |
| ServiceStore.RequestDuration | a2a/business_agent/src/business_agent/store.py:522-532 | a request listing no checkout line gets 60 minutes; otherwise the service of the first checkout line (in checkout order) that the request lists decides: its duration rounded down to whole minutes when the lookup succeeds, 60 when it fails; the cache only grows |
| ServiceStore.SetAppointment | a2a/business_agent/src/business_agent/store.py:482-571 | succeeds exactly for a known checkout, keeps the lines and orders, and files the incomplete result |
| ServiceStore.PaymentMessages | a2a/business_agent/src/business_agent/store.py:647-663 | at most two reasons, each one of the three texts; a missing buyer comes first; none exactly when a buyer is given and either every line is listed by a slot or, with no slots, there are no lines |
| ServiceStore.ScheduledIds | a2a/business_agent/src/business_agent/store.py:652-655 | the scheduled set holds exactly the ids some slot lists |
| ServiceStore.StartPayment | a2a/business_agent/src/business_agent/store.py:631-671 | a ready checkout is returned untouched; a held-back checkout leaves the store untouched; a started checkout is ready and filed |
| ServiceStore.PlaceOrder | a2a/business_agent/src/business_agent/store.py:673-742 | a known checkout, whatever its status, is completed with order `ORD-<id>`, moved from the checkouts to the orders, and keeps its lines and totals |
| StoreInvariant.EmptyStoreInv | a2a/business_agent/src/business_agent/store.py:88-90 | the empty store satisfies the invariant |
| StoreInvariant.SearchServicesKeepsInv | a2a/business_agent/src/business_agent/store.py:102-120 | `search_services` keeps the invariant |
| StoreInvariant.CacheExtendsKeyed | a2a/business_agent/src/business_agent/store.py:137-138 | caching Square's answers keeps every variation filed under its own id |
| StoreInvariant.AddToCheckoutKeepsInv | a2a/business_agent/src/business_agent/store.py:228-310 | `add_to_checkout` keeps the invariant |
| StoreInvariant.RemoveFromCheckoutKeepsInv | a2a/business_agent/src/business_agent/store.py:392-423 | `remove_from_checkout` keeps the invariant |
| StoreInvariant.UpdateCheckoutLookupSucceeds | a2a/business_agent/src/business_agent/store.py:462-467 | under the invariant, the service lookup of a rescheduling update cannot fail, so the update fails only for an unknown checkout or line |
| StoreInvariant.UpdateCheckoutKeepsInv | a2a/business_agent/src/business_agent/store.py:425-480 | `update_checkout` keeps the invariant |
| StoreInvariant.SetAppointmentKeepsInv | a2a/business_agent/src/business_agent/store.py:482-571 | `set_appointment` keeps the invariant |
| StoreInvariant.StartPaymentKeepsInv | a2a/business_agent/src/business_agent/store.py:631-671 | `start_payment` keeps the invariant |
| StoreInvariant.PlaceOrderKeepsInv | a2a/business_agent/src/business_agent/store.py:673-742 | `place_order` keeps the invariant: the order is completed and confirmed under its key |
| StoreProperties.QuantityOfUpdate | a2a/business_agent/src/business_agent/store.py:457-458 | setting one line's quantity changes its service's booked quantity by the difference |
| StoreProperties.RecalculateSameBookings | a2a/business_agent/src/business_agent/store.py:573-628 | recalculation leaves services and quantities alone |
| StoreProperties.MergeQuantities | a2a/business_agent/src/business_agent/store.py:282-294 | merging adds the quantity to the service and to no other |
| StoreProperties.MergeSubtotal | a2a/business_agent/src/business_agent/store.py:282-294 | merging adds the quantity at the unit price of the existing line, or of the service for a new line |
| StoreProperties.MergeOneLinePerService | a2a/business_agent/src/business_agent/store.py:282-294 | merging never books a service on a second line |
| StoreProperties.AddToCheckoutLines | a2a/business_agent/src/business_agent/store.py:281-294 | up to totals: with a line already booking the service only that line changes, by `quantity`, and the line count is kept; without one, exactly one new line for the service is appended at the end; every other line is kept |
| StoreProperties.AddToCheckoutSlots | a2a/business_agent/src/business_agent/store.py:296-306 | with a location, a start time and a non-empty line id, the slot of the line booking the service is upserted (the first slot listing it rescheduled in place, or a new slot for just that line appended, every other slot kept); otherwise the appointment is untouched |
| StoreProperties.AddToCheckoutQuantities | a2a/business_agent/src/business_agent/store.py:228-310 | adding books `quantity` more of the service and leaves every other service's quantity unchanged |
| StoreProperties.AddToCheckoutSubtotal | a2a/business_agent/src/business_agent/store.py:228-310 | adding raises the subtotal by `quantity` at the unit price charged |
| StoreProperties.AddToCheckoutOneLinePerService | a2a/business_agent/src/business_agent/store.py:282-294 | adding never books a service on a second line |
| StoreProperties.MergeTouchesServiceLine | a2a/business_agent/src/business_agent/store.py:282-294 | the id merging reports is that of a line booking the service, either an existing line or the new one |
| StoreProperties.AddServiceSchedules | a2a/business_agent/src/business_agent/store.py:296-306 | with a location and a start time, the line booking the service is scheduled at that time, and the slots are the old ones with that line's slot upserted (rescheduled in place, or a new one for just that line appended, the others kept) |
| StoreProperties.AddToCheckoutSchedules | a2a/business_agent/src/business_agent/store.py:296-306 | under the invariant, adding with a location and a start time leaves the service scheduled at that time |
| StoreProperties.RemoveFromCheckoutKeepsOtherLines | a2a/business_agent/src/business_agent/store.py:408-411 | every line with another id survives, in order, unchanged but for its totals |
| StoreProperties.RemoveFromCheckoutSlots | a2a/business_agent/src/business_agent/store.py:413-419 | no slot lists the removed id, and every slot that did not list it survives |
| StoreProperties.RemoveUnknownLineChangesNothing | a2a/business_agent/src/business_agent/store.py:392-423 | removing an id no line has and no slot lists changes only the status of a consistent checkout |
| StoreProperties.UpdateCheckoutSetsQuantity | a2a/business_agent/src/business_agent/store.py:453-461 | the line gets the new quantity (zero included, and the line stays), every other line is unchanged but for totals, and only that service's booked quantity changes |
| StoreProperties.UpdateCheckoutSchedules | a2a/business_agent/src/business_agent/store.py:465-476 | with a location and a start time, some slot lists the line with a single selected option at that time, location and notes; the slots are the old ones with that line's slot upserted: the first slot listing it rescheduled in place with its id and line items, or else a new slot for just that line appended, every other slot kept |
| StoreProperties.UpdateCheckoutKeepsSlots | a2a/business_agent/src/business_agent/store.py:465-466 | without a location and a start time the appointment is untouched |
| AppointmentProperties.ApplySlotRequestsKeepsIds | a2a/business_agent/src/business_agent/store.py:542-567 | working through the requests keeps every slot id at its position and adds at most one slot per request |
| AppointmentProperties.ApplySlotRequestsCoversIds | a2a/business_agent/src/business_agent/store.py:542-567 | every slot id a request names ends up on some slot |
| AppointmentProperties.ApplySlotRequestApplies | a2a/business_agent/src/business_agent/store.py:542-567 | after one request some slot is as the request asks, with its id when it names one |
| AppointmentProperties.ApplySlotRequestsLast | a2a/business_agent/src/business_agent/store.py:504-567 | the last request is applied as given |
| AppointmentProperties.SetAppointmentSlotIds | a2a/business_agent/src/business_agent/store.py:482-571 | existing slots keep their ids and positions; the slot count grows by at most the number of requests; every requested id is present |
| AppointmentProperties.SetAppointmentLastRequest | a2a/business_agent/src/business_agent/store.py:482-571 | after `set_appointment` some slot is exactly as the last request asks, with its id when it names one |
| AppointmentProperties.SetAppointmentWithoutRequests | a2a/business_agent/src/business_agent/store.py:498-505 | without requests the slots are unchanged, and an empty container exists |
| PaymentProperties.UnscheduledEmptyIff | a2a/business_agent/src/business_agent/store.py:652-660 | no line is unscheduled exactly when every line is listed by some slot |
| PaymentProperties.MessagesDistinct | a2a/business_agent/src/business_agent/store.py:647-663 | the three messages are different texts |
| PaymentProperties.PaymentMessagesReasons | a2a/business_agent/src/business_agent/store.py:647-663 | each message is reported exactly when its reason holds; nothing is reported exactly when a buyer is given and every line is scheduled |
| PaymentProperties.StartPaymentGate | a2a/business_agent/src/business_agent/store.py:644-671 | a checkout that is not ready starts exactly when it has a buyer and every line is scheduled; it then has recalculated totals; otherwise the reasons come back joined by newlines |
| PaymentProperties.StartPaymentReasonsRecoverable | a2a/business_agent/src/business_agent/store.py:647-666 | splitting the message at newlines gives back exactly the reasons, in order |
| PaymentProperties.StartPaymentBuyerOnly | a2a/business_agent/src/business_agent/store.py:647-666 | a missing buyer on a fully scheduled checkout is reported alone |
| PaymentProperties.StartPaymentIdempotent | a2a/business_agent/src/business_agent/store.py:631-671 | calling `start_payment` again gives the same reply and store |
| ServiceStore.OrderId | a2a/business_agent/src/business_agent/store.py:732 | the order id is `ORD-` followed by the checkout id, which can be read back from it |
| PaymentProperties.OrderIdInjective | a2a/business_agent/src/business_agent/store.py:732 | different checkouts get different order ids |
| PaymentProperties.PlaceOrderEndsCheckout | a2a/business_agent/src/business_agent/store.py:740-741 | after placing, the checkout cannot be read; placing, paying, removing, updating and scheduling on it fail as not found; adding to it under its id (when non-empty) fails with the service lookup's error when that lookup fails and as not found otherwise |
| PaymentProperties.PlaceOrderFilesOrder | a2a/business_agent/src/business_agent/store.py:732-740 | the order is filed under its id with its confirmation, and other orders are kept |

## Left out

- Square SDK calls are not modelled: locations, team members, catalog search, availability search, booking creation, listing and cancelling. What the store reads from Square is a snapshot parameter (`Square`); the client's list operations are modelled only after their API call, as functions of the returned records.
- `list_locations`, `list_staff`, `search_availability`, `get_bookings` and `cancel_booking` of the store only forward to Square, so they are not modelled. The search helpers they rely on are in `SquareHelpers`.
- The Square bookings that `place_order` creates are a side effect whose failures are only logged. They do not change the checkout or the orders, so they are not modelled.
- `uuid4()` becomes the `IdSupply` parameter, and every operation draws ids from fixed indices. Fresh ids are not proved distinct.
- `datetime` becomes an abstract `Time`.
- Pricing.Recalculate: the tax is the `TaxPolicy` parameter, not `round(subtotal * 0.1)`, because the source computes it in floating point with banker's rounding.
- ServiceStore.NewLineItem: prices are whole cents (`price: Option<int>`), not `int(price * 100)` on a float. The float product can round a cent down, for example 0.29 × 100, and that is not modelled.
- Strings.Lower: only ASCII letters are lower-cased, not Python's full Unicode `str.lower`.
- `continue_url`, links, payment handlers, UCP metadata and `get_checkout_type` are not modelled. They are constants or SDK plumbing.
- The per-field validation of the Pydantic models is not modelled. The datatypes keep the fields the modelled operations read or write, and drop the rest (next lines).
- `Location.coordinates` and the `Coordinate` record (`models/appointment_types.py`, lines 58-62 and 84) are not modelled: they hold floats, and no modelled operation reads them. `list_locations` fills them from Square (`square_client.py`, lines 94-100); the conversion is left out with them.
- `AppointmentOptionRequest` (`models/appointment_types.py`, lines 209-224) is not modelled: no modelled operation takes it as input.
- ServiceStore.ResolveLocation: the slot's location always gets the requested id. The source takes `loc.id` from the location Square returns (`store.py`, lines 340-343). The two agree only when Square answers a lookup with the location that was asked for, which the `Square` snapshot assumes. The name is the one the snapshot's `locationNames` holds for the id, standing in for the name of the returned location.
- The agent layer (`agent.py`) and the tests are not modelled. They are callers of the store.
- ServiceStore.ApplySlotRequestSlots: the slot it describes is stated without its option's id and duration; `RequestDuration` states the duration on its own.
- Mutation aliasing is not modelled: the store mutates the stored checkout objects in place. The model files the new value instead. For the store's own operations the two agree, because each one re-files the object it mutated, and `update_checkout` keeps a quantity written before a failed lookup, as the model does. Writes made by callers through the object `get_checkout` returns are not modelled (next line).
- ServiceStore.StartPayment: the buyer is attached by the agent, which writes `checkout.buyer` into the stored checkout through the object `get_checkout` returns (`agent.py`, lines 428-433), with no store call. No modelled operation sets the buyer, so a store reached from the empty store by the modelled operations alone never gets past the buyer check of `start_payment`; the payment lemmas are stated for any store and checkout, so they cover checkouts that carry a buyer.

=== FILE: appointment_properties.dfy ===
/** What `set_appointment` does to the slot list: slots are never dropped or
    reordered, each request adds at most one slot, every requested slot id
    ends up in the list, and the last request is applied as given. */
module AppointmentProperties {
  import opened Base
  import opened UcpTypes
  import opened AppointmentTypes
  import opened Pricing
  import opened ServiceStore

  /** Working through the requests keeps every existing slot id at its
      position and adds at most one slot per request. */
  lemma {:induction false} ApplySlotRequestsKeepsIds(
    cache: map<string, ServiceVariation>, square: Option<Square>, c: Checkout, reqs: seq<SlotRequest>, ids: IdSupply, n: nat)
    ensures var r := ApplySlotRequests(cache, square, c, reqs, ids, n).checkout;
      && |SlotsOf(c)| <= |SlotsOf(r)| <= |SlotsOf(c)| + |reqs|
      && forall j :: 0 <= j < |SlotsOf(c)| ==> SlotsOf(r)[j].id == SlotsOf(c)[j].id
    decreases |reqs|
  {
    if |reqs| > 0 {
      var step := ApplySlotRequest(cache, square, c, reqs[0], ids(2 * n), ids(2 * n + 1));
      ApplySlotRequestsKeepsIds(step.cache, square, step.checkout, reqs[1..], ids, n + 1);
      var req := reqs[0];
      ApplySlotRequestSlots(cache, square, c, req, ids(2 * n), ids(2 * n + 1));
      if Given(req.id) && FirstIndex(SlotIdIs(req.id.value), SlotsOf(c)).Some? {
        var k := FirstIndex(SlotIdIs(req.id.value), SlotsOf(c)).value;
        assert SlotIdIs(req.id.value)(SlotsOf(c)[k]);
      } else {
        assert forall j :: 0 <= j < |SlotsOf(c)| ==> SlotsOf(step.checkout)[j] == SlotsOf(step.checkout)[..|SlotsOf(c)|][j];
      }
    }
  }

  /** Every id a request names is the id of some slot once all requests are
      worked through. */
  lemma {:induction false} ApplySlotRequestsCoversIds(
    cache: map<string, ServiceVariation>, square: Option<Square>, c: Checkout, reqs: seq<SlotRequest>, ids: IdSupply, n: nat)
    ensures var r := ApplySlotRequests(cache, square, c, reqs, ids, n).checkout;
      forall i :: 0 <= i < |reqs| && Given(reqs[i].id) ==>
        exists j :: 0 <= j < |SlotsOf(r)| && SlotsOf(r)[j].id == reqs[i].id.value
    decreases |reqs|
  {
    if |reqs| > 0 {
      var step := ApplySlotRequest(cache, square, c, reqs[0], ids(2 * n), ids(2 * n + 1));
      var r := ApplySlotRequests(cache, square, c, reqs, ids, n).checkout;
      ApplyFirstRequest(cache, square, c, reqs, ids, n);
      ApplySlotRequestsCoversIds(step.cache, square, step.checkout, reqs[1..], ids, n + 1);
      ApplySlotRequestsKeepsIds(step.cache, square, step.checkout, reqs[1..], ids, n + 1);
      forall i | 0 <= i < |reqs| && Given(reqs[i].id)
        ensures exists j :: 0 <= j < |SlotsOf(r)| && SlotsOf(r)[j].id == reqs[i].id.value
      {
        if i == 0 {
          var req := reqs[0];
          ApplySlotRequestSlots(cache, square, c, req, ids(2 * n), ids(2 * n + 1));
          var p := if FirstIndex(SlotIdIs(req.id.value), SlotsOf(c)).Some? then FirstIndex(SlotIdIs(req.id.value), SlotsOf(c)).value
                   else |SlotsOf(c)|;
          assert SlotsOf(step.checkout)[p].id == req.id.value;
          assert SlotsOf(r)[p].id == req.id.value;
        } else {
          assert reqs[i] == reqs[1..][i - 1];
        }
      }
    }
  }

  /** The first request is worked through first. */
  lemma ApplyFirstRequest(cache: map<string, ServiceVariation>, square: Option<Square>, c: Checkout, reqs: seq<SlotRequest>, ids: IdSupply, n: nat)
    requires |reqs| > 0
    ensures var step := ApplySlotRequest(cache, square, c, reqs[0], ids(2 * n), ids(2 * n + 1));
      ApplySlotRequests(cache, square, c, reqs, ids, n) == ApplySlotRequests(step.cache, square, step.checkout, reqs[1..], ids, n + 1)
  {
  }

  /** Some slot of `r` is as request `q` asks, with its id when it names
      one. */
  ghost predicate SlotApplied(r: Checkout, q: SlotRequest, square: Option<Square>) {
    exists j :: 0 <= j < |SlotsOf(r)| && AppliesRequest(SlotsOf(r)[j], q, ResolveLocation(square, q.locationId))
                && (Given(q.id) ==> SlotsOf(r)[j].id == q.id.value)
  }

  /** The last request is applied as given: no later request can overwrite
      its slot. */
  lemma {:induction false} ApplySlotRequestsLast(
    cache: map<string, ServiceVariation>, square: Option<Square>, c: Checkout, reqs: seq<SlotRequest>, ids: IdSupply, n: nat)
    requires |reqs| > 0
    ensures SlotApplied(ApplySlotRequests(cache, square, c, reqs, ids, n).checkout, reqs[|reqs| - 1], square)
    decreases |reqs|
  {
    var step := ApplySlotRequest(cache, square, c, reqs[0], ids(2 * n), ids(2 * n + 1));
    ApplyFirstRequest(cache, square, c, reqs, ids, n);
    if |reqs| == 1 {
      ApplyNoRequests(step.cache, square, step.checkout, reqs[1..], ids, n + 1);
      ApplySlotRequestApplies(cache, square, c, reqs[0], ids(2 * n), ids(2 * n + 1));
    } else {
      assert reqs[1..][|reqs[1..]| - 1] == reqs[|reqs| - 1];
      ApplySlotRequestsLast(step.cache, square, step.checkout, reqs[1..], ids, n + 1);
    }
  }

  /** No requests, no change. */
  lemma ApplyNoRequests(cache: map<string, ServiceVariation>, square: Option<Square>, c: Checkout, reqs: seq<SlotRequest>, ids: IdSupply, n: nat)
    requires |reqs| == 0
    ensures ApplySlotRequests(cache, square, c, reqs, ids, n) == Applied(cache, c)
  {
  }

  /** After one request some slot is as the request asks, with its id when
      it names one. */
  lemma ApplySlotRequestApplies(cache: map<string, ServiceVariation>, square: Option<Square>, c: Checkout, q: SlotRequest, optionId: string, slotId: string)
    ensures SlotApplied(ApplySlotRequest(cache, square, c, q, optionId, slotId).checkout, q, square)
  {
    var r := ApplySlotRequest(cache, square, c, q, optionId, slotId).checkout;
    var location := ResolveLocation(square, q.locationId);
    ApplySlotRequestSlots(cache, square, c, q, optionId, slotId);
    if Given(q.id) && FirstIndex(SlotIdIs(q.id.value), SlotsOf(c)).Some? {
      var k := FirstIndex(SlotIdIs(q.id.value), SlotsOf(c)).value;
      assert AppliesRequest(SlotsOf(r)[k], q, location);
    } else {
      assert AppliesRequest(SlotsOf(r)[|SlotsOf(c)|], q, location);
    }
  }

  /** The requests a call to `set_appointment` carries. */
  function Requests(request: AppointmentRequest): seq<SlotRequest> {
    request.slots.GetOr([])
  }

  /** A successful `set_appointment` files the recalculated checkout with the
      requests worked through. */
  lemma SetAppointmentResult(st: Store, square: Option<Square>, tax: TaxPolicy, ids: IdSupply, checkoutId: string, request: AppointmentRequest)
    requires checkoutId in st.checkouts
    ensures var c := st.checkouts[checkoutId];
      SetAppointment(st, square, tax, ids, checkoutId, request).result
        == Ok(Recalculate(ApplySlotRequests(st.serviceCache, square, WithSlots(c, SlotsOf(c)), Requests(request), ids, 0).checkout, tax))
  {
  }

  /** `set_appointment` keeps every existing slot, by id and position, and
      adds at most one slot per request; every slot id a request names is in
      the result. */
  lemma SetAppointmentSlotIds(st: Store, square: Option<Square>, tax: TaxPolicy, ids: IdSupply, checkoutId: string, request: AppointmentRequest)
    requires checkoutId in st.checkouts
    ensures var c := st.checkouts[checkoutId];
      var r := SetAppointment(st, square, tax, ids, checkoutId, request).result.value;
      && |SlotsOf(c)| <= |SlotsOf(r)| <= |SlotsOf(c)| + |Requests(request)|
      && (forall j :: 0 <= j < |SlotsOf(c)| ==> SlotsOf(r)[j].id == SlotsOf(c)[j].id)
      && (forall i :: 0 <= i < |Requests(request)| && Given(Requests(request)[i].id) ==>
            exists j :: 0 <= j < |SlotsOf(r)| && SlotsOf(r)[j].id == Requests(request)[i].id.value)
  {
    var c := st.checkouts[checkoutId];
    var c0 := WithSlots(c, SlotsOf(c));
    SetAppointmentResult(st, square, tax, ids, checkoutId, request);
    ApplySlotRequestsKeepsIds(st.serviceCache, square, c0, Requests(request), ids, 0);
    ApplySlotRequestsCoversIds(st.serviceCache, square, c0, Requests(request), ids, 0);
    var a := ApplySlotRequests(st.serviceCache, square, c0, Requests(request), ids, 0).checkout;
    assert SlotsOf(Recalculate(a, tax)) == SlotsOf(a);
  }

  /** The last request is applied as given: some slot lists its line items,
      sits at its location, carries its notes and its single selected option
      at its start time, and has its id when it names one. */
  lemma SetAppointmentLastRequest(st: Store, square: Option<Square>, tax: TaxPolicy, ids: IdSupply, checkoutId: string, request: AppointmentRequest)
    requires checkoutId in st.checkouts && |Requests(request)| > 0
    ensures var q := Requests(request)[|Requests(request)| - 1];
      var r := SetAppointment(st, square, tax, ids, checkoutId, request).result.value;
      exists j :: 0 <= j < |SlotsOf(r)| && AppliesRequest(SlotsOf(r)[j], q, ResolveLocation(square, q.locationId))
                  && (Given(q.id) ==> SlotsOf(r)[j].id == q.id.value)
  {
    var c := st.checkouts[checkoutId];
    SetAppointmentResult(st, square, tax, ids, checkoutId, request);
    ApplySlotRequestsLast(st.serviceCache, square, WithSlots(c, SlotsOf(c)), Requests(request), ids, 0);
    var a := ApplySlotRequests(st.serviceCache, square, WithSlots(c, SlotsOf(c)), Requests(request), ids, 0).checkout;
    assert SlotsOf(Recalculate(a, tax)) == SlotsOf(a);
  }

  /** Without requests `set_appointment` leaves the slot list as it was
      (creating an empty container when there was none). */
  lemma SetAppointmentWithoutRequests(st: Store, square: Option<Square>, tax: TaxPolicy, ids: IdSupply, checkoutId: string, request: AppointmentRequest)
    requires checkoutId in st.checkouts && |Requests(request)| == 0
    ensures var r := SetAppointment(st, square, tax, ids, checkoutId, request).result.value;
      && SlotsOf(r) == SlotsOf(st.checkouts[checkoutId])
      && r.appointment.Some?
  {
    SetAppointmentResult(st, square, tax, ids, checkoutId, request);
  }
}

=== FILE: appointment_types.dfy ===
/** The appointment capability's data model: locations, staff, services,
    bookings, and the slot/option structure that attaches appointment times to
    a checkout's line items. Instants are opaque integers; coordinates (floats)
    are not modelled. */
module AppointmentTypes {
  import opened Base
  import opened Strings
  import opened UcpTypes

  /** An instant; datetime arithmetic is outside this model. */
  type Time = int

  /** The status values of `LocationStatus` and `StaffStatus`. */
  const StatusActive: string := "active"
  const StatusInactive: string := "inactive"

  /** The only two values a location or staff status takes. */
  predicate IsStatusValue(s: string) {
    s == StatusActive || s == StatusInactive
  }

  datatype Address = Address(
    addressLine1: string,
    addressLine2: Option<string>,
    city: string,
    state: string,
    zipCode: Option<string>,
    country: string)

  datatype Location = Location(
    id: string,
    name: string,
    address: Option<Address>,
    timezone: string,
    status: string,
    description: Option<string>)

  datatype LocationSummary = LocationSummary(id: string, name: string)

  datatype StaffSummary = StaffSummary(
    id: string,
    name: string,
    firstName: Option<string>,
    lastName: Option<string>,
    availableAt: seq<LocationSummary>)

  /** `StaffResponse`. */
  datatype Staff = Staff(
    id: string,
    firstName: string,
    lastName: string,
    email: Option<string>,
    phone: Option<string>,
    status: string,
    locations: seq<LocationSummary>)

  /** A `StaffResponse` built from its required fields only. */
  function NewStaff(id: string, firstName: string, lastName: string): (r: Staff)
    ensures r.id == id && r.firstName == firstName && r.lastName == lastName
    ensures r.status == StatusActive && IsStatusValue(r.status)
    ensures r.email == None && r.phone == None && r.locations == []
  {
    Staff(id, firstName, lastName, None, None, StatusActive, [])
  }

  /** A `StaffSummaryResponse` built from its required fields only. */
  function NewStaffSummary(id: string, name: string): (r: StaffSummary)
    ensures r.id == id && r.name == name
    ensures r.firstName == None && r.lastName == None && r.availableAt == []
  {
    StaffSummary(id, name, None, None, [])
  }

  /** The `name` property of a staff member: first and last name joined by a
      space, surrounding whitespace stripped. */
  function StaffName(s: Staff): (r: string)
    ensures exists k: nat :: TrimmedAt(r, s.firstName + " " + s.lastName, k)
    ensures r == "" || (!IsSpace(r[0]) && !IsSpace(r[|r| - 1]))
    ensures IsInfix(r, s.firstName + " " + s.lastName)
  {
    Strip(s.firstName + " " + s.lastName)
  }

  /** With an empty last name the display name is the stripped first name:
      the joining space never shows. */
  lemma StaffNameEmptyLast(s: Staff)
    requires s.lastName == ""
    ensures StaffName(s) == Strip(s.firstName)
  {
    assert s.firstName + " " + s.lastName == s.firstName + " ";
    if HasNonSpace(s.firstName) {
      TrimStartAppend(s.firstName, " ");
      TrimEndDropsSpace(TrimStart(s.firstName), ' ');
    } else {
      TrimStartAppendSpaces(s.firstName, " ");
      TrimStartAppendSpaces(s.firstName, "");
      assert s.firstName + "" == s.firstName;
      assert TrimStart(" ") == "";
    }
  }

  /** Names with no surrounding whitespace are joined by exactly one space. */
  lemma StaffNameJoinsParts(s: Staff)
    requires |s.firstName| > 0 && !IsSpace(s.firstName[0])
    requires |s.lastName| > 0 && !IsSpace(s.lastName[|s.lastName| - 1])
    ensures StaffName(s) == s.firstName + " " + s.lastName
  {
    var full := s.firstName + " " + s.lastName;
    assert full[0] == s.firstName[0];
    assert full[|full| - 1] == s.lastName[|s.lastName| - 1];
  }

  datatype Customer = Customer(id: string, firstName: string, lastName: string, email: string, phone: string)

  /** A bookable service variation. `price` is held in minor units; the
      source's float dollars are not modelled. */
  datatype ServiceVariation = ServiceVariation(
    id: string,
    serviceId: string,
    name: string,
    description: Option<string>,
    displayPrice: string,
    price: Option<int>,
    durationSeconds: int,
    staff: Option<seq<StaffSummary>>)

  datatype AppointmentSegment = AppointmentSegment(
    id: string,
    serviceVariation: ServiceVariation,
    staff: StaffSummary,
    startTime: Time,
    endTime: Time,
    location: LocationSummary)

  datatype AvailabilitySlot = AvailabilitySlot(
    startTime: Time,
    endTime: Time,
    staff: StaffSummary,
    location: LocationSummary)

  datatype Booking = Booking(
    id: string,
    location: Location,
    customer: Option<Customer>,
    startTime: Time,
    durationMinutes: Option<int>,
    segments: seq<AppointmentSegment>,
    customerNotes: Option<string>,
    sellerNotes: Option<string>)

  /** `AppointmentOptionResponse`: one bookable time for a slot. */
  datatype AppointmentOption = AppointmentOption(
    id: string,
    startTime: Time,
    endTime: Option<Time>,
    staffId: Option<string>,
    staffName: Option<string>,
    durationMinutes: Option<int>)

  /** `AppointmentSlotResponse`: a group of line items sharing a location and
      a list of options, one of which may be selected. */
  datatype Slot = Slot(
    id: string,
    lineItemIds: seq<string>,
    location: RetailLocation,
    options: Option<seq<AppointmentOption>>,
    selectedOptionId: Option<string>,
    notes: Option<string>)

  /** A slot built from its required fields only. */
  function NewSlot(id: string, lineItemIds: seq<string>, location: RetailLocation): (r: Slot)
    ensures r.id == id && r.lineItemIds == lineItemIds && r.location == location
    ensures r.options == None && r.selectedOptionId == None && r.notes == None
  {
    Slot(id, lineItemIds, location, None, None, None)
  }

  /** `AppointmentSlotRequest`: an absent (or empty) `id` asks for a new slot. */
  datatype SlotRequest = SlotRequest(
    id: Option<string>,
    lineItemIds: seq<string>,
    locationId: string,
    staffId: Option<string>,
    startTime: Time,
    notes: Option<string>)

  /** A slot request built from its required fields only. */
  function NewSlotRequest(lineItemIds: seq<string>, locationId: string, startTime: Time): (r: SlotRequest)
    ensures r.id == None && r.staffId == None && r.notes == None
    ensures r.lineItemIds == lineItemIds && r.locationId == locationId && r.startTime == startTime
  {
    SlotRequest(None, lineItemIds, locationId, None, startTime, None)
  }

  /** `AppointmentResponse`. */
  datatype Appointment = Appointment(slots: Option<seq<Slot>>)

  /** `AppointmentRequest`. */
  datatype AppointmentRequest = AppointmentRequest(slots: Option<seq<SlotRequest>>)

  /** `AppointmentCheckoutResponse`: a checkout plus the optional appointment
      container. The UCP metadata, links, payment handlers and continue URL
      are not modelled. */
  datatype Checkout = Checkout(
    id: string,
    status: CheckoutStatus,
    currency: string,
    lineItems: seq<LineItem>,
    totals: seq<TotalEntry>,
    buyer: Option<Buyer>,
    appointment: Option<Appointment>,
    order: Option<OrderConfirmation>)

  /** A checkout built from the checkout fields alone. */
  function NewAppointmentCheckout(
    id: string, status: CheckoutStatus, currency: string,
    lineItems: seq<LineItem>, totals: seq<TotalEntry>): (r: Checkout)
    ensures r.appointment == None && r.buyer == None && r.order == None
    ensures r.id == id && r.status == status && r.lineItems == lineItems && r.totals == totals
  {
    Checkout(id, status, currency, lineItems, totals, None, None, None)
  }

  /** The slots of a checkout; an absent container or list reads as none. */
  function SlotsOf(c: Checkout): seq<Slot> {
    if c.appointment.Some? && c.appointment.value.slots.Some? then c.appointment.value.slots.value else []
  }
}

=== FILE: base.dfy ===
/** Shared building blocks: optional values, results with the store's error
    conditions, and the two sequence scans the store and the search helpers are
    built from (keep-if filtering and first-match lookup). */
module Base {

  /** Python's `X | None`. */
  datatype Option<+T> = None | Some(value: T) {
    /** `x if x is not None else default`. */
    function GetOr(default: T): T {
      match this
      case Some(v) => v
      case None => default
    }
  }

  /** The conditions under which the store raises `ValueError` (or the catalog
      lookup raises), one constructor per raise site. */
  datatype Error =
    | CheckoutNotFound(checkoutId: string)
    | LineItemNotFound(lineItemId: string)
    | ServiceNotFound(serviceVariationId: string)
    | SquareNotConfigured
  {
    /** The exception text the source raises with. */
    function Message(): string {
      match this
      case CheckoutNotFound(id) => "Checkout with ID " + id + " not found"
      case LineItemNotFound(id) => "Line item " + id + " not found"
      case ServiceNotFound(id) => "Service variation " + id + " not found"
      case SquareNotConfigured => "Square client not configured"
    }
  }

  datatype Result<+T> = Ok(value: T) | Err(error: Error)

  /** The elements of `xs` satisfying `p`, in their original order: a list
      comprehension `[x for x in xs if p(x)]`. */
  function Filter<T>(p: T -> bool, xs: seq<T>): (r: seq<T>)
    ensures |r| <= |xs|
    ensures forall x :: x in r ==> x in xs && p(x)
  {
    if |xs| == 0 then []
    else (if p(xs[0]) then [xs[0]] else []) + Filter(p, xs[1..])
  }

  /** Nothing satisfying `p` is lost: membership in the filtered sequence is
      exactly membership in the input plus `p`. */
  lemma {:induction false} FilterMembership<T>(p: T -> bool, xs: seq<T>, x: T)
    ensures x in Filter(p, xs) <==> x in xs && p(x)
  {
    if |xs| > 0 {
      FilterMembership(p, xs[1..], x);
      assert xs == [xs[0]] + xs[1..];
    }
  }

  /** `FilterMembership` for every element at once. */
  lemma FilterMembershipAll<T>(p: T -> bool, xs: seq<T>)
    ensures forall x :: x in Filter(p, xs) <==> x in xs && p(x)
  {
    forall x ensures x in Filter(p, xs) <==> x in xs && p(x) {
      FilterMembership(p, xs, x);
    }
  }

  /** Filtering distributes over concatenation, so relative order is kept. */
  lemma {:induction false} FilterAppend<T>(p: T -> bool, a: seq<T>, b: seq<T>)
    ensures Filter(p, a + b) == Filter(p, a) + Filter(p, b)
  {
    if |a| == 0 {
      assert a + b == b;
    } else {
      assert (a + b)[1..] == a[1..] + b;
      FilterAppend(p, a[1..], b);
    }
  }

  /** When every element passes, the filter returns its input unchanged. */
  lemma {:induction false} FilterKeepsAll<T>(p: T -> bool, xs: seq<T>)
    requires forall i :: 0 <= i < |xs| ==> p(xs[i])
    ensures Filter(p, xs) == xs
  {
    if |xs| > 0 {
      FilterKeepsAll(p, xs[1..]);
      assert xs == [xs[0]] + xs[1..];
    }
  }

  /** The filter is empty exactly when no element passes. */
  lemma FilterEmptyIff<T>(p: T -> bool, xs: seq<T>)
    ensures Filter(p, xs) == [] <==> forall i :: 0 <= i < |xs| ==> !p(xs[i])
  {
    if Filter(p, xs) == [] {
      forall i | 0 <= i < |xs|
        ensures !p(xs[i])
      {
        FilterMembership(p, xs, xs[i]);
      }
    } else {
      var x := Filter(p, xs)[0];
      FilterMembership(p, xs, x);
      var i :| 0 <= i < |xs| && xs[i] == x;
    }
  }

  /** The index of the first element satisfying `p`: a `for ... if ...: break`
      scan. */
  function FirstIndex<T>(p: T -> bool, xs: seq<T>): (r: Option<nat>)
    ensures r.Some? ==> r.value < |xs| && p(xs[r.value])
    ensures r.Some? ==> forall j :: 0 <= j < r.value ==> !p(xs[j])
    ensures r.None? <==> forall j :: 0 <= j < |xs| ==> !p(xs[j])
  {
    if |xs| == 0 then None
    else if p(xs[0]) then Some(0)
    else match FirstIndex(p, xs[1..])
      case None => None
      case Some(k) => Some(k + 1)
  }
}

=== FILE: base_extension.dfy ===
/** The A2A extension base: how an extension advertises itself on an agent
    card and how it activates itself for a request that asks for it. An
    extension is identified by its URI; parameter values are kept as strings. */
module BaseExtension {
  import opened Base

  type Params = map<string, string>

  /** An extension instance: the class's `URI` plus what the constructor was
      given (`description` defaults to "", `params` to None). */
  datatype Extension = Extension(uri: string, description: string, params: Option<Params>)

  /** `AgentExtension` as advertised on an agent card. */
  datatype AgentExtension = AgentExtension(uri: string, description: string, required: bool, params: Option<Params>)

  datatype AgentCapabilities = AgentCapabilities(extensions: Option<seq<AgentExtension>>)

  /** An agent card; only its capabilities matter here, the rest is carried
      along untouched. */
  datatype AgentCard = AgentCard(name: string, url: string, capabilities: AgentCapabilities)

  /** The part of a request context extensions see: the URIs the client asked
      for and the URIs activated so far. */
  datatype RequestContext = RequestContext(requested: Option<set<string>>, activated: set<string>)

  /** `get_extension_uri`. */
  function ExtensionUri(e: Extension): string {
    e.uri
  }

  /** The advertisement of an extension: never required, and carrying the
      description and parameters the extension was built with. */
  function GetAgentExtension(e: Extension): (r: AgentExtension)
    ensures r.uri == ExtensionUri(e)
    ensures !r.required
    ensures r.description == e.description && r.params == e.params
  {
    AgentExtension(ExtensionUri(e), e.description, false, e.params)
  }

  /** The extensions listed on a card; an absent list reads as empty. */
  function CardExtensions(card: AgentCard): seq<AgentExtension> {
    card.capabilities.extensions.GetOr([])
  }

  /** Appends this extension's advertisement to the card's list, creating the
      list when it is absent. */
  function AddToAgentCard(e: Extension, card: AgentCard): (r: AgentCard)
    ensures r.capabilities.extensions.Some?
    ensures |CardExtensions(r)| == |CardExtensions(card)| + 1
    ensures CardExtensions(r)[..|CardExtensions(card)|] == CardExtensions(card)
    ensures CardExtensions(r)[|CardExtensions(card)|] == GetAgentExtension(e)
    ensures card.capabilities.extensions == None ==> r.capabilities.extensions == Some([GetAgentExtension(e)])
    ensures r.name == card.name && r.url == card.url
  {
    var list := if card.capabilities.extensions == None then [] else card.capabilities.extensions.value;
    card.(capabilities := card.capabilities.(extensions := Some(list + [GetAgentExtension(e)])))
  }

  /** Advertising the same extension twice lists it twice: no deduplication. */
  lemma AddTwiceListsTwice(e: Extension, card: AgentCard)
    ensures var twice := CardExtensions(AddToAgentCard(e, AddToAgentCard(e, card)));
      && |twice| == |CardExtensions(card)| + 2
      && twice[|twice| - 1] == twice[|twice| - 2] == GetAgentExtension(e)
  {
  }

  /** Advertising a list of extensions one after another, as a server does
      at start-up. */
  function AddAllToAgentCard(es: seq<Extension>, card: AgentCard): AgentCard
    decreases |es|
  {
    if |es| == 0 then card else AddAllToAgentCard(es[1..], AddToAgentCard(es[0], card))
  }

  /** The advertisements of a list of extensions, in order. */
  function Advertisements(es: seq<Extension>): (r: seq<AgentExtension>)
    ensures |r| == |es|
    ensures forall i :: 0 <= i < |es| ==> r[i] == GetAgentExtension(es[i])
  {
    if |es| == 0 then [] else [GetAgentExtension(es[0])] + Advertisements(es[1..])
  }

  /** Advertising several extensions keeps the earlier entries and appends
      one advertisement per extension, in order. */
  lemma {:induction false} AddAllAppends(es: seq<Extension>, card: AgentCard)
    ensures CardExtensions(AddAllToAgentCard(es, card)) == CardExtensions(card) + Advertisements(es)
    decreases |es|
  {
    if |es| > 0 {
      var next := AddToAgentCard(es[0], card);
      AddAllAppends(es[1..], next);
      assert CardExtensions(next) == CardExtensions(card) + [GetAgentExtension(es[0])];
      assert Advertisements(es) == [GetAgentExtension(es[0])] + Advertisements(es[1..]);
    }
  }

  /** Whether the context asks for a URI (an absent request set asks for
      nothing). */
  predicate Requests(ctx: RequestContext, uri: string) {
    ctx.requested.Some? && uri in ctx.requested.value
  }

  /** Activates the extension exactly when the client requested its URI. */
  function Activate(e: Extension, ctx: RequestContext): (r: RequestContext)
    ensures r.requested == ctx.requested
    ensures ctx.activated <= r.activated
    ensures forall u :: u in r.activated && u !in ctx.activated ==> u == ExtensionUri(e) && Requests(ctx, u)
    ensures ExtensionUri(e) in r.activated <==> ExtensionUri(e) in ctx.activated || Requests(ctx, ExtensionUri(e))
    ensures ctx.requested == None || ctx.requested == Some({}) ==> r == ctx
  {
    if ctx.requested == None || ctx.requested.value == {} then ctx
    else if ExtensionUri(e) in ctx.requested.value then ctx.(activated := ctx.activated + {ExtensionUri(e)})
    else ctx
  }

  /** Activation is idempotent. */
  lemma ActivateIdempotent(e: Extension, ctx: RequestContext)
    ensures Activate(e, Activate(e, ctx)) == Activate(e, ctx)
  {
  }

  /** The order in which extensions activate does not matter. */
  lemma ActivateCommutes(e1: Extension, e2: Extension, ctx: RequestContext)
    ensures Activate(e1, Activate(e2, ctx)) == Activate(e2, Activate(e1, ctx))
  {
  }
}

=== FILE: payment_properties.dfy ===
/** The end of the checkout lifecycle: what holds a checkout back from
    payment, when `start_payment` lets it through, and that a placed order
    leaves no checkout behind to act on. */
module PaymentProperties {
  import opened Base
  import opened UcpTypes
  import opened AppointmentTypes
  import opened Pricing
  import opened ServiceStore

  /** No line is left unscheduled exactly when every line is listed by some
      slot. */
  lemma UnscheduledEmptyIff(c: Checkout)
    ensures |Unscheduled(c)| == 0 <==> AllScheduled(c)
  {
    var scheduled := ScheduledIds(SlotsOf(c));
    FilterEmptyIff(LineIdOutside(scheduled), c.lineItems);
    assert Unscheduled(c) == Filter(LineIdOutside(scheduled), c.lineItems);
    if AllScheduled(c) {
      forall i | 0 <= i < |c.lineItems|
        ensures !LineIdOutside(scheduled)(c.lineItems[i])
      {
        var j :| 0 <= j < |SlotsOf(c)| && c.lineItems[i].id in SlotsOf(c)[j].lineItemIds;
      }
    }
  }

  /** The three messages are distinct texts. */
  lemma MessagesDistinct()
    ensures BuyerMissing != SomeUnscheduled && BuyerMissing != NoneScheduled && SomeUnscheduled != NoneScheduled
  {
    assert BuyerMissing[0] == 'P';
    assert SomeUnscheduled[0] == 'S';
    assert NoneScheduled[0] == 'N';
  }

  /** Each message is reported exactly when its reason holds, and nothing
      is reported exactly when a buyer is given and every line is
      scheduled. */
  lemma PaymentMessagesReasons(c: Checkout)
    ensures BuyerMissing in PaymentMessages(c) <==> c.buyer.None?
    ensures SomeUnscheduled in PaymentMessages(c) <==> |SlotsOf(c)| > 0 && !AllScheduled(c)
    ensures NoneScheduled in PaymentMessages(c) <==> |SlotsOf(c)| == 0 && |c.lineItems| > 0
    ensures |PaymentMessages(c)| == 0 <==> c.buyer.Some? && AllScheduled(c)
  {
    MessagesDistinct();
    UnscheduledEmptyIff(c);
  }

  /** `start_payment` on a checkout that is not yet ready: it starts exactly
      when a buyer is given and every line is scheduled, with the totals
      recalculated; otherwise the reasons are returned joined by newlines. */
  lemma StartPaymentGate(st: Store, tax: TaxPolicy, checkoutId: string)
    requires checkoutId in st.checkouts && st.checkouts[checkoutId].status != ReadyForComplete
    ensures var c := st.checkouts[checkoutId];
      var r := StartPayment(st, tax, checkoutId).result.value;
      && (r.Started? <==> c.buyer.Some? && AllScheduled(c))
      && (r.Started? ==> r.checkout == Recalculate(c, tax).(status := ReadyForComplete))
      && (r.NeedsInfo? ==> r.message == Strings.Join("\n", PaymentMessages(c)))
  {
    PaymentMessagesReasons(st.checkouts[checkoutId]);
  }

  /** The reasons a checkout is held back can be read back from the message:
      none of them contains a newline, so splitting the message at newlines
      gives them again, in order. */
  lemma StartPaymentReasonsRecoverable(st: Store, tax: TaxPolicy, checkoutId: string)
    requires checkoutId in st.checkouts && st.checkouts[checkoutId].status != ReadyForComplete
    requires StartPayment(st, tax, checkoutId).result.value.NeedsInfo?
    ensures Strings.Split('\n', StartPayment(st, tax, checkoutId).result.value.message) == PaymentMessages(st.checkouts[checkoutId])
  {
    var ms := PaymentMessages(st.checkouts[checkoutId]);
    StartPaymentGate(st, tax, checkoutId);
    PaymentMessagesReasons(st.checkouts[checkoutId]);
    MessagesOneLine(st.checkouts[checkoutId]);
    Strings.SplitJoin('\n', ms);
  }

  /** No message contains a newline. */
  lemma MessagesOneLine(c: Checkout)
    ensures forall i :: 0 <= i < |PaymentMessages(c)| ==> '\n' !in PaymentMessages(c)[i]
  {
    MessageTextsOneLine();
    assert forall i :: 0 <= i < |PaymentMessages(c)| ==> PaymentMessages(c)[i] in [BuyerMissing, SomeUnscheduled, NoneScheduled];
  }

  lemma MessageTextsOneLine()
    ensures '\n' !in BuyerMissing && '\n' !in SomeUnscheduled && '\n' !in NoneScheduled
  {
    BuyerMissingOneLine();
    SomeUnscheduledOneLine();
    NoneScheduledOneLine();
  }

  lemma BuyerMissingOneLine() ensures '\n' !in BuyerMissing {}
  lemma SomeUnscheduledOneLine() ensures '\n' !in SomeUnscheduled {}
  lemma NoneScheduledOneLine() ensures '\n' !in NoneScheduled {}

  /** A buyer missing on a fully scheduled checkout is reported alone. */
  lemma StartPaymentBuyerOnly(st: Store, tax: TaxPolicy, checkoutId: string)
    requires checkoutId in st.checkouts && st.checkouts[checkoutId].status != ReadyForComplete
    requires st.checkouts[checkoutId].buyer.None? && AllScheduled(st.checkouts[checkoutId])
    ensures StartPayment(st, tax, checkoutId).result == Ok(NeedsInfo(BuyerMissing))
  {
    var c := st.checkouts[checkoutId];
    UnscheduledEmptyIff(c);
    assert PaymentMessages(c) == [BuyerMissing];
  }

  /** Asking again changes nothing: a started checkout is ready and returned
      as it is, and a held-back one is still held back for the same
      reasons. */
  lemma StartPaymentIdempotent(st: Store, tax: TaxPolicy, checkoutId: string)
    ensures var r := StartPayment(st, tax, checkoutId);
      StartPayment(r.store, tax, checkoutId) == r
  {
  }

  /** Different checkouts get different order ids. */
  lemma OrderIdInjective(a: string, b: string)
    ensures OrderId(a) == OrderId(b) <==> a == b
  {
    if OrderId(a) == OrderId(b) {
      assert a == OrderId(a)[4..];
      assert b == OrderId(b)[4..];
    }
  }

  /** Once the order is placed the checkout is gone: reading it gives
      nothing, and placing, paying, removing, updating or scheduling on it
      again fails with "not found". Adding to it under its (non-empty) id
      fails too: with the service's lookup error when that lookup fails,
      and with "not found" otherwise. */
  lemma PlaceOrderEndsCheckout(
    st: Store, square: Option<Square>, tax: TaxPolicy, ids: IdSupply, checkoutId: string,
    lineItemId: string, serviceVariationId: string, quantity: int, newQuantity: Option<int>,
    locationId: Option<string>, staffId: Option<string>, startTime: Option<Time>, notes: Option<string>,
    request: AppointmentRequest)
    requires PlaceOrder(st, checkoutId).result.Ok?
    ensures var s := PlaceOrder(st, checkoutId).store;
      && GetCheckout(s, checkoutId) == None
      && PlaceOrder(s, checkoutId).result == Err(CheckoutNotFound(checkoutId))
      && StartPayment(s, tax, checkoutId).result == Err(CheckoutNotFound(checkoutId))
      && RemoveFromCheckout(s, tax, checkoutId, lineItemId).result == Err(CheckoutNotFound(checkoutId))
      && UpdateCheckout(s, square, tax, ids, checkoutId, lineItemId, newQuantity, locationId, staffId, startTime, notes).result
         == Err(CheckoutNotFound(checkoutId))
      && SetAppointment(s, square, tax, ids, checkoutId, request).result == Err(CheckoutNotFound(checkoutId))
      && (checkoutId != "" ==>
            AddToCheckout(s, square, tax, ids, serviceVariationId, quantity, Some(checkoutId), locationId, staffId, startTime, notes).result
            == (var lookup := GetServiceVariation(s.serviceCache, square, serviceVariationId);
                if lookup.result.Err? then Err(lookup.result.error) else Err(CheckoutNotFound(checkoutId))))
  {
    var s := PlaceOrder(st, checkoutId).store;
    assert checkoutId !in s.checkouts;
  }

  /** The placed order is filed under its id, and the orders already placed
      under other ids are kept. */
  lemma PlaceOrderFilesOrder(st: Store, checkoutId: string)
    requires PlaceOrder(st, checkoutId).result.Ok?
    ensures var r := PlaceOrder(st, checkoutId);
      && OrderId(checkoutId) in r.store.orders
      && r.store.orders[OrderId(checkoutId)] == r.result.value
      && r.result.value.order.value.id == OrderId(checkoutId)
      && forall k :: k in st.orders && k != OrderId(checkoutId) ==> k in r.store.orders && r.store.orders[k] == st.orders[k]
  {
  }
}

=== FILE: pricing.dfy ===
/** Totals recalculation for a checkout: every line gets a zero discount and a
    subtotal and total of unit price times quantity; the checkout gets the sum
    of those, a zero discount, a tax computed from the subtotal, and a grand
    total of subtotal plus tax. Recalculation also puts the checkout back to
    `incomplete`. The tax rule is a parameter (the source's is a float
    rounding of 10%). */
module Pricing {
  import opened Base
  import opened UcpTypes
  import opened AppointmentTypes

  /** The tax charged on a subtotal. */
  type TaxPolicy = int -> int

  /** Unit price times quantity. */
  function LineBase(li: LineItem): int {
    li.item.price * li.quantity
  }

  /** The totals layout written onto each line item. */
  function LineTotals(amount: int): seq<TotalEntry> {
    [ TotalEntry(ItemsDiscount, "Items Discount", 0),
      TotalEntry(Subtotal, "Subtotal", amount),
      TotalEntry(Total, "Total", amount) ]
  }

  /** The totals layout written onto the checkout. */
  function CheckoutTotals(subtotal: int, tax: int): seq<TotalEntry> {
    [ TotalEntry(ItemsDiscount, "Items Discount", 0),
      TotalEntry(Subtotal, "Subtotal", subtotal),
      TotalEntry(Discount, "Discount", 0),
      TotalEntry(Tax, "Tax", tax),
      TotalEntry(Total, "Total", subtotal + tax) ]
  }

  /** The amount of the first totals entry of a kind, if any. */
  function Amount(ts: seq<TotalEntry>, kind: TotalKind): Option<int> {
    if |ts| == 0 then None
    else if ts[0].kind == kind then Some(ts[0].amount)
    else Amount(ts[1..], kind)
  }

  /** Reading the line layout back by kind. */
  lemma LineTotalsAmounts(amount: int)
    ensures Amount(LineTotals(amount), ItemsDiscount) == Some(0)
    ensures Amount(LineTotals(amount), Subtotal) == Some(amount)
    ensures Amount(LineTotals(amount), Total) == Some(amount)
  {
    var ts := LineTotals(amount);
    var t1 := ts[1..];
    var t2 := t1[1..];
    assert t2 == [TotalEntry(Total, "Total", amount)] && t2[1..] == [];
    assert Amount(t2, Total) == Some(amount);
  }

  /** Reading the checkout layout back by kind. */
  lemma CheckoutTotalsAmounts(subtotal: int, tax: int)
    ensures Amount(CheckoutTotals(subtotal, tax), ItemsDiscount) == Some(0)
    ensures Amount(CheckoutTotals(subtotal, tax), Subtotal) == Some(subtotal)
    ensures Amount(CheckoutTotals(subtotal, tax), Discount) == Some(0)
    ensures Amount(CheckoutTotals(subtotal, tax), Tax) == Some(tax)
    ensures Amount(CheckoutTotals(subtotal, tax), Total) == Some(subtotal + tax)
  {
    var ts := CheckoutTotals(subtotal, tax);
    var t1 := ts[1..];
    var t2 := t1[1..];
    var t3 := t2[1..];
    var t4 := t3[1..];
    assert t4 == [TotalEntry(Total, "Total", subtotal + tax)] && t4[1..] == [];
    assert Amount(t4, Total) == Some(subtotal + tax);
    assert Amount(t3, Total) == Amount(t4, Total) && Amount(t3, Tax) == Some(tax);
    assert Amount(t2, Total) == Amount(t3, Total) && Amount(t2, Tax) == Amount(t3, Tax);
    assert Amount(t2, Discount) == Some(0);
    assert Amount(t1, Total) == Amount(t2, Total) && Amount(t1, Tax) == Amount(t2, Tax);
    assert Amount(t1, Discount) == Amount(t2, Discount);
  }

  /** Sum of unit price times quantity over the line items. */
  function SumBase(items: seq<LineItem>): int {
    if |items| == 0 then 0 else SumBase(items[..|items| - 1]) + LineBase(items[|items| - 1])
  }

  /** Sum of the subtotals the line items carry in their own totals (a line
      without one contributes 0). */
  function SumLineSubtotals(items: seq<LineItem>): int {
    if |items| == 0 then 0
    else SumLineSubtotals(items[..|items| - 1]) + Amount(items[|items| - 1].totals, Subtotal).GetOr(0)
  }

  /** A line item with freshly computed totals. */
  function PriceLine(li: LineItem): LineItem {
    li.(totals := LineTotals(LineBase(li)))
  }

  function PriceLines(items: seq<LineItem>): (r: seq<LineItem>)
    ensures |r| == |items|
    ensures forall i :: 0 <= i < |items| ==> r[i] == PriceLine(items[i])
  {
    if |items| == 0 then [] else PriceLines(items[..|items| - 1]) + [PriceLine(items[|items| - 1])]
  }

  /** Reading back the per-line subtotals of priced lines gives the sum of
      unit price times quantity. */
  lemma {:induction false} PricedSubtotalsSum(items: seq<LineItem>)
    ensures SumLineSubtotals(PriceLines(items)) == SumBase(items)
  {
    if |items| > 0 {
      var init := items[..|items| - 1];
      PricedSubtotalsSum(init);
      assert PriceLines(items)[..|items| - 1] == PriceLines(init);
      LineTotalsAmounts(LineBase(items[|items| - 1]));
    }
  }

  /** Every priced line reads back its own amounts. */
  lemma LineAmountsAll(items: seq<LineItem>)
    ensures forall i :: 0 <= i < |items| ==>
      var amount := items[i].item.price * items[i].quantity;
      && Amount(PriceLine(items[i]).totals, ItemsDiscount) == Some(0)
      && Amount(PriceLine(items[i]).totals, Subtotal) == Some(amount)
      && Amount(PriceLine(items[i]).totals, Total) == Some(amount)
  {
    forall i | 0 <= i < |items| {
      LineTotalsAmounts(LineBase(items[i]));
    }
  }

  /** `_recalculate_checkout`: only the totals of the lines and of the
      checkout change, and the status goes back to incomplete. */
  function Recalculate(c: Checkout, tax: TaxPolicy): (r: Checkout)
    ensures r.(status := c.status, lineItems := c.lineItems, totals := c.totals) == c
    ensures r.status == Incomplete
    ensures |r.lineItems| == |c.lineItems|
    ensures forall i :: 0 <= i < |c.lineItems| ==> r.lineItems[i].(totals := c.lineItems[i].totals) == c.lineItems[i]
  {
    var subtotal := SumBase(c.lineItems);
    c.(status := Incomplete,
       lineItems := PriceLines(c.lineItems),
       totals := CheckoutTotals(subtotal, tax(subtotal)))
  }

  /** What recalculation writes, read back by kind: every line has a zero
      discount and a subtotal and total of unit price times quantity; the
      checkout's subtotal is the sum of the line subtotals, its discounts are
      zero, its tax is the tax of that subtotal and its total is subtotal
      plus tax. */
  lemma RecalculateAmounts(c: Checkout, tax: TaxPolicy)
    ensures var r := Recalculate(c, tax);
      forall i :: 0 <= i < |c.lineItems| ==>
        var amount := c.lineItems[i].item.price * c.lineItems[i].quantity;
        && Amount(r.lineItems[i].totals, ItemsDiscount) == Some(0)
        && Amount(r.lineItems[i].totals, Subtotal) == Some(amount)
        && Amount(r.lineItems[i].totals, Total) == Some(amount)
    ensures var r := Recalculate(c, tax);
      var s := SumLineSubtotals(r.lineItems);
      && s == SumBase(c.lineItems)
      && Amount(r.totals, Subtotal) == Some(s)
      && Amount(r.totals, ItemsDiscount) == Some(0)
      && Amount(r.totals, Discount) == Some(0)
      && Amount(r.totals, Tax) == Some(tax(s))
      && Amount(r.totals, Total) == Some(s + tax(s))
  {
    RecalculateLineAmounts(c, tax);
    RecalculateCheckoutAmounts(c, tax);
  }

  /** The line half of `RecalculateAmounts`. */
  lemma RecalculateLineAmounts(c: Checkout, tax: TaxPolicy)
    ensures var r := Recalculate(c, tax);
      forall i :: 0 <= i < |c.lineItems| ==>
        var amount := c.lineItems[i].item.price * c.lineItems[i].quantity;
        && Amount(r.lineItems[i].totals, ItemsDiscount) == Some(0)
        && Amount(r.lineItems[i].totals, Subtotal) == Some(amount)
        && Amount(r.lineItems[i].totals, Total) == Some(amount)
  {
    LineAmountsAll(c.lineItems);
  }

  /** The checkout half of `RecalculateAmounts`. */
  lemma RecalculateCheckoutAmounts(c: Checkout, tax: TaxPolicy)
    ensures var r := Recalculate(c, tax);
      var s := SumLineSubtotals(r.lineItems);
      && s == SumBase(c.lineItems)
      && Amount(r.totals, Subtotal) == Some(s)
      && Amount(r.totals, ItemsDiscount) == Some(0)
      && Amount(r.totals, Discount) == Some(0)
      && Amount(r.totals, Tax) == Some(tax(s))
      && Amount(r.totals, Total) == Some(s + tax(s))
  {
    var subtotal := SumBase(c.lineItems);
    PricedSubtotalsSum(c.lineItems);
    CheckoutTotalsAmounts(subtotal, tax(subtotal));
  }

  /** The checkout subtotal after recalculation is the sum of unit price
      times quantity. */
  lemma RecalculateSubtotal(c: Checkout, tax: TaxPolicy)
    ensures Amount(Recalculate(c, tax).totals, Subtotal) == Some(SumBase(c.lineItems))
  {
    RecalculateAmounts(c, tax);
  }

  /** Totals agree with the line items: what recalculation would write. */
  ghost predicate Consistent(c: Checkout, tax: TaxPolicy) {
    && (forall i :: 0 <= i < |c.lineItems| ==> c.lineItems[i].totals == LineTotals(LineBase(c.lineItems[i])))
    && c.totals == CheckoutTotals(SumBase(c.lineItems), tax(SumBase(c.lineItems)))
  }

  /** Recalculation leaves the checkout consistent. */
  lemma RecalculateConsistent(c: Checkout, tax: TaxPolicy)
    ensures Consistent(Recalculate(c, tax), tax)
  {
    var r := Recalculate(c, tax);
    assert r.lineItems == PriceLines(c.lineItems);
    SumBaseOfPriced(c.lineItems);
  }

  /** Pricing does not change unit price or quantity, hence not the sum. */
  lemma {:induction false} SumBaseOfPriced(items: seq<LineItem>)
    ensures SumBase(PriceLines(items)) == SumBase(items)
  {
    if |items| > 0 {
      SumBaseOfPriced(items[..|items| - 1]);
      assert PriceLines(items)[..|items| - 1] == PriceLines(items[..|items| - 1]);
    }
  }

  /** On a consistent checkout recalculation changes only the status. */
  lemma RecalculateFixpoint(c: Checkout, tax: TaxPolicy)
    requires Consistent(c, tax)
    ensures Recalculate(c, tax) == c.(status := Incomplete)
  {
    assert PriceLines(c.lineItems) == c.lineItems;
  }

  /** Recalculating twice is recalculating once. */
  lemma RecalculateIdempotent(c: Checkout, tax: TaxPolicy)
    ensures Recalculate(Recalculate(c, tax), tax) == Recalculate(c, tax)
  {
    RecalculateConsistent(c, tax);
    RecalculateFixpoint(Recalculate(c, tax), tax);
  }

  /** The accumulation loop of `_recalculate_checkout`: sums the line
      amounts and the (always zero) line discounts. */
  method ComputeSubtotal(items: seq<LineItem>) returns (subtotal: int, discount: int)
    ensures subtotal == SumBase(items)
    ensures discount == 0
  {
    var base := 0;
    discount := 0;
    var i := 0;
    while i < |items|
      invariant 0 <= i <= |items|
      invariant base == SumBase(items[..i])
      invariant discount == 0
    {
      assert items[..i + 1][..i] == items[..i];
      base := base + LineBase(items[i]);
      i := i + 1;
    }
    assert items[..i] == items;
    subtotal := base - discount;
  }

  /** Replacing one line changes the sum by the difference of the two lines. */
  lemma {:induction false} SumBaseUpdate(items: seq<LineItem>, k: nat, li: LineItem)
    requires k < |items|
    ensures SumBase(items[k := li]) == SumBase(items) - LineBase(items[k]) + LineBase(li)
  {
    var n := |items|;
    if k == n - 1 {
      assert items[k := li][..n - 1] == items[..n - 1];
    } else {
      SumBaseUpdate(items[..n - 1], k, li);
      assert items[k := li][..n - 1] == items[..n - 1][k := li];
    }
  }

  /** Appending a line adds its amount to the sum. */
  lemma SumBaseAppend(items: seq<LineItem>, li: LineItem)
    ensures SumBase(items + [li]) == SumBase(items) + LineBase(li)
  {
    assert (items + [li])[..|items|] == items;
  }
}

=== FILE: square_helpers.dfy ===
/** The pure parts of the Square client: the case-insensitive substring match
    behind every search, the "filter, else return everything" rule the list
    operations share, the active-location filter, status mapping, and the
    millisecond/second/minute conversions. The Square API calls around them
    are not modelled; their results arrive here as plain records. */
module SquareHelpers {
  import opened Base
  import opened Strings
  import opened AppointmentTypes

  /** `_fuzzy_match`: the lowered query occurs in the lowered text. A match
      is never longer than the text, and a text always matches itself in any
      letter case. */
  function FuzzyMatch(query: string, text: string): (r: bool)
    ensures r ==> |query| <= |text|
    ensures Lower(query) == Lower(text) ==> r
  {
    assert Lower(query) == Lower(text) ==> OccursAt(Lower(query), Lower(text), 0);
    IsInfix(Lower(query), Lower(text))
  }

  /** Matching ignores the letter case of the query and of the text. */
  lemma FuzzyMatchIgnoresCase(query: string, text: string)
    ensures FuzzyMatch(Lower(query), text) == FuzzyMatch(query, text)
    ensures FuzzyMatch(query, Lower(text)) == FuzzyMatch(query, text)
  {
    LowerIdempotent(query);
    LowerIdempotent(text);
  }

  /** The empty query matches every text. */
  lemma FuzzyMatchEmptyQuery(text: string)
    ensures FuzzyMatch("", text)
  {
    assert OccursAt(Lower(""), Lower(text), 0);
  }

  /** A text that contains the query (in any case) matches it. */
  lemma FuzzyMatchFindsInfix(query: string, before: string, after: string)
    ensures FuzzyMatch(query, before + query + after)
  {
    LowerAppend(before + query, after);
    LowerAppend(before, query);
    var t := Lower(before + query + after);
    assert t == Lower(before) + Lower(query) + Lower(after);
    assert t[|before|..|before| + |query|] == Lower(query);
    assert OccursAt(Lower(query), t, |before|);
  }

  /** A match needs a text at least as long as the query. */
  lemma FuzzyMatchLength(query: string, text: string)
    requires FuzzyMatch(query, text)
    ensures |query| <= |text|
  {
  }

  /** A search query that is absent or empty asks for no filtering. */
  predicate NoQuery(query: Option<string>) {
    query == None || query.value == ""
  }

  /** What a search over `xs` answers: without a query, `xs` itself; with a
      query that something matches, exactly the matching elements, each once
      and in input order; with one that nothing matches, `xs` again. */
  ghost predicate SearchResult<T>(query: Option<string>, xs: seq<T>, text: T -> string, r: seq<T>) {
    && (NoQuery(query) ==> r == xs)
    && (!NoQuery(query) && (exists i :: 0 <= i < |xs| && FuzzyMatch(query.value, text(xs[i]))) ==>
          r == Filter(x => FuzzyMatch(query.value, text(x)), xs))
    && (!NoQuery(query) && (forall i :: 0 <= i < |xs| ==> !FuzzyMatch(query.value, text(xs[i]))) ==> r == xs)
  }

  /** The rule every list operation applies to its query: without a query the
      whole list; with one, the matching elements in order, unless none
      match, in which case again the whole list. */
  function FilterWithFallback<T>(query: Option<string>, xs: seq<T>, text: T -> string): (r: seq<T>)
    ensures forall x :: x in r ==> x in xs
    ensures NoQuery(query) ==> r == xs
    ensures !NoQuery(query) && (exists i :: 0 <= i < |xs| && FuzzyMatch(query.value, text(xs[i]))) ==>
      && r == Filter(x => FuzzyMatch(query.value, text(x)), xs)
      && forall i :: 0 <= i < |xs| ==> (xs[i] in r <==> FuzzyMatch(query.value, text(xs[i])))
    ensures !NoQuery(query) && (forall i :: 0 <= i < |xs| ==> !FuzzyMatch(query.value, text(xs[i]))) ==> r == xs
    ensures |xs| > 0 ==> |r| > 0
    ensures SearchResult(query, xs, text, r)
  {
    if NoQuery(query) then xs
    else
      var matches := x => FuzzyMatch(query.value, text(x));
      var filtered := Filter(matches, xs);
      FilterEmptyIff(matches, xs);
      FilterMembershipAll(matches, xs);
      if |filtered| > 0 then filtered else xs
  }

  /** Python's `s or default` on an optional string: `None` and the empty
      string are both falsy, so both give the default. */
  function OrElse(s: Option<string>, default: string): (r: string)
    ensures s.Some? && s.value != "" ==> r == s.value
    ensures s.None? || s.value == "" ==> r == default
  {
    if s.Some? && s.value != "" then s.value else default
  }

  /** The Square address record as the API returns it. */
  datatype SquareAddress = SquareAddress(
    addressLine1: Option<string>,
    addressLine2: Option<string>,
    locality: Option<string>,
    administrativeDistrictLevel1: Option<string>,
    postalCode: Option<string>,
    country: Option<string>)

  /** The Square location record as the API returns it. */
  datatype SquareLocation = SquareLocation(
    id: string,
    name: Option<string>,
    status: Option<string>,
    address: Option<SquareAddress>,
    timezone: Option<string>,
    description: Option<string>)

  /** Square's raw status for a location that can be booked. */
  predicate IsActiveOnSquare(loc: SquareLocation) {
    loc.status == Some("ACTIVE")
  }

  /** The `Address` built from a Square address: the required fields fall back
      to the empty string, the optional ones are passed through. */
  function ToAddress(a: SquareAddress): (r: Address)
    ensures r.addressLine2 == a.addressLine2 && r.zipCode == a.postalCode
    ensures a.addressLine1.Some? ==> r.addressLine1 == a.addressLine1.value
    ensures a.addressLine1.None? ==> r.addressLine1 == ""
    ensures a.locality.Some? ==> r.city == a.locality.value
    ensures a.locality.None? ==> r.city == ""
    ensures a.administrativeDistrictLevel1.Some? ==> r.state == a.administrativeDistrictLevel1.value
    ensures a.administrativeDistrictLevel1.None? ==> r.state == ""
    ensures a.country.Some? ==> r.country == a.country.value
    ensures a.country.None? ==> r.country == ""
  {
    Address(OrElse(a.addressLine1, ""), a.addressLine2, OrElse(a.locality, ""),
      OrElse(a.administrativeDistrictLevel1, ""), a.postalCode, OrElse(a.country, ""))
  }

  /** The `Location` built for an active Square location. An absent or empty
      timezone becomes UTC, so a listed location always has one. */
  function ToActiveLocation(loc: SquareLocation): (r: Location)
    ensures r.id == loc.id && r.status == StatusActive && r.description == loc.description
    ensures loc.name.Some? ==> r.name == loc.name.value
    ensures loc.name.None? ==> r.name == ""
    ensures loc.timezone.Some? && loc.timezone.value != "" ==> r.timezone == loc.timezone.value
    ensures loc.timezone.None? || loc.timezone.value == "" ==> r.timezone == "UTC"
    ensures r.timezone != ""
    ensures loc.address.None? ==> r.address.None?
    ensures loc.address.Some? ==> r.address == Some(ToAddress(loc.address.value))
  {
    var address := if loc.address.Some? then Some(ToAddress(loc.address.value)) else None;
    Location(loc.id, OrElse(loc.name, ""), address, OrElse(loc.timezone, "UTC"), StatusActive, loc.description)
  }

  /** The loop of `list_locations`: inactive locations are skipped, the
      others converted, in input order. */
  function ActiveLocations(locs: seq<SquareLocation>): (r: seq<Location>)
    ensures |r| <= |locs|
    ensures forall l :: l in r ==> l.status == StatusActive
  {
    if |locs| == 0 then []
    else if IsActiveOnSquare(locs[0]) then [ToActiveLocation(locs[0])] + ActiveLocations(locs[1..])
    else ActiveLocations(locs[1..])
  }

  function ToActiveLocations(locs: seq<SquareLocation>): (r: seq<Location>)
    ensures |r| == |locs|
    ensures forall i :: 0 <= i < |locs| ==> r[i] == ToActiveLocation(locs[i])
  {
    if |locs| == 0 then [] else [ToActiveLocation(locs[0])] + ToActiveLocations(locs[1..])
  }

  /** Exactly the active locations survive, converted and in input order. */
  lemma {:induction false} ActiveLocationsAreFiltered(locs: seq<SquareLocation>)
    ensures ActiveLocations(locs) == ToActiveLocations(Filter(IsActiveOnSquare, locs))
  {
    if |locs| > 0 {
      ActiveLocationsAreFiltered(locs[1..]);
      var rest := Filter(IsActiveOnSquare, locs[1..]);
      if IsActiveOnSquare(locs[0]) {
        assert Filter(IsActiveOnSquare, locs) == [locs[0]] + rest;
        assert ToActiveLocations([locs[0]] + rest) == [ToActiveLocation(locs[0])] + ToActiveLocations(rest);
      } else {
        assert Filter(IsActiveOnSquare, locs) == rest;
      }
    }
  }

  /** The text a location query is matched against: name, city, first
      address line. */
  function LocationSearchText(loc: Location): string {
    loc.name + " " + (if loc.address.Some? then loc.address.value.city else "")
      + " " + (if loc.address.Some? then loc.address.value.addressLine1 else "")
  }

  /** `list_locations` after the Square call. */
  function ListLocations(query: Option<string>, locs: seq<SquareLocation>): (r: seq<Location>)
    ensures SearchResult(query, ActiveLocations(locs), LocationSearchText, r)
    ensures forall l :: l in r ==> l.status == StatusActive
  {
    FilterWithFallback(query, ActiveLocations(locs), LocationSearchText)
  }

  /** Every listed location is an active one from the Square response, and a
      response with an active location never yields an empty list. */
  lemma ListLocationsOnlyActive(query: Option<string>, locs: seq<SquareLocation>)
    ensures forall l :: l in ListLocations(query, locs) ==> l.status == StatusActive
    ensures forall l :: l in ListLocations(query, locs) ==> exists i :: 0 <= i < |locs| && IsActiveOnSquare(locs[i]) && l == ToActiveLocation(locs[i])
    ensures (exists i :: 0 <= i < |locs| && IsActiveOnSquare(locs[i])) ==> |ListLocations(query, locs)| > 0
  {
    ActiveLocationsAreFiltered(locs);
    var kept := Filter(IsActiveOnSquare, locs);
    forall l | l in ListLocations(query, locs)
      ensures exists i :: 0 <= i < |locs| && IsActiveOnSquare(locs[i]) && l == ToActiveLocation(locs[i])
    {
      var j :| 0 <= j < |kept| && ToActiveLocations(kept)[j] == l;
      FilterMembership(IsActiveOnSquare, locs, kept[j]);
    }
    if exists i :: 0 <= i < |locs| && IsActiveOnSquare(locs[i]) {
      var i :| 0 <= i < |locs| && IsActiveOnSquare(locs[i]);
      FilterMembership(IsActiveOnSquare, locs, locs[i]);
    }
  }

  /** How Python renders an optional string inside an f-string. */
  function Render(s: Option<string>): string {
    s.GetOr("None")
  }

  /** The text a staff query is matched against: first name, last name,
      email. */
  function StaffSearchText(s: Staff): string {
    s.firstName + " " + s.lastName + " " + Render(s.email)
  }

  /** `list_staff` after the Square calls. */
  function ListStaff(query: Option<string>, staff: seq<Staff>): (r: seq<Staff>)
    ensures SearchResult(query, staff, StaffSearchText, r)
  {
    FilterWithFallback(query, staff, StaffSearchText)
  }

  /** A query naming a staff member's first name finds that member. */
  lemma ListStaffFindsByFirstName(s: Staff, staff: seq<Staff>)
    requires s in staff && s.firstName != ""
    ensures s in ListStaff(Some(s.firstName), staff)
  {
    FuzzyMatchFindsInfix(s.firstName, "", " " + s.lastName + " " + Render(s.email));
    assert "" + s.firstName + (" " + s.lastName + " " + Render(s.email)) == StaffSearchText(s);
    var i :| 0 <= i < |staff| && staff[i] == s;
    assert FuzzyMatch(s.firstName, StaffSearchText(staff[i]));
  }

  /** The text a service query is matched against: the variation's name. */
  function ServiceSearchText(v: ServiceVariation): string {
    v.name
  }

  /** `list_service_variations` after the catalog call. */
  function ListServiceVariations(query: Option<string>, vs: seq<ServiceVariation>): (r: seq<ServiceVariation>)
    ensures SearchResult(query, vs, ServiceSearchText, r)
  {
    FilterWithFallback(query, vs, ServiceSearchText)
  }

  /** The pieces of a booking's search text: location name, then service and
      staff name of every segment. */
  function BookingSearchParts(segs: seq<AppointmentSegment>): (r: seq<string>)
    ensures |r| == 2 * |segs|
    ensures forall i :: 0 <= i < |segs| ==> r[2 * i] == segs[i].serviceVariation.name && r[2 * i + 1] == segs[i].staff.name
  {
    if |segs| == 0 then []
    else [segs[0].serviceVariation.name, segs[0].staff.name] + BookingSearchParts(segs[1..])
  }

  function BookingSearchText(b: Booking): string {
    Join(" ", [b.location.name] + BookingSearchParts(b.segments))
  }

  /** `get_bookings` after the Square calls. */
  function ListBookings(query: Option<string>, bs: seq<Booking>): (r: seq<Booking>)
    ensures SearchResult(query, bs, BookingSearchText, r)
  {
    FilterWithFallback(query, bs, BookingSearchText)
  }

  /** The status a Square location or team member gets in this model: only
      Square's `ACTIVE` counts as active. */
  function StatusFromSquare(squareStatus: Option<string>): (r: string)
    ensures IsStatusValue(r)
    ensures r == StatusActive <==> squareStatus == Some("ACTIVE")
  {
    if squareStatus == Some("ACTIVE") then StatusActive else StatusInactive
  }

  /** A service variation's duration in seconds from Square's milliseconds,
      rounded down; a missing duration counts as 0. */
  function DurationSeconds(serviceDurationMs: Option<int>): (r: int)
    ensures var ms := serviceDurationMs.GetOr(0); r * 1000 <= ms < (r + 1) * 1000
    ensures serviceDurationMs == None ==> r == 0
  {
    serviceDurationMs.GetOr(0) / 1000
  }

  /** The duration a new booking's segment asks for: one hour unless the
      catalog gives a nonzero duration, which is then rounded down to whole
      minutes. */
  function BookingDurationMinutes(serviceDurationMs: Option<int>): (r: int)
    ensures serviceDurationMs.GetOr(0) == 0 ==> r == 60
    ensures var ms := serviceDurationMs.GetOr(0); ms != 0 ==> r * 60000 <= ms < (r + 1) * 60000
  {
    var ms := serviceDurationMs.GetOr(0);
    if ms != 0 then ms / 60000 else 60
  }

  /** The minutes of a booking's segments, missing values counted as 0. */
  function SegmentMinutes(segs: seq<Option<int>>): int {
    if |segs| == 0 then 0 else SegmentMinutes(segs[..|segs| - 1]) + segs[|segs| - 1].GetOr(0)
  }

  /** A booking's total duration: the `sum(...)` over its segments. */
  method TotalDurationMinutes(segs: seq<Option<int>>) returns (total: int)
    ensures total == SegmentMinutes(segs)
    ensures (forall i :: 0 <= i < |segs| ==> segs[i].GetOr(0) >= 0) ==> total >= 0
  {
    total := 0;
    var i := 0;
    while i < |segs|
      invariant 0 <= i <= |segs|
      invariant total == SegmentMinutes(segs[..i])
      invariant (forall j :: 0 <= j < |segs| ==> segs[j].GetOr(0) >= 0) ==> total >= 0
    {
      assert segs[..i + 1][..i] == segs[..i];
      total := total + segs[i].GetOr(0);
      i := i + 1;
    }
    assert segs[..i] == segs;
  }

  /** Segment durations add up across concatenation. */
  lemma {:induction false} SegmentMinutesAppend(a: seq<Option<int>>, b: seq<Option<int>>)
    ensures SegmentMinutes(a + b) == SegmentMinutes(a) + SegmentMinutes(b)
    decreases |b|
  {
    if |b| == 0 {
      assert a + b == a;
    } else {
      assert (a + b)[..|a + b| - 1] == a + b[..|b| - 1];
      SegmentMinutesAppend(a, b[..|b| - 1]);
    }
  }
}

=== FILE: store.dfy ===
/** The service store's checkout lifecycle: active checkouts and placed orders
    kept in two maps, plus the cache of service variations looked up so far.
    Every operation takes the store and returns the next store with either
    the checkout it produced or the error it raised.

    What the store cannot compute itself arrives as parameters: the Square
    collaborator (`None` when no access token was configured), the tax rule,
    and a supply of fresh identifiers standing in for `uuid4()`. */
module ServiceStore {
  import opened Base
  import opened UcpTypes
  import opened AppointmentTypes
  import opened Pricing
  import Strings
  import SquareHelpers

  const DefaultCurrency: string := "USD"

  /** Fresh identifiers; an operation uses `ids(0)`, `ids(1)`, ... in the
      order the source calls `uuid4()`. */
  type IdSupply = nat -> string

  /** What the Square client would answer: service variations and location
      names by id, and the variations its catalog search lists. */
  datatype Square = Square(
    services: map<string, ServiceVariation>,
    locationNames: map<string, string>,
    catalog: seq<ServiceVariation>)

  datatype Store = Store(
    checkouts: map<string, Checkout>,
    orders: map<string, Checkout>,
    serviceCache: map<string, ServiceVariation>)

  /** A store as constructed: nothing active, nothing ordered, nothing cached. */
  function EmptyStore(): Store {
    Store(map[], map[], map[])
  }

  /** The store after an operation and what the operation returned or raised. */
  datatype Reply<T> = Reply(store: Store, result: Result<T>)

  /** `start_payment` returns either the checkout or a message asking for
      what is missing. */
  datatype PaymentStart = Started(checkout: Checkout) | NeedsInfo(message: string)

  /** The cache after a lookup and the lookup's outcome. */
  datatype Lookup = Lookup(cache: map<string, ServiceVariation>, result: Result<ServiceVariation>)

  /** An id argument that is absent or empty counts as not given. */
  predicate Given(s: Option<string>) {
    s.Some? && s.value != ""
  }

  /** What Square answers for a service variation id: its variation, carrying
      the requested id. */
  function SquareVariation(square: Square, id: string): ServiceVariation
    requires id in square.services
  {
    square.services[id].(id := id)
  }

  /** `after` is `before` plus answers Square gave: nothing cached is
      forgotten or replaced, and every new entry is Square's variation for
      its key. */
  ghost predicate CacheExtends(before: map<string, ServiceVariation>, after: map<string, ServiceVariation>, square: Option<Square>) {
    && (forall k :: k in before ==> k in after && after[k] == before[k])
    && (forall k :: k in after && k !in before ==>
          square.Some? && k in square.value.services && after[k] == SquareVariation(square.value, k))
  }

  lemma CacheExtendsTransitive(a: map<string, ServiceVariation>, b: map<string, ServiceVariation>, c: map<string, ServiceVariation>, square: Option<Square>)
    requires CacheExtends(a, b, square) && CacheExtends(b, c, square)
    ensures CacheExtends(a, c, square)
  {
  }

  /** `get_service_variation`: the cache first, then Square, whose answer is
      cached under the requested id. */
  function GetServiceVariation(cache: map<string, ServiceVariation>, square: Option<Square>, id: string): (r: Lookup)
    ensures r.result.Ok? <==> id in cache || (square.Some? && id in square.value.services)
    ensures id in cache ==> r == Lookup(cache, Ok(cache[id]))
    ensures r.result.Ok? ==> id in r.cache && r.cache == cache[id := r.result.value]
    ensures r.result.Ok? && id !in cache ==> r.result.value == SquareVariation(square.value, id)
    ensures CacheExtends(cache, r.cache, square)
    ensures r.result.Err? ==> r.cache == cache
    ensures r.result.Err? ==> r.result.error == (if square.None? then SquareNotConfigured else ServiceNotFound(id))
  {
    if id in cache then Lookup(cache, Ok(cache[id]))
    else if square.None? then Lookup(cache, Err(SquareNotConfigured))
    else if id in square.value.services then
      var v := SquareVariation(square.value, id);
      Lookup(cache[id := v], Ok(v))
    else Lookup(cache, Err(ServiceNotFound(id)))
  }

  /** The cache after filing each variation under its own id, in order, so
      that a later variation with the same id replaces an earlier one. */
  function CacheAll(cache: map<string, ServiceVariation>, vs: seq<ServiceVariation>): (r: map<string, ServiceVariation>)
    ensures forall k :: k in cache ==> k in r
    ensures forall i :: 0 <= i < |vs| ==> vs[i].id in r
    ensures forall k :: k in r ==> (k in cache && r[k] == cache[k]) || (r[k] in vs && r[k].id == k)
    ensures forall k :: k in cache && (forall i :: 0 <= i < |vs| ==> vs[i].id != k) ==> r[k] == cache[k]
    ensures |vs| > 0 ==> r[vs[|vs| - 1].id] == vs[|vs| - 1]
    decreases |vs|
  {
    if |vs| == 0 then cache
    else
      var last := vs[|vs| - 1];
      var before := CacheAll(cache, vs[..|vs| - 1]);
      assert forall i :: 0 <= i < |vs| - 1 ==> vs[..|vs| - 1][i] == vs[i];
      before[last.id := last]
  }

  /** `search_services`: the catalog variations that match the query (all of
      them when none match), each cached under its id; without a client,
      nothing is found and nothing changes. */
  function SearchServices(st: Store, square: Option<Square>, query: Option<string>): (r: Reply<seq<ServiceVariation>>)
    ensures r.result.Ok? && r.store.checkouts == st.checkouts && r.store.orders == st.orders
    ensures square.None? ==> r == Reply(st, Ok([]))
    ensures forall v :: v in r.result.value ==> square.Some? && v in square.value.catalog && v.id in r.store.serviceCache
    ensures square.Some? && |square.value.catalog| > 0 ==> |r.result.value| > 0
    ensures forall k :: k in st.serviceCache ==> k in r.store.serviceCache
    ensures forall k :: k in r.store.serviceCache ==>
      (k in st.serviceCache && r.store.serviceCache[k] == st.serviceCache[k]) || r.store.serviceCache[k].id == k
  {
    if square.None? then Reply(st, Ok([]))
    else
      var found := SquareHelpers.ListServiceVariations(query, square.value.catalog);
      Reply(st.(serviceCache := CacheAll(st.serviceCache, found)), Ok(found))
  }

  /** The location reference stored on a slot; any failure to look the
      location up leaves an empty name. */
  function ResolveLocation(square: Option<Square>, locationId: string): (r: RetailLocation)
    ensures r.id == locationId
    ensures square.Some? && locationId in square.value.locationNames ==> r.name == square.value.locationNames[locationId]
    ensures square.None? || locationId !in square.value.locationNames ==> r.name == ""
  {
    if square.Some? && locationId in square.value.locationNames
    then RetailLocation(locationId, square.value.locationNames[locationId])
    else RetailLocation(locationId, "")
  }

  /** `get_checkout`. */
  function GetCheckout(st: Store, checkoutId: string): (r: Option<Checkout>)
    ensures r.Some? <==> checkoutId in st.checkouts
    ensures r.Some? ==> r.value == st.checkouts[checkoutId]
  {
    if checkoutId in st.checkouts then Some(st.checkouts[checkoutId]) else None
  }

  /** The checkout a store creates: incomplete, in dollars, with no line
      items, no totals and an empty slot list. */
  function NewCheckout(id: string): (r: Checkout)
    ensures r.id == id && r.status == Incomplete
    ensures r.lineItems == [] && SlotsOf(r) == [] && r.buyer == None && r.order == None
  {
    NewAppointmentCheckout(id, Incomplete, DefaultCurrency, [], []).(appointment := Some(Appointment(Some([]))))
  }

  /** `_get_line_item`: a new line for a service; the price is the service's
      price (0 when it varies). */
  function NewLineItem(id: string, service: ServiceVariation, quantity: int): (r: LineItem)
    ensures r.id == id && r.quantity == quantity && r.totals == []
    ensures r.item.id == service.id && r.item.price == service.price.GetOr(0)
  {
    LineItem(id, Item(service.id, service.price.GetOr(0), service.name), quantity, [])
  }

  /** Selects the line items whose catalog item is a given service. */
  function ItemIs(serviceVariationId: string): LineItem -> bool {
    (li: LineItem) => li.item.id == serviceVariationId
  }

  /** Selects the line items with a given line-item id. */
  function LineIdIs(lineItemId: string): LineItem -> bool {
    (li: LineItem) => li.id == lineItemId
  }

  /** Selects the line items with any other line-item id. */
  function LineIdIsNot(lineItemId: string): LineItem -> bool {
    (li: LineItem) => li.id != lineItemId
  }

  /** Selects the line items whose id is not among `scheduled`. */
  function LineIdOutside(scheduled: set<string>): LineItem -> bool {
    (li: LineItem) => li.id !in scheduled
  }

  /** Selects the slots that do not list a line-item id. */
  function SlotSkips(lineItemId: string): Slot -> bool {
    (s: Slot) => lineItemId !in s.lineItemIds
  }

  /** Selects the slots that list a line-item id. */
  function SlotLists(lineItemId: string): Slot -> bool {
    (s: Slot) => lineItemId in s.lineItemIds
  }

  /** Selects the slots with a given slot id. */
  function SlotIdIs(slotId: string): Slot -> bool {
    (s: Slot) => s.id == slotId
  }

  /** A checkout with its slot list replaced (creating the container). */
  function WithSlots(c: Checkout, slots: seq<Slot>): (r: Checkout)
    ensures SlotsOf(r) == slots
    ensures r.(appointment := c.appointment) == c
  {
    c.(appointment := Some(Appointment(Some(slots))))
  }

  /** The merge step of `add_to_checkout` and the id of the line it touched. */
  datatype Merge = Merge(checkout: Checkout, lineItemId: string)

  /** Adds `quantity` to the first line for the service, or appends a new
      line for it. With such a line, no line is appended and only its
      quantity grows; without one, exactly one new line comes at the end.
      Every other line is kept. */
  function MergeLineItem(c: Checkout, service: ServiceVariation, serviceVariationId: string, quantity: int, newLineItemId: string): (r: Merge)
    ensures r.checkout.(lineItems := c.lineItems) == c
    ensures match FirstIndex(ItemIs(serviceVariationId), c.lineItems)
      case Some(k) =>
        && r.checkout.lineItems == c.lineItems[k := c.lineItems[k].(quantity := c.lineItems[k].quantity + quantity)]
        && r.lineItemId == c.lineItems[k].id
      case None =>
        && r.checkout.lineItems == c.lineItems + [NewLineItem(newLineItemId, service, quantity)]
        && r.lineItemId == newLineItemId
  {
    match FirstIndex(ItemIs(serviceVariationId), c.lineItems)
    case Some(k) =>
      var li := c.lineItems[k];
      Merge(c.(lineItems := c.lineItems[k := li.(quantity := li.quantity + quantity)]), li.id)
    case None =>
      Merge(c.(lineItems := c.lineItems + [NewLineItem(newLineItemId, service, quantity)]), newLineItemId)
  }

  /** A slot scheduled by the store for a start time: exactly one option,
      that option selected, starting at the start time. */
  predicate HasSingleSelectedOption(s: Slot, startTime: Time, staffId: Option<string>) {
    && s.options.Some? && |s.options.value| == 1
    && s.selectedOptionId == Some(s.options.value[0].id)
    && s.options.value[0].startTime == startTime
    && s.options.value[0].staffId == staffId
  }

  /** The option `_add_or_update_appointment_slot` builds: it ends when it
      starts and lasts the service's duration in whole minutes. */
  function SlotOption(optionId: string, startTime: Time, staffId: Option<string>, durationSeconds: int): (r: AppointmentOption)
    ensures r.id == optionId && r.startTime == startTime && r.endTime == Some(startTime) && r.staffId == staffId
    ensures r.durationMinutes.Some? && r.durationMinutes.value * 60 <= durationSeconds < (r.durationMinutes.value + 1) * 60
  {
    AppointmentOption(optionId, startTime, Some(startTime), staffId, None, Some(durationSeconds / 60))
  }

  /** A slot given a location, a single selected option and notes, as
      `_add_or_update_appointment_slot` sets them; its id and line items are
      kept. */
  function Reschedule(s: Slot, location: RetailLocation, option: AppointmentOption, notes: Option<string>): (r: Slot)
    ensures r.id == s.id && r.lineItemIds == s.lineItemIds
    ensures r.location == location && r.notes == notes
    ensures r.options == Some([option]) && r.selectedOptionId == Some(option.id)
  {
    s.(location := location, options := Some([option]), selectedOptionId := Some(option.id), notes := notes)
  }

  /** `_add_or_update_appointment_slot`: the first slot listing the line item
      is rescheduled in place, keeping its id, its line items and the slot
      count; without one, a new slot for just that line item is appended.
      Every other slot is kept. */
  function UpsertSlot(
    c: Checkout, lineItemId: string, location: RetailLocation, staffId: Option<string>,
    startTime: Time, notes: Option<string>, durationSeconds: int,
    optionId: string, slotId: string): (r: Checkout)
    ensures r.(appointment := c.appointment) == c
    ensures exists j :: 0 <= j < |SlotsOf(r)| && lineItemId in SlotsOf(r)[j].lineItemIds
                     && HasSingleSelectedOption(SlotsOf(r)[j], startTime, staffId)
                     && SlotsOf(r)[j].options.value[0] == SlotOption(optionId, startTime, staffId, durationSeconds)
                     && SlotsOf(r)[j].location == location && SlotsOf(r)[j].notes == notes
    ensures var option := SlotOption(optionId, startTime, staffId, durationSeconds);
      match FirstIndex(SlotLists(lineItemId), SlotsOf(c))
      case Some(k) =>
        SlotsOf(r) == SlotsOf(c)[k := Reschedule(SlotsOf(c)[k], location, option, notes)]
      case None =>
        SlotsOf(r) == SlotsOf(c) + [Reschedule(NewSlot(slotId, [lineItemId], location), location, option, notes)]
  {
    var slots := SlotsOf(c);
    var option := SlotOption(optionId, startTime, staffId, durationSeconds);
    match FirstIndex(SlotLists(lineItemId), slots)
    case Some(k) =>
      var updated := Reschedule(slots[k], location, option, notes);
      var r := WithSlots(c, slots[k := updated]);
      assert SlotsOf(r)[k] == updated;
      r
    case None =>
      var slot := Reschedule(NewSlot(slotId, [lineItemId], location), location, option, notes);
      var r := WithSlots(c, slots + [slot]);
      assert SlotsOf(r)[|slots|] == slot;
      r
  }

  /** The checkout-level part of `add_to_checkout`: merge the service into
      the lines, then schedule the touched line when a location and a start
      time were given. New ids: `ids(1)` for a new line, `ids(2)` for the
      option and `ids(3)` for a new slot. */
  function AddService(
    c: Checkout, square: Option<Square>, service: ServiceVariation, serviceVariationId: string, quantity: int,
    ids: IdSupply, locationId: Option<string>, staffId: Option<string>, startTime: Option<Time>, notes: Option<string>): (r: Checkout)
    ensures r.(lineItems := c.lineItems, appointment := c.appointment) == c
  {
    var merged := MergeLineItem(c, service, serviceVariationId, quantity, ids(1));
    if Given(locationId) && startTime.Some? && merged.lineItemId != "" then
      UpsertSlot(merged.checkout, merged.lineItemId, ResolveLocation(square, locationId.value),
                 staffId, startTime.value, notes, service.durationSeconds, ids(2), ids(3))
    else merged.checkout
  }

  /** The checkout `add_to_checkout` works on and the key it is filed under:
      the given one, or a new one under `ids(0)`. */
  function TargetId(checkoutId: Option<string>, ids: IdSupply): string {
    if Given(checkoutId) then checkoutId.value else ids(0)
  }

  /** `add_to_checkout`. The service is looked up first; an absent or empty
      checkout id starts a new checkout, an unknown one is an error. */
  function AddToCheckout(
    st: Store, square: Option<Square>, tax: TaxPolicy, ids: IdSupply,
    serviceVariationId: string, quantity: int, checkoutId: Option<string>,
    locationId: Option<string>, staffId: Option<string>, startTime: Option<Time>, notes: Option<string>): (r: Reply<Checkout>)
    ensures r.store.orders == st.orders
    ensures CacheExtends(st.serviceCache, r.store.serviceCache, square)
    ensures GetServiceVariation(st.serviceCache, square, serviceVariationId).result.Err? ==>
      r == Reply(st, Err(GetServiceVariation(st.serviceCache, square, serviceVariationId).result.error))
    ensures Given(checkoutId) && checkoutId.value !in st.checkouts ==>
      r.result.Err? && r.store.checkouts == st.checkouts
    ensures GetServiceVariation(st.serviceCache, square, serviceVariationId).result.Ok? && Given(checkoutId) && checkoutId.value !in st.checkouts ==>
      r.result == Err(CheckoutNotFound(checkoutId.value))
    ensures r.result.Ok? ==>
      && r.result.value.status == Incomplete
      && r.store.checkouts == st.checkouts[TargetId(checkoutId, ids) := r.result.value]
      && (Given(checkoutId) ==> r.result.value.id == st.checkouts[checkoutId.value].id)
      && (!Given(checkoutId) ==> r.result.value.id == ids(0))
  {
    var lookup := GetServiceVariation(st.serviceCache, square, serviceVariationId);
    if lookup.result.Err? then Reply(st, Err(lookup.result.error))
    else
      var st1 := st.(serviceCache := lookup.cache);
      if Given(checkoutId) && checkoutId.value !in st.checkouts then
        Reply(st1, Err(CheckoutNotFound(checkoutId.value)))
      else
        var c := if Given(checkoutId) then st.checkouts[checkoutId.value] else NewCheckout(ids(0));
        var c3 := Recalculate(AddService(c, square, lookup.result.value, serviceVariationId, quantity,
                                         ids, locationId, staffId, startTime, notes), tax);
        Reply(st1.(checkouts := st1.checkouts[TargetId(checkoutId, ids) := c3]), Ok(c3))
  }

  /** The checkout-level part of `remove_from_checkout`: drops every line
      with the id and, when there are slots, every slot listing it. Either
      way the slots left are exactly those that do not list it. */
  function RemoveLine(c: Checkout, lineItemId: string): (r: Checkout)
    ensures r.(lineItems := c.lineItems, appointment := c.appointment) == c
    ensures r.lineItems == Filter(LineIdIsNot(lineItemId), c.lineItems)
    ensures SlotsOf(r) == Filter(SlotSkips(lineItemId), SlotsOf(c))
  {
    var appointment :=
      if c.appointment.Some? && c.appointment.value.slots.Some? && |c.appointment.value.slots.value| > 0
      then Some(Appointment(Some(Filter(SlotSkips(lineItemId), c.appointment.value.slots.value))))
      else c.appointment;
    c.(lineItems := Filter(LineIdIsNot(lineItemId), c.lineItems), appointment := appointment)
  }

  /** `remove_from_checkout`. An unknown line-item id removes nothing. */
  function RemoveFromCheckout(st: Store, tax: TaxPolicy, checkoutId: string, lineItemId: string): (r: Reply<Checkout>)
    ensures r.store.orders == st.orders && r.store.serviceCache == st.serviceCache
    ensures r.result.Ok? <==> checkoutId in st.checkouts
    ensures r.result.Err? ==> r.store == st && r.result.error == CheckoutNotFound(checkoutId)
    ensures r.result.Ok? ==>
      && r.result.value.status == Incomplete
      && r.store.checkouts == st.checkouts[checkoutId := r.result.value]
      && forall i :: 0 <= i < |r.result.value.lineItems| ==> r.result.value.lineItems[i].id != lineItemId
  {
    if checkoutId !in st.checkouts then Reply(st, Err(CheckoutNotFound(checkoutId)))
    else
      var c1 := RemoveLine(st.checkouts[checkoutId], lineItemId);
      assert forall i :: 0 <= i < |c1.lineItems| ==> c1.lineItems[i] in c1.lineItems && LineIdIsNot(lineItemId)(c1.lineItems[i]);
      var c2 := Recalculate(c1, tax);
      Reply(st.(checkouts := st.checkouts[checkoutId := c2]), Ok(c2))
  }

  /** The in-place write of `update_checkout`: line `k` gets the new
      quantity when one is given (zero included; nothing is removed). */
  function SetQuantity(c: Checkout, k: nat, quantity: Option<int>): (r: Checkout)
    requires k < |c.lineItems|
    ensures r.(lineItems := c.lineItems) == c && |r.lineItems| == |c.lineItems|
    ensures r.lineItems[k] == c.lineItems[k].(quantity := quantity.GetOr(c.lineItems[k].quantity))
    ensures forall j :: 0 <= j < |c.lineItems| && j != k ==> r.lineItems[j] == c.lineItems[j]
  {
    if quantity.Some? then c.(lineItems := c.lineItems[k := c.lineItems[k].(quantity := quantity.value)]) else c
  }

  /** `update_checkout`. The quantity is written into the stored checkout
      before the service is looked up, so a failing lookup leaves it written
      with the old totals and status. */
  function UpdateCheckout(
    st: Store, square: Option<Square>, tax: TaxPolicy, ids: IdSupply,
    checkoutId: string, lineItemId: string, quantity: Option<int>,
    locationId: Option<string>, staffId: Option<string>, startTime: Option<Time>, notes: Option<string>): (r: Reply<Checkout>)
    ensures r.store.orders == st.orders
    ensures CacheExtends(st.serviceCache, r.store.serviceCache, square)
    ensures checkoutId !in st.checkouts ==> r == Reply(st, Err(CheckoutNotFound(checkoutId)))
    ensures checkoutId in st.checkouts && FirstIndex(LineIdIs(lineItemId), st.checkouts[checkoutId].lineItems).None? ==>
      r == Reply(st, Err(LineItemNotFound(lineItemId)))
    ensures r.result.Ok? ==>
      && r.result.value.status == Incomplete
      && r.store.checkouts == st.checkouts[checkoutId := r.result.value]
  {
    if checkoutId !in st.checkouts then Reply(st, Err(CheckoutNotFound(checkoutId)))
    else
      var c := st.checkouts[checkoutId];
      match FirstIndex(LineIdIs(lineItemId), c.lineItems)
      case None => Reply(st, Err(LineItemNotFound(lineItemId)))
      case Some(k) =>
        var c1 := SetQuantity(c, k, quantity);
        if Given(locationId) && startTime.Some? then
          var lookup := GetServiceVariation(st.serviceCache, square, c.lineItems[k].item.id);
          if lookup.result.Err? then
            Reply(st.(checkouts := st.checkouts[checkoutId := c1]), Err(lookup.result.error))
          else
            var c2 := UpsertSlot(c1, lineItemId, ResolveLocation(square, locationId.value), staffId,
                                 startTime.value, notes, lookup.result.value.durationSeconds, ids(0), ids(1));
            var c3 := Recalculate(c2, tax);
            Reply(Store(st.checkouts[checkoutId := c3], st.orders, lookup.cache), Ok(c3))
        else
          var c3 := Recalculate(c1, tax);
          Reply(st.(checkouts := st.checkouts[checkoutId := c3]), Ok(c3))
  }

  /** The cache and checkout while `set_appointment` works through its
      requests. */
  datatype Applied = Applied(cache: map<string, ServiceVariation>, checkout: Checkout)

  /** Selects the line items a slot request lists. */
  function ListedBy(req: SlotRequest): LineItem -> bool {
    (li: LineItem) => li.id in req.lineItemIds
  }

  /** The duration `set_appointment` gives a slot: the duration in whole
      minutes of the service of the first checkout line the request lists,
      or 60 when there is no such line or its service cannot be looked up. */
  function RequestDuration(cache: map<string, ServiceVariation>, square: Option<Square>, c: Checkout, req: SlotRequest): (r: (map<string, ServiceVariation>, int))
    ensures CacheExtends(cache, r.0, square)
    ensures FirstIndex(ListedBy(req), c.lineItems).None? ==> r == (cache, 60)
    ensures FirstIndex(ListedBy(req), c.lineItems).Some? ==>
      var sid := c.lineItems[FirstIndex(ListedBy(req), c.lineItems).value].item.id;
      if sid in cache || (square.Some? && sid in square.value.services)
      then sid in r.0 && r.1 * 60 <= r.0[sid].durationSeconds < (r.1 + 1) * 60
      else r == (cache, 60)
  {
    if |req.lineItemIds| == 0 then (cache, 60)
    else match FirstIndex(ListedBy(req), c.lineItems)
      case None => (cache, 60)
      case Some(k) =>
        var lookup := GetServiceVariation(cache, square, c.lineItems[k].item.id);
        if lookup.result.Ok? then (lookup.cache, lookup.result.value.durationSeconds / 60)
        else (lookup.cache, 60)
  }

  /** A slot as `set_appointment` leaves it for a request. */
  predicate AppliesRequest(s: Slot, req: SlotRequest, location: RetailLocation) {
    && s.lineItemIds == req.lineItemIds && s.location == location && s.notes == req.notes
    && HasSingleSelectedOption(s, req.startTime, req.staffId)
    && s.options.value[0].endTime == None
  }

  /** One request of `set_appointment`: the slot with the request's id is
      overwritten; a request without an id, or whose id matches no slot,
      appends a new slot (keeping the requested id when there is one). */
  function ApplySlotRequest(cache: map<string, ServiceVariation>, square: Option<Square>, c: Checkout, req: SlotRequest, optionId: string, slotId: string): (r: Applied)
    ensures r.checkout.(appointment := c.appointment) == c
    ensures CacheExtends(cache, r.cache, square)
  {
    var location := ResolveLocation(square, req.locationId);
    var (cache', minutes) := RequestDuration(cache, square, c, req);
    var option := AppointmentOption(optionId, req.startTime, None, req.staffId, None, Some(minutes));
    var slots := SlotsOf(c);
    var existing := if Given(req.id) then FirstIndex(SlotIdIs(req.id.value), slots) else None;
    match existing
    case Some(k) =>
      var updated := slots[k].(lineItemIds := req.lineItemIds, location := location, options := Some([option]),
                               selectedOptionId := Some(option.id), notes := req.notes);
      Applied(cache', WithSlots(c, slots[k := updated]))
    case None =>
      var id := if Given(req.id) then req.id.value else slotId;
      var slot := Slot(id, req.lineItemIds, location, Some([option]), Some(option.id), req.notes);
      Applied(cache', WithSlots(c, slots + [slot]))
  }

  /** The slot list after one request: the slot with the request's id is
      overwritten in place, or a slot is appended; either way it is left as
      the request asks. */
  lemma ApplySlotRequestSlots(cache: map<string, ServiceVariation>, square: Option<Square>, c: Checkout, req: SlotRequest, optionId: string, slotId: string)
    ensures var r := ApplySlotRequest(cache, square, c, req, optionId, slotId);
      Given(req.id) && FirstIndex(SlotIdIs(req.id.value), SlotsOf(c)).Some? ==>
      var k := FirstIndex(SlotIdIs(req.id.value), SlotsOf(c)).value;
      && |SlotsOf(r.checkout)| == |SlotsOf(c)|
      && SlotsOf(r.checkout)[k].id == req.id.value
      && AppliesRequest(SlotsOf(r.checkout)[k], req, ResolveLocation(square, req.locationId))
      && forall j :: 0 <= j < |SlotsOf(c)| && j != k ==> SlotsOf(r.checkout)[j] == SlotsOf(c)[j]
    ensures var r := ApplySlotRequest(cache, square, c, req, optionId, slotId);
      !(Given(req.id) && FirstIndex(SlotIdIs(req.id.value), SlotsOf(c)).Some?) ==>
      var n := |SlotsOf(c)|;
      && |SlotsOf(r.checkout)| == n + 1
      && SlotsOf(r.checkout)[..n] == SlotsOf(c)
      && SlotsOf(r.checkout)[n].id == (if Given(req.id) then req.id.value else slotId)
      && AppliesRequest(SlotsOf(r.checkout)[n], req, ResolveLocation(square, req.locationId))
  {
  }

  /** The loop of `set_appointment`, request `n` drawing ids `ids(2n)` and
      `ids(2n + 1)`. */
  function ApplySlotRequests(cache: map<string, ServiceVariation>, square: Option<Square>, c: Checkout, reqs: seq<SlotRequest>, ids: IdSupply, n: nat): (r: Applied)
    ensures r.checkout.(appointment := c.appointment) == c
    ensures CacheExtends(cache, r.cache, square)
    decreases |reqs|
  {
    if |reqs| == 0 then Applied(cache, c)
    else
      var step := ApplySlotRequest(cache, square, c, reqs[0], ids(2 * n), ids(2 * n + 1));
      var rest := ApplySlotRequests(step.cache, square, step.checkout, reqs[1..], ids, n + 1);
      CacheExtendsTransitive(cache, step.cache, rest.cache, square);
      rest
  }

  /** `set_appointment`. */
  function SetAppointment(st: Store, square: Option<Square>, tax: TaxPolicy, ids: IdSupply, checkoutId: string, request: AppointmentRequest): (r: Reply<Checkout>)
    ensures r.store.orders == st.orders
    ensures CacheExtends(st.serviceCache, r.store.serviceCache, square)
    ensures r.result.Ok? <==> checkoutId in st.checkouts
    ensures r.result.Err? ==> r.store == st && r.result.error == CheckoutNotFound(checkoutId)
    ensures r.result.Ok? ==>
      && r.result.value.status == Incomplete
      && r.store.checkouts == st.checkouts[checkoutId := r.result.value]
      && r.result.value.lineItems == Recalculate(st.checkouts[checkoutId], tax).lineItems
  {
    if checkoutId !in st.checkouts then Reply(st, Err(CheckoutNotFound(checkoutId)))
    else
      var c := st.checkouts[checkoutId];
      var c0 := WithSlots(c, SlotsOf(c));
      var applied := ApplySlotRequests(st.serviceCache, square, c0, request.slots.GetOr([]), ids, 0);
      var c2 := Recalculate(applied.checkout, tax);
      Reply(Store(st.checkouts[checkoutId := c2], st.orders, applied.cache), Ok(c2))
  }

  /** Every line-item id some slot lists. */
  function ScheduledIds(slots: seq<Slot>): (r: set<string>)
    ensures forall i, id :: 0 <= i < |slots| && id in slots[i].lineItemIds ==> id in r
    ensures forall id :: id in r ==> exists i :: 0 <= i < |slots| && id in slots[i].lineItemIds
  {
    if |slots| == 0 then {}
    else
      var rest := ScheduledIds(slots[1..]);
      assert forall i :: 1 <= i < |slots| ==> slots[i] == slots[1..][i - 1];
      (set id | id in slots[0].lineItemIds) + rest
  }

  /** The messages `start_payment` returns; the longer two are written in
      two pieces so that the verifier can read their characters. */
  const BuyerMissing: string := "Provide a buyer email address"
  const SomeUnscheduled: string := "Some services don't have " + "appointments scheduled"
  const NoneScheduled: string := "No appointments scheduled " + "for services"

  /** The lines no slot lists. */
  function Unscheduled(c: Checkout): seq<LineItem> {
    Filter(LineIdOutside(ScheduledIds(SlotsOf(c))), c.lineItems)
  }

  /** The messages that hold a checkout back from payment, in the order
      `start_payment` collects them. */
  function PaymentMessages(c: Checkout): (r: seq<string>)
    ensures |r| <= 2
    ensures forall m :: m in r ==> m == BuyerMissing || m == SomeUnscheduled || m == NoneScheduled
    ensures c.buyer.None? ==> |r| > 0 && r[0] == BuyerMissing
    ensures |r| == 0 <==> c.buyer.Some? && (if |SlotsOf(c)| > 0 then |Unscheduled(c)| == 0 else |c.lineItems| == 0)
  {
    (if c.buyer.None? then [BuyerMissing] else [])
    + (if |SlotsOf(c)| > 0 then
         (if |Unscheduled(c)| > 0 then [SomeUnscheduled] else [])
       else if |c.lineItems| > 0 then [NoneScheduled] else [])
  }

  /** Every line item is listed by some slot. */
  predicate AllScheduled(c: Checkout) {
    forall i :: 0 <= i < |c.lineItems| ==>
      exists j :: 0 <= j < |SlotsOf(c)| && c.lineItems[i].id in SlotsOf(c)[j].lineItemIds
  }

  /** `start_payment`: a checkout already ready is returned as it is;
      otherwise it becomes ready only when nothing is missing. */
  function StartPayment(st: Store, tax: TaxPolicy, checkoutId: string): (r: Reply<PaymentStart>)
    ensures r.store.orders == st.orders && r.store.serviceCache == st.serviceCache
    ensures r.result.Ok? <==> checkoutId in st.checkouts
    ensures r.result.Err? ==> r.store == st && r.result.error == CheckoutNotFound(checkoutId)
    ensures checkoutId in st.checkouts && st.checkouts[checkoutId].status == ReadyForComplete ==>
      r == Reply(st, Ok(Started(st.checkouts[checkoutId])))
    ensures r.result.Ok? && r.result.value.NeedsInfo? ==> r.store == st
    ensures r.result.Ok? && r.result.value.Started? ==>
      && r.result.value.checkout.status == ReadyForComplete
      && r.store.checkouts == st.checkouts[checkoutId := r.result.value.checkout]
  {
    if checkoutId !in st.checkouts then Reply(st, Err(CheckoutNotFound(checkoutId)))
    else
      var c := st.checkouts[checkoutId];
      if c.status == ReadyForComplete then Reply(st, Ok(Started(c)))
      else
        var messages := PaymentMessages(c);
        if |messages| > 0 then Reply(st, Ok(NeedsInfo(Strings.Join("\n", messages))))
        else
          var c2 := Recalculate(c, tax).(status := ReadyForComplete);
          Reply(st.(checkouts := st.checkouts[checkoutId := c2]), Ok(Started(c2)))
  }

  /** The id an order gets. */
  function OrderId(checkoutId: string): (r: string)
    ensures |r| == |checkoutId| + 4 && r[..4] == "ORD-" && r[4..] == checkoutId
  {
    "ORD-" + checkoutId
  }

  /** `place_order`: completes the checkout whatever its status, attaches the
      order confirmation, and moves it from the active checkouts to the
      orders. Square bookings are not modelled. */
  function PlaceOrder(st: Store, checkoutId: string): (r: Reply<Checkout>)
    ensures r.result.Ok? <==> checkoutId in st.checkouts
    ensures r.result.Err? ==> r.store == st && r.result.error == CheckoutNotFound(checkoutId)
    ensures r.result.Ok? ==>
      var c := st.checkouts[checkoutId];
      && r.result.value.status == Completed
      && r.result.value.order == Some(OrderConfirmation(OrderId(checkoutId), "https://example.com/order?id=" + OrderId(checkoutId)))
      && r.result.value.lineItems == c.lineItems && r.result.value.totals == c.totals
      && r.store.checkouts == st.checkouts - {checkoutId}
      && r.store.orders == st.orders[OrderId(checkoutId) := r.result.value]
      && r.store.serviceCache == st.serviceCache
  {
    if checkoutId !in st.checkouts then Reply(st, Err(CheckoutNotFound(checkoutId)))
    else
      var orderId := OrderId(checkoutId);
      var c := st.checkouts[checkoutId].(
        status := Completed,
        order := Some(OrderConfirmation(orderId, "https://example.com/order?id=" + orderId)));
      Reply(Store(st.checkouts - {checkoutId}, st.orders[orderId := c], st.serviceCache), Ok(c))
  }
}

=== FILE: store_invariant.dfy ===
/** The invariant the service store keeps across every operation: the cache
    files each variation under its own id, every active checkout is filed
    under its id, names only cached services, has non-empty line ids and
    totals that agree with its lines, and every order is completed and
    confirmed under the key it is filed by. Under it, the service lookup of
    `update_checkout` cannot fail. */
module StoreInvariant {
  import opened Base
  import opened UcpTypes
  import opened AppointmentTypes
  import opened Pricing
  import opened ServiceStore

  /** Every cached variation is filed under its own id. */
  ghost predicate CacheKeyed(cache: map<string, ServiceVariation>) {
    forall k :: k in cache ==> cache[k].id == k
  }

  /** Every line of the checkout names a cached service and has an id. */
  ghost predicate LinesCached(c: Checkout, cache: map<string, ServiceVariation>) {
    forall i :: 0 <= i < |c.lineItems| ==> c.lineItems[i].item.id in cache && c.lineItems[i].id != ""
  }

  /** An active checkout filed under `key`. */
  ghost predicate ActiveOk(key: string, c: Checkout, cache: map<string, ServiceVariation>, tax: TaxPolicy) {
    && c.id == key
    && c.status != Completed
    && c.order == None
    && LinesCached(c, cache)
    && Consistent(c, tax)
  }

  /** A placed order filed under `key`. */
  ghost predicate OrderOk(key: string, o: Checkout) {
    && key == OrderId(o.id)
    && o.status == Completed
    && o.order.Some? && o.order.value.id == key
  }

  ghost predicate StoreInv(st: Store, tax: TaxPolicy) {
    && CacheKeyed(st.serviceCache)
    && (forall k :: k in st.checkouts ==> ActiveOk(k, st.checkouts[k], st.serviceCache, tax))
    && (forall k :: k in st.orders ==> OrderOk(k, st.orders[k]))
  }

  /** What the invariant says about one active checkout. */
  lemma ActiveOf(st: Store, tax: TaxPolicy, key: string)
    requires StoreInv(st, tax) && key in st.checkouts
    ensures ActiveOk(key, st.checkouts[key], st.serviceCache, tax)
  {
  }

  /** Caching Square's answers keeps the cache keyed. */
  lemma CacheExtendsKeyed(before: map<string, ServiceVariation>, after: map<string, ServiceVariation>, square: Option<Square>)
    requires CacheKeyed(before) && CacheExtends(before, after, square)
    ensures CacheKeyed(after)
  {
    forall k | k in after
      ensures after[k].id == k
    {
      if k !in before {
        assert after[k] == SquareVariation(square.value, k);
      }
    }
  }

  /** A line that was cached stays cached when the cache grows. */
  lemma LinesCachedGrow(c: Checkout, before: map<string, ServiceVariation>, after: map<string, ServiceVariation>, square: Option<Square>)
    requires LinesCached(c, before) && CacheExtends(before, after, square)
    ensures LinesCached(c, after)
  {
  }

  /** Growing the cache keeps every active checkout valid. */
  lemma ActiveGrow(st: Store, cache: map<string, ServiceVariation>, square: Option<Square>, tax: TaxPolicy)
    requires StoreInv(st, tax) && CacheExtends(st.serviceCache, cache, square)
    ensures StoreInv(st.(serviceCache := cache), tax)
  {
    CacheExtendsKeyed(st.serviceCache, cache, square);
    forall k | k in st.checkouts
      ensures ActiveOk(k, st.checkouts[k], cache, tax)
    {
      LinesCachedGrow(st.checkouts[k], st.serviceCache, cache, square);
    }
  }

  /** Recalculation makes the totals agree and keeps every line's id and
      service. */
  lemma RecalculateActive(key: string, c: Checkout, cache: map<string, ServiceVariation>, tax: TaxPolicy)
    requires c.id == key && c.order == None && LinesCached(c, cache)
    ensures ActiveOk(key, Recalculate(c, tax), cache, tax)
  {
    RecalculateConsistent(c, tax);
  }

  /** Filing a valid checkout keeps the invariant. */
  lemma FileActive(st: Store, key: string, c: Checkout, tax: TaxPolicy)
    requires StoreInv(st, tax) && ActiveOk(key, c, st.serviceCache, tax)
    ensures StoreInv(st.(checkouts := st.checkouts[key := c]), tax)
  {
  }

  /** Filing a valid checkout while the cache grows keeps the invariant. */
  lemma FileActiveGrown(st: Store, cache: map<string, ServiceVariation>, square: Option<Square>, key: string, c: Checkout, tax: TaxPolicy)
    requires StoreInv(st, tax) && CacheExtends(st.serviceCache, cache, square) && ActiveOk(key, c, cache, tax)
    ensures StoreInv(st.(serviceCache := cache, checkouts := st.checkouts[key := c]), tax)
  {
    ActiveGrow(st, cache, square, tax);
  }

  /** The store starts out valid. */
  lemma EmptyStoreInv(tax: TaxPolicy)
    ensures StoreInv(EmptyStore(), tax)
  {
  }

  /** `search_services` keeps the invariant: it only adds variations filed
      under their own ids, so every line stays cached. */
  lemma SearchServicesKeepsInv(st: Store, square: Option<Square>, tax: TaxPolicy, query: Option<string>)
    requires StoreInv(st, tax)
    ensures StoreInv(SearchServices(st, square, query).store, tax)
  {
    var s := SearchServices(st, square, query).store;
    forall k | k in s.checkouts
      ensures ActiveOk(k, s.checkouts[k], s.serviceCache, tax)
    {
      ActiveOf(st, tax, k);
    }
  }

  /** The service `add_to_checkout` looks up carries the requested id and
      ends up cached. */
  lemma AddLookupKeyed(cache: map<string, ServiceVariation>, square: Option<Square>, serviceVariationId: string)
    requires CacheKeyed(cache)
    ensures var lookup := GetServiceVariation(cache, square, serviceVariationId);
      lookup.result.Ok? ==> lookup.result.value.id == serviceVariationId && serviceVariationId in lookup.cache
  {
  }

  /** Merging a cached service into lines that are cached keeps every line
      cached and with an id. */
  lemma MergeLinesCached(c: Checkout, service: ServiceVariation, serviceVariationId: string, quantity: int,
                         newLineItemId: string, cache: map<string, ServiceVariation>)
    requires LinesCached(c, cache) && service.id in cache && newLineItemId != ""
    ensures LinesCached(MergeLineItem(c, service, serviceVariationId, quantity, newLineItemId).checkout, cache)
  {
    match FirstIndex(ItemIs(serviceVariationId), c.lineItems)
    case Some(k) =>
    case None =>
      var lines := c.lineItems + [NewLineItem(newLineItemId, service, quantity)];
      assert MergeLineItem(c, service, serviceVariationId, quantity, newLineItemId).checkout.lineItems == lines;
      assert forall i :: 0 <= i < |c.lineItems| ==> lines[i] == c.lineItems[i];
  }

  /** The same for the whole checkout-level step of `add_to_checkout`:
      scheduling does not touch the lines. */
  lemma AddServiceLinesCached(
    c: Checkout, square: Option<Square>, service: ServiceVariation, serviceVariationId: string, quantity: int,
    ids: IdSupply, locationId: Option<string>, staffId: Option<string>, startTime: Option<Time>, notes: Option<string>,
    cache: map<string, ServiceVariation>)
    requires LinesCached(c, cache) && service.id in cache && ids(1) != ""
    ensures LinesCached(AddService(c, square, service, serviceVariationId, quantity, ids, locationId, staffId, startTime, notes), cache)
  {
    MergeLinesCached(c, service, serviceVariationId, quantity, ids(1), cache);
  }

  /** The checkout `add_to_checkout` files is valid. */
  lemma AddedCheckoutActive(
    st: Store, square: Option<Square>, tax: TaxPolicy, ids: IdSupply,
    serviceVariationId: string, quantity: int, checkoutId: Option<string>,
    locationId: Option<string>, staffId: Option<string>, startTime: Option<Time>, notes: Option<string>,
    service: ServiceVariation, cache: map<string, ServiceVariation>)
    requires StoreInv(st, tax) && ids(1) != ""
    requires CacheExtends(st.serviceCache, cache, square) && service.id in cache
    requires Given(checkoutId) ==> checkoutId.value in st.checkouts
    ensures var c := if Given(checkoutId) then st.checkouts[checkoutId.value] else NewCheckout(ids(0));
      ActiveOk(TargetId(checkoutId, ids),
               Recalculate(AddService(c, square, service, serviceVariationId, quantity, ids, locationId, staffId, startTime, notes), tax),
               cache, tax)
  {
    var c := if Given(checkoutId) then st.checkouts[checkoutId.value] else NewCheckout(ids(0));
    if Given(checkoutId) {
      ActiveOf(st, tax, checkoutId.value);
      LinesCachedGrow(c, st.serviceCache, cache, square);
    }
    AddServiceLinesCached(c, square, service, serviceVariationId, quantity, ids, locationId, staffId, startTime, notes, cache);
    var c2 := AddService(c, square, service, serviceVariationId, quantity, ids, locationId, staffId, startTime, notes);
    RecalculateActive(TargetId(checkoutId, ids), c2, cache, tax);
  }

  /** When the lookup succeeds and the checkout exists or is new,
      `add_to_checkout` files the recalculated checkout and keeps the grown
      cache. */
  lemma AddToCheckoutFiles(
    st: Store, square: Option<Square>, tax: TaxPolicy, ids: IdSupply,
    serviceVariationId: string, quantity: int, checkoutId: Option<string>,
    locationId: Option<string>, staffId: Option<string>, startTime: Option<Time>, notes: Option<string>)
    requires GetServiceVariation(st.serviceCache, square, serviceVariationId).result.Ok?
    requires Given(checkoutId) ==> checkoutId.value in st.checkouts
    ensures var lookup := GetServiceVariation(st.serviceCache, square, serviceVariationId);
      var c := if Given(checkoutId) then st.checkouts[checkoutId.value] else NewCheckout(ids(0));
      var c3 := Recalculate(AddService(c, square, lookup.result.value, serviceVariationId, quantity,
                                       ids, locationId, staffId, startTime, notes), tax);
      AddToCheckout(st, square, tax, ids, serviceVariationId, quantity, checkoutId, locationId, staffId, startTime, notes)
        == Reply(st.(serviceCache := lookup.cache, checkouts := st.checkouts[TargetId(checkoutId, ids) := c3]), Ok(c3))
  {
  }

  /** `add_to_checkout` naming an unknown checkout only grows the cache. */
  lemma AddToUnknownKeepsInv(
    st: Store, square: Option<Square>, tax: TaxPolicy, ids: IdSupply,
    serviceVariationId: string, quantity: int, checkoutId: Option<string>,
    locationId: Option<string>, staffId: Option<string>, startTime: Option<Time>, notes: Option<string>)
    requires StoreInv(st, tax) && Given(checkoutId) && checkoutId.value !in st.checkouts
    requires GetServiceVariation(st.serviceCache, square, serviceVariationId).result.Ok?
    ensures StoreInv(AddToCheckout(st, square, tax, ids, serviceVariationId, quantity, checkoutId,
                                   locationId, staffId, startTime, notes).store, tax)
  {
    ActiveGrow(st, GetServiceVariation(st.serviceCache, square, serviceVariationId).cache, square, tax);
  }

  /** `add_to_checkout` on a new or known checkout files a valid one. */
  lemma AddToKnownKeepsInv(
    st: Store, square: Option<Square>, tax: TaxPolicy, ids: IdSupply,
    serviceVariationId: string, quantity: int, checkoutId: Option<string>,
    locationId: Option<string>, staffId: Option<string>, startTime: Option<Time>, notes: Option<string>)
    requires StoreInv(st, tax) && ids(1) != "" && (Given(checkoutId) ==> checkoutId.value in st.checkouts)
    requires GetServiceVariation(st.serviceCache, square, serviceVariationId).result.Ok?
    ensures StoreInv(AddToCheckout(st, square, tax, ids, serviceVariationId, quantity, checkoutId,
                                   locationId, staffId, startTime, notes).store, tax)
  {
    var lookup := GetServiceVariation(st.serviceCache, square, serviceVariationId);
    var c := if Given(checkoutId) then st.checkouts[checkoutId.value] else NewCheckout(ids(0));
    var c3 := Recalculate(AddService(c, square, lookup.result.value, serviceVariationId, quantity,
                                     ids, locationId, staffId, startTime, notes), tax);
    var st2 := st.(serviceCache := lookup.cache, checkouts := st.checkouts[TargetId(checkoutId, ids) := c3]);
    assert StoreInv(st2, tax) by {
      AddLookupKeyed(st.serviceCache, square, serviceVariationId);
      AddedCheckoutActive(st, square, tax, ids, serviceVariationId, quantity, checkoutId,
                          locationId, staffId, startTime, notes, lookup.result.value, lookup.cache);
      FileActiveGrown(st, lookup.cache, square, TargetId(checkoutId, ids), c3, tax);
    }
    AddToCheckoutFiles(st, square, tax, ids, serviceVariationId, quantity, checkoutId, locationId, staffId, startTime, notes);
  }

  /** `add_to_checkout` keeps the invariant, given a non-empty id for a new
      line (`uuid4().hex` never is empty). */
  lemma AddToCheckoutKeepsInv(
    st: Store, square: Option<Square>, tax: TaxPolicy, ids: IdSupply,
    serviceVariationId: string, quantity: int, checkoutId: Option<string>,
    locationId: Option<string>, staffId: Option<string>, startTime: Option<Time>, notes: Option<string>)
    requires StoreInv(st, tax) && ids(1) != ""
    ensures StoreInv(AddToCheckout(st, square, tax, ids, serviceVariationId, quantity, checkoutId,
                                   locationId, staffId, startTime, notes).store, tax)
  {
    if GetServiceVariation(st.serviceCache, square, serviceVariationId).result.Ok? {
      if Given(checkoutId) && checkoutId.value !in st.checkouts {
        AddToUnknownKeepsInv(st, square, tax, ids, serviceVariationId, quantity, checkoutId, locationId, staffId, startTime, notes);
      } else {
        AddToKnownKeepsInv(st, square, tax, ids, serviceVariationId, quantity, checkoutId, locationId, staffId, startTime, notes);
      }
    }
  }

  /** `remove_from_checkout` keeps the invariant. */
  lemma RemoveFromCheckoutKeepsInv(st: Store, tax: TaxPolicy, checkoutId: string, lineItemId: string)
    requires StoreInv(st, tax)
    ensures StoreInv(RemoveFromCheckout(st, tax, checkoutId, lineItemId).store, tax)
  {
    if checkoutId in st.checkouts {
      var c := st.checkouts[checkoutId];
      ActiveOf(st, tax, checkoutId);
      var c1 := RemoveLine(c, lineItemId);
      forall i | 0 <= i < |c1.lineItems|
        ensures c1.lineItems[i].item.id in st.serviceCache && c1.lineItems[i].id != ""
      {
        assert c1.lineItems[i] in c1.lineItems;
        var j :| 0 <= j < |c.lineItems| && c.lineItems[j] == c1.lineItems[i];
      }
      RecalculateActive(checkoutId, c1, st.serviceCache, tax);
      FileActive(st, checkoutId, Recalculate(c1, tax), tax);
    }
  }

  /** When the lines of the checkout name cached services, the lookup
      `update_checkout` makes before rescheduling cannot fail. */
  lemma UpdateCheckoutLookupCached(
    st: Store, square: Option<Square>, tax: TaxPolicy, ids: IdSupply,
    checkoutId: string, lineItemId: string, quantity: Option<int>,
    locationId: Option<string>, staffId: Option<string>, startTime: Option<Time>, notes: Option<string>)
    requires checkoutId in st.checkouts && LinesCached(st.checkouts[checkoutId], st.serviceCache)
    ensures var r := UpdateCheckout(st, square, tax, ids, checkoutId, lineItemId, quantity, locationId, staffId, startTime, notes);
      r.result.Ok? <==> FirstIndex(LineIdIs(lineItemId), st.checkouts[checkoutId].lineItems).Some?
  {
    var c := st.checkouts[checkoutId];
    match FirstIndex(LineIdIs(lineItemId), c.lineItems)
    case None =>
    case Some(k) =>
      if Given(locationId) && startTime.Some? {
        assert c.lineItems[k].item.id in st.serviceCache;
        UpdateRescheduleCached(st, square, tax, ids, checkoutId, lineItemId, quantity, locationId, staffId, startTime, notes, k);
      } else {
        UpdateQuantityFiles(st, square, tax, ids, checkoutId, lineItemId, quantity, locationId, staffId, startTime, notes, k);
      }
  }

  /** Under the invariant `update_checkout` fails exactly when the checkout
      or the line is missing: its lookup error branch, which would leave a
      new quantity stored with stale totals, is unreachable. */
  lemma UpdateCheckoutLookupSucceeds(
    st: Store, square: Option<Square>, tax: TaxPolicy, ids: IdSupply,
    checkoutId: string, lineItemId: string, quantity: Option<int>,
    locationId: Option<string>, staffId: Option<string>, startTime: Option<Time>, notes: Option<string>)
    requires StoreInv(st, tax)
    ensures var r := UpdateCheckout(st, square, tax, ids, checkoutId, lineItemId, quantity, locationId, staffId, startTime, notes);
      r.result.Ok? <==> checkoutId in st.checkouts && FirstIndex(LineIdIs(lineItemId), st.checkouts[checkoutId].lineItems).Some?
  {
    if checkoutId in st.checkouts {
      ActiveOf(st, tax, checkoutId);
      UpdateCheckoutLookupCached(st, square, tax, ids, checkoutId, lineItemId, quantity, locationId, staffId, startTime, notes);
    }
  }

  /** Writing a quantity keeps every line cached and with an id. */
  lemma SetQuantityLinesCached(c: Checkout, k: nat, quantity: Option<int>, cache: map<string, ServiceVariation>)
    requires k < |c.lineItems| && LinesCached(c, cache)
    ensures LinesCached(SetQuantity(c, k, quantity), cache)
  {
  }

  /** The checkout `update_checkout` files without rescheduling is valid. */
  lemma QuantityCheckoutActive(c: Checkout, key: string, k: nat, tax: TaxPolicy, quantity: Option<int>, cache: map<string, ServiceVariation>)
    requires k < |c.lineItems| && c.id == key && c.order == None && LinesCached(c, cache)
    ensures ActiveOk(key, Recalculate(SetQuantity(c, k, quantity), tax), cache, tax)
  {
    SetQuantityLinesCached(c, k, quantity, cache);
    RecalculateActive(key, SetQuantity(c, k, quantity), cache, tax);
  }

  /** The checkout `update_checkout` files after rescheduling is valid. */
  lemma RescheduledCheckoutActive(
    c: Checkout, key: string, k: nat, tax: TaxPolicy, quantity: Option<int>,
    lineItemId: string, location: RetailLocation, staffId: Option<string>, startTime: Time, notes: Option<string>,
    durationSeconds: int, optionId: string, slotId: string, cache: map<string, ServiceVariation>)
    requires k < |c.lineItems| && c.id == key && c.order == None && LinesCached(c, cache)
    ensures ActiveOk(key, Recalculate(UpsertSlot(SetQuantity(c, k, quantity), lineItemId, location, staffId,
                                                 startTime, notes, durationSeconds, optionId, slotId), tax), cache, tax)
  {
    SetQuantityLinesCached(c, k, quantity, cache);
    RecalculateActive(key, UpsertSlot(SetQuantity(c, k, quantity), lineItemId, location, staffId, startTime, notes,
                                      durationSeconds, optionId, slotId), cache, tax);
  }

  /** `update_checkout` without appointment details files the recalculated
      checkout with the quantity written. */
  lemma UpdateQuantityFiles(
    st: Store, square: Option<Square>, tax: TaxPolicy, ids: IdSupply,
    checkoutId: string, lineItemId: string, quantity: Option<int>,
    locationId: Option<string>, staffId: Option<string>, startTime: Option<Time>, notes: Option<string>, k: nat)
    requires !(Given(locationId) && startTime.Some?) && checkoutId in st.checkouts
    requires FirstIndex(LineIdIs(lineItemId), st.checkouts[checkoutId].lineItems) == Some(k)
    ensures var c2 := Recalculate(SetQuantity(st.checkouts[checkoutId], k, quantity), tax);
      UpdateCheckout(st, square, tax, ids, checkoutId, lineItemId, quantity, locationId, staffId, startTime, notes)
        == Reply(st.(checkouts := st.checkouts[checkoutId := c2]), Ok(c2))
  {
  }

  /** `update_checkout` without appointment details keeps the invariant. */
  lemma UpdateQuantityKeepsInv(
    st: Store, square: Option<Square>, tax: TaxPolicy, ids: IdSupply,
    checkoutId: string, lineItemId: string, quantity: Option<int>,
    locationId: Option<string>, staffId: Option<string>, startTime: Option<Time>, notes: Option<string>)
    requires StoreInv(st, tax) && !(Given(locationId) && startTime.Some?)
    ensures StoreInv(UpdateCheckout(st, square, tax, ids, checkoutId, lineItemId, quantity, locationId, staffId, startTime, notes).store, tax)
  {
    if checkoutId in st.checkouts {
      var c := st.checkouts[checkoutId];
      match FirstIndex(LineIdIs(lineItemId), c.lineItems)
      case None =>
      case Some(k) =>
        UpdateQuantityFiles(st, square, tax, ids, checkoutId, lineItemId, quantity, locationId, staffId, startTime, notes, k);
        ActiveOf(st, tax, checkoutId);
        QuantityCheckoutActive(c, checkoutId, k, tax, quantity, st.serviceCache);
        FileActive(st, checkoutId, Recalculate(SetQuantity(c, k, quantity), tax), tax);
    }
  }

  /** `update_checkout` rescheduling a line whose service is cached: the
      cache is consulted, not changed, and the recalculated checkout is
      filed. */
  lemma UpdateRescheduleCached(
    st: Store, square: Option<Square>, tax: TaxPolicy, ids: IdSupply,
    checkoutId: string, lineItemId: string, quantity: Option<int>,
    locationId: Option<string>, staffId: Option<string>, startTime: Option<Time>, notes: Option<string>, k: nat)
    requires Given(locationId) && startTime.Some? && checkoutId in st.checkouts
    requires FirstIndex(LineIdIs(lineItemId), st.checkouts[checkoutId].lineItems) == Some(k)
    requires st.checkouts[checkoutId].lineItems[k].item.id in st.serviceCache
    ensures var c := st.checkouts[checkoutId];
      var c3 := Recalculate(UpsertSlot(SetQuantity(c, k, quantity), lineItemId, ResolveLocation(square, locationId.value), staffId,
                                       startTime.value, notes, st.serviceCache[c.lineItems[k].item.id].durationSeconds, ids(0), ids(1)), tax);
      UpdateCheckout(st, square, tax, ids, checkoutId, lineItemId, quantity, locationId, staffId, startTime, notes)
        == Reply(st.(checkouts := st.checkouts[checkoutId := c3]), Ok(c3))
  {
  }

  /** `update_checkout` with appointment details keeps the invariant. */
  lemma UpdateRescheduleKeepsInv(
    st: Store, square: Option<Square>, tax: TaxPolicy, ids: IdSupply,
    checkoutId: string, lineItemId: string, quantity: Option<int>,
    locationId: Option<string>, staffId: Option<string>, startTime: Option<Time>, notes: Option<string>)
    requires StoreInv(st, tax) && Given(locationId) && startTime.Some?
    ensures StoreInv(UpdateCheckout(st, square, tax, ids, checkoutId, lineItemId, quantity, locationId, staffId, startTime, notes).store, tax)
  {
    if checkoutId in st.checkouts {
      var c := st.checkouts[checkoutId];
      match FirstIndex(LineIdIs(lineItemId), c.lineItems)
      case None =>
      case Some(k) =>
        ActiveOf(st, tax, checkoutId);
        var service := st.serviceCache[c.lineItems[k].item.id];
        UpdateRescheduleCached(st, square, tax, ids, checkoutId, lineItemId, quantity, locationId, staffId, startTime, notes, k);
        RescheduledCheckoutActive(c, checkoutId, k, tax, quantity, lineItemId, ResolveLocation(square, locationId.value), staffId,
                                  startTime.value, notes, service.durationSeconds, ids(0), ids(1), st.serviceCache);
        var c3 := Recalculate(UpsertSlot(SetQuantity(c, k, quantity), lineItemId, ResolveLocation(square, locationId.value), staffId,
                                         startTime.value, notes, service.durationSeconds, ids(0), ids(1)), tax);
        FileActive(st, checkoutId, c3, tax);
    }
  }

  /** `update_checkout` keeps the invariant. */
  lemma UpdateCheckoutKeepsInv(
    st: Store, square: Option<Square>, tax: TaxPolicy, ids: IdSupply,
    checkoutId: string, lineItemId: string, quantity: Option<int>,
    locationId: Option<string>, staffId: Option<string>, startTime: Option<Time>, notes: Option<string>)
    requires StoreInv(st, tax)
    ensures StoreInv(UpdateCheckout(st, square, tax, ids, checkoutId, lineItemId, quantity, locationId, staffId, startTime, notes).store, tax)
  {
    if Given(locationId) && startTime.Some? {
      UpdateRescheduleKeepsInv(st, square, tax, ids, checkoutId, lineItemId, quantity, locationId, staffId, startTime, notes);
    } else {
      UpdateQuantityKeepsInv(st, square, tax, ids, checkoutId, lineItemId, quantity, locationId, staffId, startTime, notes);
    }
  }

  /** `set_appointment` keeps the invariant. */
  lemma SetAppointmentKeepsInv(st: Store, square: Option<Square>, tax: TaxPolicy, ids: IdSupply, checkoutId: string, request: AppointmentRequest)
    requires StoreInv(st, tax)
    ensures StoreInv(SetAppointment(st, square, tax, ids, checkoutId, request).store, tax)
  {
    var r := SetAppointment(st, square, tax, ids, checkoutId, request);
    if checkoutId in st.checkouts {
      var c := st.checkouts[checkoutId];
      ActiveOf(st, tax, checkoutId);
      var c0 := WithSlots(c, SlotsOf(c));
      var applied := ApplySlotRequests(st.serviceCache, square, c0, request.slots.GetOr([]), ids, 0);
      ActiveGrow(st, applied.cache, square, tax);
      assert applied.checkout.lineItems == c.lineItems;
      LinesCachedGrow(c, st.serviceCache, applied.cache, square);
      RecalculateActive(checkoutId, applied.checkout, applied.cache, tax);
      FileActive(st.(serviceCache := applied.cache), checkoutId, Recalculate(applied.checkout, tax), tax);
    }
  }

  /** `start_payment` keeps the invariant. */
  lemma StartPaymentKeepsInv(st: Store, tax: TaxPolicy, checkoutId: string)
    requires StoreInv(st, tax)
    ensures StoreInv(StartPayment(st, tax, checkoutId).store, tax)
  {
    if checkoutId in st.checkouts {
      var c := st.checkouts[checkoutId];
      ActiveOf(st, tax, checkoutId);
      RecalculateActive(checkoutId, c, st.serviceCache, tax);
      FileActive(st, checkoutId, Recalculate(c, tax).(status := ReadyForComplete), tax);
    }
  }

  /** `place_order` keeps the invariant. */
  lemma PlaceOrderKeepsInv(st: Store, tax: TaxPolicy, checkoutId: string)
    requires StoreInv(st, tax)
    ensures StoreInv(PlaceOrder(st, checkoutId).store, tax)
  {
  }
}

=== FILE: store_properties.dfy ===
/** What each store operation does to the checkout it touches, stated
    against independent measures: the quantity booked per service, the
    subtotal, the lines and slots that survive, the payment gate, and where
    a placed order goes. */
module StoreProperties {
  import opened Base
  import opened UcpTypes
  import opened AppointmentTypes
  import opened Pricing
  import opened ServiceStore
  import opened StoreInvariant

  // ---------- Measures over line items ----------

  /** The quantity of one service over all lines of a checkout. */
  function QuantityOf(items: seq<LineItem>, serviceVariationId: string): int {
    if |items| == 0 then 0
    else QuantityOf(items[..|items| - 1], serviceVariationId)
         + (if items[|items| - 1].item.id == serviceVariationId then items[|items| - 1].quantity else 0)
  }

  /** No service appears on two lines. */
  ghost predicate OneLinePerService(items: seq<LineItem>) {
    forall i, j :: 0 <= i < j < |items| ==> items[i].item.id != items[j].item.id
  }

  /** Two line lists that agree on services and quantities, position by
      position. */
  ghost predicate SameBookings(a: seq<LineItem>, b: seq<LineItem>) {
    && |a| == |b|
    && forall i :: 0 <= i < |a| ==> a[i].item == b[i].item && a[i].quantity == b[i].quantity
  }

  lemma {:induction false} QuantityOfSame(a: seq<LineItem>, b: seq<LineItem>, s: string)
    requires SameBookings(a, b)
    ensures QuantityOf(a, s) == QuantityOf(b, s)
  {
    if |a| > 0 {
      QuantityOfSame(a[..|a| - 1], b[..|b| - 1], s);
    }
  }

  lemma {:induction false} SumBaseSame(a: seq<LineItem>, b: seq<LineItem>)
    requires SameBookings(a, b)
    ensures SumBase(a) == SumBase(b)
  {
    if |a| > 0 {
      SumBaseSame(a[..|a| - 1], b[..|b| - 1]);
    }
  }

  /** Changing the quantity of one line changes that service's total by the
      difference and no other service's. */
  lemma {:induction false} QuantityOfUpdate(items: seq<LineItem>, k: nat, q: int, s: string)
    requires k < |items|
    ensures QuantityOf(items[k := items[k].(quantity := q)], s)
         == QuantityOf(items, s) + (if items[k].item.id == s then q - items[k].quantity else 0)
  {
    var n := |items|;
    if k == n - 1 {
      assert items[k := items[k].(quantity := q)][..n - 1] == items[..n - 1];
    } else {
      QuantityOfUpdate(items[..n - 1], k, q, s);
      assert items[k := items[k].(quantity := q)][..n - 1] == items[..n - 1][k := items[k].(quantity := q)];
    }
  }

  lemma QuantityOfAppend(items: seq<LineItem>, li: LineItem, s: string)
    ensures QuantityOf(items + [li], s) == QuantityOf(items, s) + (if li.item.id == s then li.quantity else 0)
  {
    assert (items + [li])[..|items|] == items;
  }

  /** Recalculation leaves services and quantities alone. */
  lemma RecalculateSameBookings(c: Checkout, tax: TaxPolicy)
    ensures SameBookings(Recalculate(c, tax).lineItems, c.lineItems)
  {
    var r := Recalculate(c, tax);
    forall i | 0 <= i < |c.lineItems|
      ensures r.lineItems[i].item == c.lineItems[i].item && r.lineItems[i].quantity == c.lineItems[i].quantity
    {
      assert r.lineItems[i].(totals := c.lineItems[i].totals) == c.lineItems[i];
    }
  }

  // ---------- add_to_checkout ----------

  /** The unit price `add_to_checkout` charges for the added quantity: that
      of the line already booking the service, or the service's own price
      for a new line. */
  function UnitPriceCharged(c: Checkout, service: ServiceVariation, serviceVariationId: string): int {
    match FirstIndex(ItemIs(serviceVariationId), c.lineItems)
    case Some(k) => c.lineItems[k].item.price
    case None => service.price.GetOr(0)
  }

  /** Merging adds the quantity to the service and to no other. */
  lemma MergeQuantities(c: Checkout, service: ServiceVariation, serviceVariationId: string, quantity: int, newLineItemId: string, s: string)
    requires service.id == serviceVariationId
    ensures QuantityOf(MergeLineItem(c, service, serviceVariationId, quantity, newLineItemId).checkout.lineItems, s)
         == QuantityOf(c.lineItems, s) + (if s == serviceVariationId then quantity else 0)
  {
    var m := MergeLineItem(c, service, serviceVariationId, quantity, newLineItemId).checkout;
    match FirstIndex(ItemIs(serviceVariationId), c.lineItems)
    case Some(k) =>
      var li := c.lineItems[k];
      assert m.lineItems == c.lineItems[k := li.(quantity := li.quantity + quantity)];
      QuantityOfUpdate(c.lineItems, k, li.quantity + quantity, s);
    case None =>
      QuantityOfAppend(c.lineItems, NewLineItem(newLineItemId, service, quantity), s);
  }

  /** Adding to the quantity of a line adds that many unit prices. */
  lemma LineBaseAddQuantity(li: LineItem, quantity: int)
    ensures LineBase(li.(quantity := li.quantity + quantity)) == LineBase(li) + quantity * li.item.price
  {
    assert li.item.price * (li.quantity + quantity) == li.item.price * li.quantity + li.item.price * quantity;
  }

  /** Merging charges the quantity at `UnitPriceCharged`. */
  lemma MergeSubtotal(c: Checkout, service: ServiceVariation, serviceVariationId: string, quantity: int, newLineItemId: string)
    ensures SumBase(MergeLineItem(c, service, serviceVariationId, quantity, newLineItemId).checkout.lineItems)
         == SumBase(c.lineItems) + quantity * UnitPriceCharged(c, service, serviceVariationId)
  {
    var m := MergeLineItem(c, service, serviceVariationId, quantity, newLineItemId).checkout;
    match FirstIndex(ItemIs(serviceVariationId), c.lineItems)
    case Some(k) =>
      var li := c.lineItems[k];
      assert m.lineItems == c.lineItems[k := li.(quantity := li.quantity + quantity)];
      SumBaseUpdate(c.lineItems, k, li.(quantity := li.quantity + quantity));
      LineBaseAddQuantity(li, quantity);
    case None =>
      SumBaseAppend(c.lineItems, NewLineItem(newLineItemId, service, quantity));
  }

  /** Merging never books a service on a second line. */
  lemma MergeOneLinePerService(c: Checkout, service: ServiceVariation, serviceVariationId: string, quantity: int, newLineItemId: string)
    requires service.id == serviceVariationId && OneLinePerService(c.lineItems)
    ensures OneLinePerService(MergeLineItem(c, service, serviceVariationId, quantity, newLineItemId).checkout.lineItems)
  {
    var m := MergeLineItem(c, service, serviceVariationId, quantity, newLineItemId).checkout;
    match FirstIndex(ItemIs(serviceVariationId), c.lineItems)
    case Some(k) =>
      assert forall i :: 0 <= i < |m.lineItems| ==> m.lineItems[i].item == c.lineItems[i].item;
    case None =>
      assert m.lineItems == c.lineItems + [NewLineItem(newLineItemId, service, quantity)];
      assert forall i :: 0 <= i < |c.lineItems| ==> c.lineItems[i].item.id != serviceVariationId;
  }

  /** The lines of the checkout-level step of `add_to_checkout` are the
      merged lines. */
  lemma AddServiceLines(
    c: Checkout, square: Option<Square>, service: ServiceVariation, serviceVariationId: string, quantity: int,
    ids: IdSupply, locationId: Option<string>, staffId: Option<string>, startTime: Option<Time>, notes: Option<string>)
    ensures AddService(c, square, service, serviceVariationId, quantity, ids, locationId, staffId, startTime, notes).lineItems
         == MergeLineItem(c, service, serviceVariationId, quantity, ids(1)).checkout.lineItems
  {
  }

  /** The checkout `add_to_checkout` adds to: the given one, or a new one. */
  function AddTarget(st: Store, checkoutId: Option<string>, ids: IdSupply): Checkout
    requires Given(checkoutId) ==> checkoutId.value in st.checkouts
  {
    if Given(checkoutId) then st.checkouts[checkoutId.value] else NewCheckout(ids(0))
  }

  /** A successful `add_to_checkout` files the recalculated checkout-level
      step applied to its target, with the service the lookup found. */
  lemma AddToCheckoutResult(
    st: Store, square: Option<Square>, tax: TaxPolicy, ids: IdSupply,
    serviceVariationId: string, quantity: int, checkoutId: Option<string>,
    locationId: Option<string>, staffId: Option<string>, startTime: Option<Time>, notes: Option<string>)
    requires CacheKeyed(st.serviceCache)
    requires AddToCheckout(st, square, tax, ids, serviceVariationId, quantity, checkoutId, locationId, staffId, startTime, notes).result.Ok?
    ensures Given(checkoutId) ==> checkoutId.value in st.checkouts
    ensures GetServiceVariation(st.serviceCache, square, serviceVariationId).result.Ok?
    ensures GetServiceVariation(st.serviceCache, square, serviceVariationId).result.value.id == serviceVariationId
    ensures AddToCheckout(st, square, tax, ids, serviceVariationId, quantity, checkoutId, locationId, staffId, startTime, notes).result.value
         == Recalculate(AddService(AddTarget(st, checkoutId, ids), square, GetServiceVariation(st.serviceCache, square, serviceVariationId).result.value,
                                   serviceVariationId, quantity, ids, locationId, staffId, startTime, notes), tax)
  {
    AddToCheckoutFiles(st, square, tax, ids, serviceVariationId, quantity, checkoutId, locationId, staffId, startTime, notes);
    AddLookupKeyed(st.serviceCache, square, serviceVariationId);
  }

  /** The checkout-level step of `add_to_checkout` changes the lines as the
      merge does: only the line booking the service, by `quantity`, or one
      new line at the end. */
  lemma AddServiceLineShape(
    c: Checkout, square: Option<Square>, service: ServiceVariation, serviceVariationId: string, quantity: int,
    ids: IdSupply, locationId: Option<string>, staffId: Option<string>, startTime: Option<Time>, notes: Option<string>)
    ensures var r := AddService(c, square, service, serviceVariationId, quantity, ids, locationId, staffId, startTime, notes);
      match FirstIndex(ItemIs(serviceVariationId), c.lineItems)
      case Some(k) => r.lineItems == c.lineItems[k := c.lineItems[k].(quantity := c.lineItems[k].quantity + quantity)]
      case None => r.lineItems == c.lineItems + [NewLineItem(ids(1), service, quantity)]
  {
    AddServiceLines(c, square, service, serviceVariationId, quantity, ids, locationId, staffId, startTime, notes);
  }

  /** The same up to totals after recalculation. */
  lemma AddServiceLineShapeRecalculated(
    c: Checkout, square: Option<Square>, tax: TaxPolicy, service: ServiceVariation, serviceVariationId: string, quantity: int,
    ids: IdSupply, locationId: Option<string>, staffId: Option<string>, startTime: Option<Time>, notes: Option<string>)
    ensures var r := Recalculate(AddService(c, square, service, serviceVariationId, quantity, ids, locationId, staffId, startTime, notes), tax);
      match FirstIndex(ItemIs(serviceVariationId), c.lineItems)
      case Some(k) =>
        SameLines(r.lineItems, c.lineItems[k := c.lineItems[k].(quantity := c.lineItems[k].quantity + quantity)])
      case None =>
        SameLines(r.lineItems, c.lineItems + [NewLineItem(ids(1), service, quantity)])
  {
    var c2 := AddService(c, square, service, serviceVariationId, quantity, ids, locationId, staffId, startTime, notes);
    AddServiceLineShape(c, square, service, serviceVariationId, quantity, ids, locationId, staffId, startTime, notes);
    RecalculateSameLines(c2, tax);
  }

  /** The lines after a successful `add_to_checkout`, up to totals: with a
      line already booking the service, only that line changes, by
      `quantity`; without one, exactly one new line for the service comes at
      the end. */
  lemma AddToCheckoutLines(
    st: Store, square: Option<Square>, tax: TaxPolicy, ids: IdSupply,
    serviceVariationId: string, quantity: int, checkoutId: Option<string>,
    locationId: Option<string>, staffId: Option<string>, startTime: Option<Time>, notes: Option<string>)
    requires CacheKeyed(st.serviceCache)
    requires AddToCheckout(st, square, tax, ids, serviceVariationId, quantity, checkoutId, locationId, staffId, startTime, notes).result.Ok?
    ensures Given(checkoutId) ==> checkoutId.value in st.checkouts
    ensures GetServiceVariation(st.serviceCache, square, serviceVariationId).result.Ok?
    ensures var c := AddTarget(st, checkoutId, ids);
      var r := AddToCheckout(st, square, tax, ids, serviceVariationId, quantity, checkoutId, locationId, staffId, startTime, notes).result.value;
      match FirstIndex(ItemIs(serviceVariationId), c.lineItems)
      case Some(k) =>
        SameLines(r.lineItems, c.lineItems[k := c.lineItems[k].(quantity := c.lineItems[k].quantity + quantity)])
      case None =>
        SameLines(r.lineItems, c.lineItems + [NewLineItem(ids(1), GetServiceVariation(st.serviceCache, square, serviceVariationId).result.value, quantity)])
  {
    AddToCheckoutResult(st, square, tax, ids, serviceVariationId, quantity, checkoutId, locationId, staffId, startTime, notes);
    AddServiceLineShapeRecalculated(AddTarget(st, checkoutId, ids), square, tax, GetServiceVariation(st.serviceCache, square, serviceVariationId).result.value,
                        serviceVariationId, quantity, ids, locationId, staffId, startTime, notes);
  }

  /** The checkout-level step of `add_to_checkout`: with a location and a
      start time, the slot of the line that books the service is upserted;
      otherwise the appointment is untouched. */
  lemma AddServiceSlotUpsert(
    c: Checkout, square: Option<Square>, service: ServiceVariation, serviceVariationId: string, quantity: int,
    ids: IdSupply, locationId: Option<string>, staffId: Option<string>, startTime: Option<Time>, notes: Option<string>)
    ensures var lineId := MergeLineItem(c, service, serviceVariationId, quantity, ids(1)).lineItemId;
      var r := AddService(c, square, service, serviceVariationId, quantity, ids, locationId, staffId, startTime, notes);
      if Given(locationId) && startTime.Some? && lineId != "" then
        SlotUpserted(SlotsOf(c), SlotsOf(r), lineId, ResolveLocation(square, locationId.value), startTime.value, staffId, notes, ids(3))
      else r.appointment == c.appointment
  {
    var m := MergeLineItem(c, service, serviceVariationId, quantity, ids(1));
    if Given(locationId) && startTime.Some? && m.lineItemId != "" {
      UpsertSlotUpserted(m.checkout, m.lineItemId, ResolveLocation(square, locationId.value),
                         staffId, startTime.value, notes, service.durationSeconds, ids(2), ids(3));
      assert SlotsOf(m.checkout) == SlotsOf(c);
    }
  }

  /** The same after recalculation, which keeps the appointment. */
  lemma AddServiceSlotShape(
    c: Checkout, square: Option<Square>, tax: TaxPolicy, service: ServiceVariation, serviceVariationId: string, quantity: int,
    ids: IdSupply, locationId: Option<string>, staffId: Option<string>, startTime: Option<Time>, notes: Option<string>)
    ensures var lineId := MergeLineItem(c, service, serviceVariationId, quantity, ids(1)).lineItemId;
      var r := Recalculate(AddService(c, square, service, serviceVariationId, quantity, ids, locationId, staffId, startTime, notes), tax);
      if Given(locationId) && startTime.Some? && lineId != "" then
        SlotUpserted(SlotsOf(c), SlotsOf(r), lineId, ResolveLocation(square, locationId.value), startTime.value, staffId, notes, ids(3))
      else r.appointment == c.appointment
  {
    var c2 := AddService(c, square, service, serviceVariationId, quantity, ids, locationId, staffId, startTime, notes);
    AddServiceSlotUpsert(c, square, service, serviceVariationId, quantity, ids, locationId, staffId, startTime, notes);
    assert Recalculate(c2, tax).appointment == c2.appointment;
    assert SlotsOf(Recalculate(c2, tax)) == SlotsOf(c2);
  }

  /** The slots after a successful `add_to_checkout`: with a location and a
      start time, the slot of the line that books the service is upserted;
      otherwise the appointment is untouched. */
  lemma AddToCheckoutSlots(
    st: Store, square: Option<Square>, tax: TaxPolicy, ids: IdSupply,
    serviceVariationId: string, quantity: int, checkoutId: Option<string>,
    locationId: Option<string>, staffId: Option<string>, startTime: Option<Time>, notes: Option<string>)
    requires CacheKeyed(st.serviceCache)
    requires AddToCheckout(st, square, tax, ids, serviceVariationId, quantity, checkoutId, locationId, staffId, startTime, notes).result.Ok?
    ensures Given(checkoutId) ==> checkoutId.value in st.checkouts
    ensures GetServiceVariation(st.serviceCache, square, serviceVariationId).result.Ok?
    ensures var c := AddTarget(st, checkoutId, ids);
      var lineId := MergeLineItem(c, GetServiceVariation(st.serviceCache, square, serviceVariationId).result.value,
                                  serviceVariationId, quantity, ids(1)).lineItemId;
      var r := AddToCheckout(st, square, tax, ids, serviceVariationId, quantity, checkoutId, locationId, staffId, startTime, notes).result.value;
      if Given(locationId) && startTime.Some? && lineId != "" then
        SlotUpserted(SlotsOf(c), SlotsOf(r), lineId, ResolveLocation(square, locationId.value), startTime.value, staffId, notes, ids(3))
      else r.appointment == c.appointment
  {
    AddToCheckoutResult(st, square, tax, ids, serviceVariationId, quantity, checkoutId, locationId, staffId, startTime, notes);
    AddServiceSlotShape(AddTarget(st, checkoutId, ids), square, tax, GetServiceVariation(st.serviceCache, square, serviceVariationId).result.value,
                        serviceVariationId, quantity, ids, locationId, staffId, startTime, notes);
  }

  /** Adding a service books `quantity` more of it and nothing more of any
      other service. */
  lemma AddToCheckoutQuantities(
    st: Store, square: Option<Square>, tax: TaxPolicy, ids: IdSupply,
    serviceVariationId: string, quantity: int, checkoutId: Option<string>,
    locationId: Option<string>, staffId: Option<string>, startTime: Option<Time>, notes: Option<string>, s: string)
    requires CacheKeyed(st.serviceCache)
    requires AddToCheckout(st, square, tax, ids, serviceVariationId, quantity, checkoutId, locationId, staffId, startTime, notes).result.Ok?
    ensures Given(checkoutId) ==> checkoutId.value in st.checkouts
    ensures QuantityOf(AddToCheckout(st, square, tax, ids, serviceVariationId, quantity, checkoutId, locationId, staffId, startTime, notes).result.value.lineItems, s)
         == QuantityOf(AddTarget(st, checkoutId, ids).lineItems, s) + (if s == serviceVariationId then quantity else 0)
  {
    AddToCheckoutResult(st, square, tax, ids, serviceVariationId, quantity, checkoutId, locationId, staffId, startTime, notes);
    var service := GetServiceVariation(st.serviceCache, square, serviceVariationId).result.value;
    var c := AddTarget(st, checkoutId, ids);
    var c2 := AddService(c, square, service, serviceVariationId, quantity, ids, locationId, staffId, startTime, notes);
    AddServiceLines(c, square, service, serviceVariationId, quantity, ids, locationId, staffId, startTime, notes);
    RecalculateSameBookings(c2, tax);
    QuantityOfSame(Recalculate(c2, tax).lineItems, c2.lineItems, s);
    MergeQuantities(c, service, serviceVariationId, quantity, ids(1), s);
  }

  /** The checkout-level step, recalculated, raises the subtotal by
      `quantity` at the unit price charged. */
  lemma AddServiceSubtotal(
    c: Checkout, square: Option<Square>, tax: TaxPolicy, service: ServiceVariation, serviceVariationId: string, quantity: int,
    ids: IdSupply, locationId: Option<string>, staffId: Option<string>, startTime: Option<Time>, notes: Option<string>)
    ensures Amount(Recalculate(AddService(c, square, service, serviceVariationId, quantity, ids, locationId, staffId, startTime, notes), tax).totals, Subtotal)
         == Some(SumBase(c.lineItems) + quantity * UnitPriceCharged(c, service, serviceVariationId))
  {
    var c2 := AddService(c, square, service, serviceVariationId, quantity, ids, locationId, staffId, startTime, notes);
    assert SumBase(c2.lineItems) == SumBase(c.lineItems) + quantity * UnitPriceCharged(c, service, serviceVariationId) by {
      AddServiceLines(c, square, service, serviceVariationId, quantity, ids, locationId, staffId, startTime, notes);
      MergeSubtotal(c, service, serviceVariationId, quantity, ids(1));
    }
    RecalculateSubtotal(c2, tax);
  }

  /** Adding a service raises the subtotal by `quantity` at the unit price
      charged. */
  lemma AddToCheckoutSubtotal(
    st: Store, square: Option<Square>, tax: TaxPolicy, ids: IdSupply,
    serviceVariationId: string, quantity: int, checkoutId: Option<string>,
    locationId: Option<string>, staffId: Option<string>, startTime: Option<Time>, notes: Option<string>)
    requires CacheKeyed(st.serviceCache)
    requires AddToCheckout(st, square, tax, ids, serviceVariationId, quantity, checkoutId, locationId, staffId, startTime, notes).result.Ok?
    ensures Given(checkoutId) ==> checkoutId.value in st.checkouts
    ensures GetServiceVariation(st.serviceCache, square, serviceVariationId).result.Ok?
    ensures Amount(AddToCheckout(st, square, tax, ids, serviceVariationId, quantity, checkoutId, locationId, staffId, startTime, notes).result.value.totals, Subtotal)
         == Some(SumBase(AddTarget(st, checkoutId, ids).lineItems)
                 + quantity * UnitPriceCharged(AddTarget(st, checkoutId, ids), GetServiceVariation(st.serviceCache, square, serviceVariationId).result.value, serviceVariationId))
  {
    AddToCheckoutResult(st, square, tax, ids, serviceVariationId, quantity, checkoutId, locationId, staffId, startTime, notes);
    AddServiceSubtotal(AddTarget(st, checkoutId, ids), square, tax, GetServiceVariation(st.serviceCache, square, serviceVariationId).result.value,
                       serviceVariationId, quantity, ids, locationId, staffId, startTime, notes);
  }

  /** Adding a service never books it on a second line. */
  lemma AddToCheckoutOneLinePerService(
    st: Store, square: Option<Square>, tax: TaxPolicy, ids: IdSupply,
    serviceVariationId: string, quantity: int, checkoutId: Option<string>,
    locationId: Option<string>, staffId: Option<string>, startTime: Option<Time>, notes: Option<string>)
    requires CacheKeyed(st.serviceCache)
    requires AddToCheckout(st, square, tax, ids, serviceVariationId, quantity, checkoutId, locationId, staffId, startTime, notes).result.Ok?
    requires Given(checkoutId) ==> checkoutId.value in st.checkouts && OneLinePerService(st.checkouts[checkoutId.value].lineItems)
    ensures OneLinePerService(AddToCheckout(st, square, tax, ids, serviceVariationId, quantity, checkoutId, locationId, staffId, startTime, notes).result.value.lineItems)
  {
    AddToCheckoutResult(st, square, tax, ids, serviceVariationId, quantity, checkoutId, locationId, staffId, startTime, notes);
    var service := GetServiceVariation(st.serviceCache, square, serviceVariationId).result.value;
    var c := AddTarget(st, checkoutId, ids);
    var c2 := AddService(c, square, service, serviceVariationId, quantity, ids, locationId, staffId, startTime, notes);
    AddServiceLines(c, square, service, serviceVariationId, quantity, ids, locationId, staffId, startTime, notes);
    MergeOneLinePerService(c, service, serviceVariationId, quantity, ids(1));
    RecalculateSameBookings(c2, tax);
  }

  /** The line that books the added service: the existing one or the new
      one. */
  lemma MergeTouchesServiceLine(c: Checkout, service: ServiceVariation, serviceVariationId: string, quantity: int, newLineItemId: string)
    requires service.id == serviceVariationId
    ensures var m := MergeLineItem(c, service, serviceVariationId, quantity, newLineItemId);
      exists i :: 0 <= i < |m.checkout.lineItems| && m.checkout.lineItems[i].id == m.lineItemId
                  && m.checkout.lineItems[i].item.id == serviceVariationId
    ensures var m := MergeLineItem(c, service, serviceVariationId, quantity, newLineItemId);
      m.lineItemId == newLineItemId || exists i :: 0 <= i < |c.lineItems| && m.lineItemId == c.lineItems[i].id
  {
    var m := MergeLineItem(c, service, serviceVariationId, quantity, newLineItemId);
    match FirstIndex(ItemIs(serviceVariationId), c.lineItems)
    case Some(k) =>
      assert m.checkout.lineItems[k].id == m.lineItemId;
    case None =>
      assert m.checkout.lineItems[|c.lineItems|].id == m.lineItemId;
  }

  /** A slot scheduled at a location and a start time, with notes. */
  ghost predicate ScheduledAt(s: Slot, location: RetailLocation, startTime: Time, staffId: Option<string>, notes: Option<string>) {
    HasSingleSelectedOption(s, startTime, staffId) && s.location == location && s.notes == notes
  }

  /** `after` is `before` with the slot of one line item upserted: the first
      slot listing the line is rescheduled in place, keeping its id, its line
      items and the slot count, or else a new slot `slotId` for just that
      line is appended. Every other slot is kept. */
  ghost predicate SlotUpserted(
    before: seq<Slot>, after: seq<Slot>, lineItemId: string, location: RetailLocation,
    startTime: Time, staffId: Option<string>, notes: Option<string>, slotId: string)
  {
    match FirstIndex(SlotLists(lineItemId), before)
    case Some(k) =>
      && |after| == |before|
      && after[k].id == before[k].id && after[k].lineItemIds == before[k].lineItemIds
      && ScheduledAt(after[k], location, startTime, staffId, notes)
      && (forall j :: 0 <= j < |before| && j != k ==> after[j] == before[j])
    case None =>
      && |after| == |before| + 1 && after[..|before|] == before
      && after[|before|].id == slotId && after[|before|].lineItemIds == [lineItemId]
      && ScheduledAt(after[|before|], location, startTime, staffId, notes)
  }

  lemma UpsertSlotUpserted(
    c: Checkout, lineItemId: string, location: RetailLocation, staffId: Option<string>,
    startTime: Time, notes: Option<string>, durationSeconds: int, optionId: string, slotId: string)
    ensures SlotUpserted(SlotsOf(c), SlotsOf(UpsertSlot(c, lineItemId, location, staffId, startTime, notes, durationSeconds, optionId, slotId)),
                         lineItemId, location, startTime, staffId, notes, slotId)
  {
    var r := UpsertSlot(c, lineItemId, location, staffId, startTime, notes, durationSeconds, optionId, slotId);
    if FirstIndex(SlotLists(lineItemId), SlotsOf(c)).None? {
      assert SlotsOf(r)[..|SlotsOf(c)|] == SlotsOf(c);
    }
  }

  /** Some line booking the service is listed by a slot with a single
      selected option at the start time. */
  ghost predicate ServiceScheduled(c: Checkout, serviceVariationId: string, startTime: Time, staffId: Option<string>) {
    exists i, j :: 0 <= i < |c.lineItems| && 0 <= j < |SlotsOf(c)|
                   && c.lineItems[i].item.id == serviceVariationId
                   && c.lineItems[i].id in SlotsOf(c)[j].lineItemIds
                   && HasSingleSelectedOption(SlotsOf(c)[j], startTime, staffId)
  }

  lemma RecalculateKeepsScheduled(c: Checkout, tax: TaxPolicy, serviceVariationId: string, startTime: Time, staffId: Option<string>)
    requires ServiceScheduled(c, serviceVariationId, startTime, staffId)
    ensures ServiceScheduled(Recalculate(c, tax), serviceVariationId, startTime, staffId)
  {
    var i, j :| 0 <= i < |c.lineItems| && 0 <= j < |SlotsOf(c)|
                && c.lineItems[i].item.id == serviceVariationId
                && c.lineItems[i].id in SlotsOf(c)[j].lineItemIds
                && HasSingleSelectedOption(SlotsOf(c)[j], startTime, staffId);
    var r := Recalculate(c, tax);
    assert r.lineItems[i].(totals := c.lineItems[i].totals) == c.lineItems[i];
    assert SlotsOf(r) == SlotsOf(c);
  }

  /** With a location and a start time, the line that books the service is
      scheduled: some slot lists it with a single selected option at that
      start time. */
  lemma AddServiceSchedules(
    c: Checkout, square: Option<Square>, service: ServiceVariation, serviceVariationId: string, quantity: int,
    ids: IdSupply, locationId: Option<string>, staffId: Option<string>, startTime: Option<Time>, notes: Option<string>)
    requires service.id == serviceVariationId && ids(1) != ""
    requires forall i :: 0 <= i < |c.lineItems| ==> c.lineItems[i].id != ""
    requires Given(locationId) && startTime.Some?
    ensures ServiceScheduled(AddService(c, square, service, serviceVariationId, quantity, ids, locationId, staffId, startTime, notes),
                             serviceVariationId, startTime.value, staffId)
    ensures SlotUpserted(SlotsOf(c), SlotsOf(AddService(c, square, service, serviceVariationId, quantity, ids, locationId, staffId, startTime, notes)),
                         MergeLineItem(c, service, serviceVariationId, quantity, ids(1)).lineItemId,
                         ResolveLocation(square, locationId.value), startTime.value, staffId, notes, ids(3))
  {
    var m := MergeLineItem(c, service, serviceVariationId, quantity, ids(1));
    MergeTouchesServiceLine(c, service, serviceVariationId, quantity, ids(1));
    var i :| 0 <= i < |m.checkout.lineItems| && m.checkout.lineItems[i].id == m.lineItemId
             && m.checkout.lineItems[i].item.id == serviceVariationId;
    var r := AddService(c, square, service, serviceVariationId, quantity, ids, locationId, staffId, startTime, notes);
    assert r == UpsertSlot(m.checkout, m.lineItemId, ResolveLocation(square, locationId.value),
                           staffId, startTime.value, notes, service.durationSeconds, ids(2), ids(3));
    assert r.lineItems[i].id == m.lineItemId;
    AddServiceSlotUpsert(c, square, service, serviceVariationId, quantity, ids, locationId, staffId, startTime, notes);
  }

  /** The lines of the checkout `add_to_checkout` extends all have ids. */
  lemma AddTargetLineIds(st: Store, tax: TaxPolicy, checkoutId: Option<string>, ids: IdSupply)
    requires StoreInv(st, tax)
    requires Given(checkoutId) ==> checkoutId.value in st.checkouts
    ensures forall i :: 0 <= i < |AddTarget(st, checkoutId, ids).lineItems| ==> AddTarget(st, checkoutId, ids).lineItems[i].id != ""
  {
    if Given(checkoutId) {
      ActiveOf(st, tax, checkoutId.value);
    }
  }

  /** Adding a service with a location and a start time schedules the line
      that books it. */
  lemma AddToCheckoutSchedules(
    st: Store, square: Option<Square>, tax: TaxPolicy, ids: IdSupply,
    serviceVariationId: string, quantity: int, checkoutId: Option<string>,
    locationId: Option<string>, staffId: Option<string>, startTime: Option<Time>, notes: Option<string>)
    requires StoreInv(st, tax) && ids(1) != ""
    requires Given(locationId) && startTime.Some?
    requires AddToCheckout(st, square, tax, ids, serviceVariationId, quantity, checkoutId, locationId, staffId, startTime, notes).result.Ok?
    ensures ServiceScheduled(AddToCheckout(st, square, tax, ids, serviceVariationId, quantity, checkoutId, locationId, staffId, startTime, notes).result.value,
                             serviceVariationId, startTime.value, staffId)
  {
    AddToCheckoutResult(st, square, tax, ids, serviceVariationId, quantity, checkoutId, locationId, staffId, startTime, notes);
    AddTargetLineIds(st, tax, checkoutId, ids);
    var service := GetServiceVariation(st.serviceCache, square, serviceVariationId).result.value;
    var c := AddTarget(st, checkoutId, ids);
    AddServiceSchedules(c, square, service, serviceVariationId, quantity, ids, locationId, staffId, startTime, notes);
    RecalculateKeepsScheduled(AddService(c, square, service, serviceVariationId, quantity, ids, locationId, staffId, startTime, notes),
                              tax, serviceVariationId, startTime.value, staffId);
  }

  // ---------- remove_from_checkout ----------

  /** Two line lists that agree on everything but totals, position by
      position. */
  ghost predicate SameLines(a: seq<LineItem>, b: seq<LineItem>) {
    && |a| == |b|
    && forall i :: 0 <= i < |a| ==> a[i].(totals := b[i].totals) == b[i]
  }

  lemma RecalculateSameLines(c: Checkout, tax: TaxPolicy)
    ensures SameLines(Recalculate(c, tax).lineItems, c.lineItems)
  {
  }

  /** A successful `remove_from_checkout` files the recalculated removal. */
  lemma RemoveFromCheckoutResult(st: Store, tax: TaxPolicy, checkoutId: string, lineItemId: string)
    requires checkoutId in st.checkouts
    ensures RemoveFromCheckout(st, tax, checkoutId, lineItemId).result == Ok(Recalculate(RemoveLine(st.checkouts[checkoutId], lineItemId), tax))
  {
  }

  /** Every other line survives removal, unchanged but for its totals, and
      the lines keep their order. */
  lemma RemoveFromCheckoutKeepsOtherLines(st: Store, tax: TaxPolicy, checkoutId: string, lineItemId: string)
    requires checkoutId in st.checkouts
    ensures var c := st.checkouts[checkoutId];
      var r := RemoveFromCheckout(st, tax, checkoutId, lineItemId).result.value;
      && SameLines(r.lineItems, Filter(LineIdIsNot(lineItemId), c.lineItems))
      && forall i :: 0 <= i < |c.lineItems| && c.lineItems[i].id != lineItemId ==>
           exists j :: 0 <= j < |r.lineItems| && r.lineItems[j].(totals := c.lineItems[i].totals) == c.lineItems[i]
  {
    var c := st.checkouts[checkoutId];
    RemoveFromCheckoutResult(st, tax, checkoutId, lineItemId);
    var c1 := RemoveLine(c, lineItemId);
    var r := Recalculate(c1, tax);
    RecalculateSameLines(c1, tax);
    forall i | 0 <= i < |c.lineItems| && c.lineItems[i].id != lineItemId
      ensures exists j :: 0 <= j < |r.lineItems| && r.lineItems[j].(totals := c.lineItems[i].totals) == c.lineItems[i]
    {
      FilterMembership(LineIdIsNot(lineItemId), c.lineItems, c.lineItems[i]);
      var j :| 0 <= j < |c1.lineItems| && c1.lineItems[j] == c.lineItems[i];
      assert r.lineItems[j].(totals := c1.lineItems[j].totals) == c1.lineItems[j];
    }
  }

  /** After removal no slot lists the line, and every slot that did not list
      it survives. */
  lemma RemoveFromCheckoutSlots(st: Store, tax: TaxPolicy, checkoutId: string, lineItemId: string)
    requires checkoutId in st.checkouts
    ensures var c := st.checkouts[checkoutId];
      var r := RemoveFromCheckout(st, tax, checkoutId, lineItemId).result.value;
      && (forall j :: 0 <= j < |SlotsOf(r)| ==> lineItemId !in SlotsOf(r)[j].lineItemIds)
      && (forall j :: 0 <= j < |SlotsOf(c)| && lineItemId !in SlotsOf(c)[j].lineItemIds ==> SlotsOf(c)[j] in SlotsOf(r))
  {
    var c := st.checkouts[checkoutId];
    RemoveFromCheckoutResult(st, tax, checkoutId, lineItemId);
    var c1 := RemoveLine(c, lineItemId);
    assert SlotsOf(Recalculate(c1, tax)) == SlotsOf(c1);
    FilterMembershipAll(SlotSkips(lineItemId), SlotsOf(c));
    forall j | 0 <= j < |SlotsOf(c1)|
      ensures lineItemId !in SlotsOf(c1)[j].lineItemIds
    {
      assert SlotsOf(c1)[j] in SlotsOf(c1);
    }
  }

  /** Removing a line-item id that no line has and no slot lists changes
      nothing but the status of a consistent checkout. */
  lemma RemoveUnknownLineChangesNothing(st: Store, tax: TaxPolicy, checkoutId: string, lineItemId: string)
    requires checkoutId in st.checkouts && Consistent(st.checkouts[checkoutId], tax)
    requires forall i :: 0 <= i < |st.checkouts[checkoutId].lineItems| ==> st.checkouts[checkoutId].lineItems[i].id != lineItemId
    requires forall j :: 0 <= j < |SlotsOf(st.checkouts[checkoutId])| ==> lineItemId !in SlotsOf(st.checkouts[checkoutId])[j].lineItemIds
    ensures RemoveFromCheckout(st, tax, checkoutId, lineItemId).result == Ok(st.checkouts[checkoutId].(status := Incomplete))
  {
    var c := st.checkouts[checkoutId];
    RemoveFromCheckoutResult(st, tax, checkoutId, lineItemId);
    FilterKeepsAll(LineIdIsNot(lineItemId), c.lineItems);
    FilterKeepsAll(SlotSkips(lineItemId), SlotsOf(c));
    assert RemoveLine(c, lineItemId) == c;
    RecalculateFixpoint(c, tax);
  }

  // ---------- update_checkout ----------

  /** A successful `update_checkout` without appointment details files the
      recalculated checkout with the quantity written. */
  lemma UpdateQuantityResult(
    st: Store, square: Option<Square>, tax: TaxPolicy, ids: IdSupply,
    checkoutId: string, lineItemId: string, quantity: Option<int>,
    locationId: Option<string>, staffId: Option<string>, startTime: Option<Time>, notes: Option<string>)
    requires !(Given(locationId) && startTime.Some?)
    requires UpdateCheckout(st, square, tax, ids, checkoutId, lineItemId, quantity, locationId, staffId, startTime, notes).result.Ok?
    ensures checkoutId in st.checkouts && FirstIndex(LineIdIs(lineItemId), st.checkouts[checkoutId].lineItems).Some?
    ensures UpdateCheckout(st, square, tax, ids, checkoutId, lineItemId, quantity, locationId, staffId, startTime, notes).result.value
         == Recalculate(SetQuantity(st.checkouts[checkoutId], FirstIndex(LineIdIs(lineItemId), st.checkouts[checkoutId].lineItems).value, quantity), tax)
  {
  }

  /** A successful rescheduling `update_checkout` files the recalculated
      checkout with the quantity written and the line's slot upserted. */
  lemma UpdateRescheduleResult(
    st: Store, square: Option<Square>, tax: TaxPolicy, ids: IdSupply,
    checkoutId: string, lineItemId: string, quantity: Option<int>,
    locationId: Option<string>, staffId: Option<string>, startTime: Option<Time>, notes: Option<string>)
    requires Given(locationId) && startTime.Some?
    requires UpdateCheckout(st, square, tax, ids, checkoutId, lineItemId, quantity, locationId, staffId, startTime, notes).result.Ok?
    ensures checkoutId in st.checkouts && FirstIndex(LineIdIs(lineItemId), st.checkouts[checkoutId].lineItems).Some?
    ensures var c := st.checkouts[checkoutId];
      var k := FirstIndex(LineIdIs(lineItemId), c.lineItems).value;
      var lookup := GetServiceVariation(st.serviceCache, square, c.lineItems[k].item.id);
      && lookup.result.Ok?
      && UpdateCheckout(st, square, tax, ids, checkoutId, lineItemId, quantity, locationId, staffId, startTime, notes).result.value
         == Recalculate(UpsertSlot(SetQuantity(c, k, quantity), lineItemId, ResolveLocation(square, locationId.value), staffId,
                                   startTime.value, notes, lookup.result.value.durationSeconds, ids(0), ids(1)), tax)
  {
  }

  /** The lines after a successful `update_checkout`: the line with the id
      holds the new quantity (zero included: the line stays), and every
      other line, service and quantity is as before. */
  lemma UpdateCheckoutSetsQuantity(
    st: Store, square: Option<Square>, tax: TaxPolicy, ids: IdSupply,
    checkoutId: string, lineItemId: string, quantity: Option<int>,
    locationId: Option<string>, staffId: Option<string>, startTime: Option<Time>, notes: Option<string>, s: string)
    requires UpdateCheckout(st, square, tax, ids, checkoutId, lineItemId, quantity, locationId, staffId, startTime, notes).result.Ok?
    ensures checkoutId in st.checkouts && FirstIndex(LineIdIs(lineItemId), st.checkouts[checkoutId].lineItems).Some?
    ensures var c := st.checkouts[checkoutId];
      var k := FirstIndex(LineIdIs(lineItemId), c.lineItems).value;
      var r := UpdateCheckout(st, square, tax, ids, checkoutId, lineItemId, quantity, locationId, staffId, startTime, notes).result.value;
      && |r.lineItems| == |c.lineItems|
      && r.lineItems[k].id == lineItemId
      && r.lineItems[k].quantity == quantity.GetOr(c.lineItems[k].quantity)
      && (forall j :: 0 <= j < |c.lineItems| && j != k ==> r.lineItems[j].(totals := c.lineItems[j].totals) == c.lineItems[j])
      && QuantityOf(r.lineItems, s)
         == QuantityOf(c.lineItems, s) + (if c.lineItems[k].item.id == s then quantity.GetOr(c.lineItems[k].quantity) - c.lineItems[k].quantity else 0)
  {
    if Given(locationId) && startTime.Some? {
      UpdateRescheduleResult(st, square, tax, ids, checkoutId, lineItemId, quantity, locationId, staffId, startTime, notes);
    } else {
      UpdateQuantityResult(st, square, tax, ids, checkoutId, lineItemId, quantity, locationId, staffId, startTime, notes);
    }
    var c := st.checkouts[checkoutId];
    var k := FirstIndex(LineIdIs(lineItemId), c.lineItems).value;
    var r := UpdateCheckout(st, square, tax, ids, checkoutId, lineItemId, quantity, locationId, staffId, startTime, notes).result.value;
    var q := SetQuantity(c, k, quantity);
    assert SameLines(r.lineItems, q.lineItems);
    assert SameBookings(r.lineItems, q.lineItems);
    QuantityOfSame(r.lineItems, q.lineItems, s);
    QuantityOfUpdate(c.lineItems, k, quantity.GetOr(c.lineItems[k].quantity), s);
    assert q.lineItems == c.lineItems[k := c.lineItems[k].(quantity := quantity.GetOr(c.lineItems[k].quantity))];
  }

  /** With a location and a start time, a successful `update_checkout`
      leaves some slot listing the line with a single selected option at that
      start time. */
  lemma UpdateCheckoutSchedules(
    st: Store, square: Option<Square>, tax: TaxPolicy, ids: IdSupply,
    checkoutId: string, lineItemId: string, quantity: Option<int>,
    locationId: Option<string>, staffId: Option<string>, startTime: Option<Time>, notes: Option<string>)
    requires Given(locationId) && startTime.Some?
    requires UpdateCheckout(st, square, tax, ids, checkoutId, lineItemId, quantity, locationId, staffId, startTime, notes).result.Ok?
    ensures var r := UpdateCheckout(st, square, tax, ids, checkoutId, lineItemId, quantity, locationId, staffId, startTime, notes).result.value;
      exists j :: 0 <= j < |SlotsOf(r)| && lineItemId in SlotsOf(r)[j].lineItemIds
                  && HasSingleSelectedOption(SlotsOf(r)[j], startTime.value, staffId)
                  && SlotsOf(r)[j].location == ResolveLocation(square, locationId.value) && SlotsOf(r)[j].notes == notes
    ensures checkoutId in st.checkouts
    ensures SlotUpserted(SlotsOf(st.checkouts[checkoutId]),
                         SlotsOf(UpdateCheckout(st, square, tax, ids, checkoutId, lineItemId, quantity, locationId, staffId, startTime, notes).result.value),
                         lineItemId, ResolveLocation(square, locationId.value), startTime.value, staffId, notes, ids(1))
  {
    UpdateRescheduleResult(st, square, tax, ids, checkoutId, lineItemId, quantity, locationId, staffId, startTime, notes);
    var c := st.checkouts[checkoutId];
    var k := FirstIndex(LineIdIs(lineItemId), c.lineItems).value;
    var lookup := GetServiceVariation(st.serviceCache, square, c.lineItems[k].item.id);
    var location := ResolveLocation(square, locationId.value);
    var c2 := UpsertSlot(SetQuantity(c, k, quantity), lineItemId, location, staffId,
                         startTime.value, notes, lookup.result.value.durationSeconds, ids(0), ids(1));
    assert SlotsOf(Recalculate(c2, tax)) == SlotsOf(c2);
    var j :| 0 <= j < |SlotsOf(c2)| && lineItemId in SlotsOf(c2)[j].lineItemIds
             && HasSingleSelectedOption(SlotsOf(c2)[j], startTime.value, staffId)
             && SlotsOf(c2)[j].location == location && SlotsOf(c2)[j].notes == notes;
    UpsertSlotUpserted(SetQuantity(c, k, quantity), lineItemId, location, staffId,
                       startTime.value, notes, lookup.result.value.durationSeconds, ids(0), ids(1));
    assert SlotsOf(SetQuantity(c, k, quantity)) == SlotsOf(c);
  }

  /** Without a location and a start time, `update_checkout` leaves the
      appointment slots as they were. */
  lemma UpdateCheckoutKeepsSlots(
    st: Store, square: Option<Square>, tax: TaxPolicy, ids: IdSupply,
    checkoutId: string, lineItemId: string, quantity: Option<int>,
    locationId: Option<string>, staffId: Option<string>, startTime: Option<Time>, notes: Option<string>)
    requires !(Given(locationId) && startTime.Some?)
    requires UpdateCheckout(st, square, tax, ids, checkoutId, lineItemId, quantity, locationId, staffId, startTime, notes).result.Ok?
    ensures checkoutId in st.checkouts
    ensures UpdateCheckout(st, square, tax, ids, checkoutId, lineItemId, quantity, locationId, staffId, startTime, notes).result.value.appointment
         == st.checkouts[checkoutId].appointment
  {
    UpdateQuantityResult(st, square, tax, ids, checkoutId, lineItemId, quantity, locationId, staffId, startTime, notes);
  }
}

=== FILE: strings.dfy ===
/** The string operations the source relies on: `str.lower` (ASCII letters only
    here), the substring test `q in t`, `str.strip()`, `str.join` and `str.split`. */
module Strings {

  /** ASCII case folding of one character. */
  function LowerChar(c: char): char {
    if 'A' <= c <= 'Z' then (c as int + 32) as char else c
  }

  /** `s.lower()` restricted to ASCII letters. */
  function Lower(s: string): (r: string)
    ensures |r| == |s|
    ensures forall i :: 0 <= i < |s| ==> r[i] == LowerChar(s[i])
  {
    if |s| == 0 then [] else [LowerChar(s[0])] + Lower(s[1..])
  }

  /** Lowering twice is lowering once. */
  lemma LowerIdempotent(s: string)
    ensures Lower(Lower(s)) == Lower(s)
  {
  }

  /** Lowering commutes with concatenation. */
  lemma LowerAppend(a: string, b: string)
    ensures Lower(a + b) == Lower(a) + Lower(b)
  {
  }

  /** `q` occurs in `t` starting at index `i`. */
  predicate OccursAt(q: string, t: string, i: nat) {
    i + |q| <= |t| && t[i..i + |q|] == q
  }

  /** Python's `q in t` for strings: `q` is a contiguous piece of `t`. */
  predicate IsInfix(q: string, t: string) {
    exists i: nat :: i <= |t| && OccursAt(q, t, i)
  }

  /** The left-to-right scan that decides `q in t`. */
  method Contains(q: string, t: string) returns (found: bool)
    ensures found <==> IsInfix(q, t)
  {
    if |q| > |t| {
      return false;
    }
    var i: nat := 0;
    while i + |q| <= |t|
      invariant i <= |t| - |q| + 1
      invariant forall j: nat :: j < i ==> !OccursAt(q, t, j)
      decreases |t| - i
    {
      if t[i..i + |q|] == q {
        assert OccursAt(q, t, i);
        return true;
      }
      i := i + 1;
    }
    assert forall j: nat :: j <= |t| && OccursAt(q, t, j) ==> j < i;
    return false;
  }

  /** Python's `str.isspace()` code points: the characters `str.strip()`
      removes by default. */
  predicate IsSpace(c: char) {
    var n := c as int;
    || n == 0x20 || 0x09 <= n <= 0x0D || 0x1C <= n <= 0x1F
    || n == 0x85 || n == 0xA0 || n == 0x1680 || 0x2000 <= n <= 0x200A
    || n == 0x2028 || n == 0x2029 || n == 0x202F || n == 0x205F || n == 0x3000
  }

  /** `s.lstrip()`: drops leading whitespace, keeps the rest. */
  function TrimStart(s: string): (r: string)
    ensures |r| <= |s| && r == s[|s| - |r|..]
    ensures forall i :: 0 <= i < |s| - |r| ==> IsSpace(s[i])
    ensures |r| == 0 || !IsSpace(r[0])
  {
    if |s| > 0 && IsSpace(s[0]) then TrimStart(s[1..]) else s
  }

  /** `s.rstrip()`: drops trailing whitespace, keeps the rest. */
  function TrimEnd(s: string): (r: string)
    ensures |r| <= |s| && r == s[..|r|]
    ensures forall i :: |r| <= i < |s| ==> IsSpace(s[i])
    ensures |r| == 0 || !IsSpace(r[|r| - 1])
  {
    if |s| > 0 && IsSpace(s[|s| - 1]) then TrimEnd(s[..|s| - 1]) else s
  }

  /** `r` is what is left of `s` once the `k` characters before it and all
      characters after it are removed, and every removed character is
      whitespace. */
  predicate TrimmedAt(r: string, s: string, k: nat) {
    && OccursAt(r, s, k)
    && (forall i :: 0 <= i < k ==> IsSpace(s[i]))
    && (forall i :: k + |r| <= i < |s| ==> IsSpace(s[i]))
  }

  /** `s.strip()`: `s` with only its surrounding whitespace removed, so
      what is left neither starts nor ends with whitespace. */
  function Strip(s: string): (r: string)
    ensures exists k: nat :: TrimmedAt(r, s, k)
    ensures IsInfix(r, s)
    ensures |r| == 0 || (!IsSpace(r[0]) && !IsSpace(r[|r| - 1]))
  {
    TrimmedAtCompose(s, TrimStart(s), TrimEnd(TrimStart(s)));
    TrimEnd(TrimStart(s))
  }

  /** Trimming a whitespace prefix and then a whitespace suffix leaves the
      piece between them. */
  lemma TrimmedAtCompose(s: string, t: string, r: string)
    requires |t| <= |s| && t == s[|s| - |t|..]
    requires forall i :: 0 <= i < |s| - |t| ==> IsSpace(s[i])
    requires |r| <= |t| && r == t[..|r|]
    requires forall i :: |r| <= i < |t| ==> IsSpace(t[i])
    ensures TrimmedAt(r, s, |s| - |t|)
  {
    var k := |s| - |t|;
    assert s[k..k + |r|] == r;
    forall i | k + |r| <= i < |s|
      ensures IsSpace(s[i])
    {
      assert s[i] == t[i - k];
    }
  }

  /** Where a trimmed piece with non-space ends sits in `s`: its first
      character is the first non-space one of `s`, and its last the last. */
  lemma TrimmedEnds(r: string, s: string, k: nat)
    requires TrimmedAt(r, s, k) && |r| > 0
    ensures !IsSpace(r[0]) ==> !IsSpace(s[k])
    ensures !IsSpace(r[|r| - 1]) ==> !IsSpace(s[k + |r| - 1])
  {
    assert s[k..k + |r|] == r;
    assert r[0] == s[k];
    assert r[|r| - 1] == s[k + |r| - 1];
  }

  /** The contract of `Strip` pins it down: a piece of `s` with only
      whitespace around it and none at its own ends is `Strip(s)`. */
  lemma StripUnique(s: string, r: string, k: nat)
    requires TrimmedAt(r, s, k)
    requires |r| == 0 || (!IsSpace(r[0]) && !IsSpace(r[|r| - 1]))
    ensures r == Strip(s)
  {
    var r0 := Strip(s);
    var k0: nat :| TrimmedAt(r0, s, k0);
    if |r| > 0 {
      TrimmedEnds(r, s, k);
    }
    if |r0| > 0 {
      TrimmedEnds(r0, s, k0);
    }
    if |r| > 0 && |r0| > 0 {
      assert k == k0;
      assert k + |r| == k0 + |r0|;
      assert r == s[k..k + |r|] == r0;
    }
  }

  /** A trailing whitespace character never survives `rstrip`. */
  lemma TrimEndDropsSpace(s: string, c: char)
    requires IsSpace(c)
    ensures TrimEnd(s + [c]) == TrimEnd(s)
  {
    assert (s + [c])[..|s + [c]| - 1] == s;
  }

  /** `s` holds a character that `strip` keeps. */
  predicate HasNonSpace(s: string) {
    exists i :: 0 <= i < |s| && !IsSpace(s[i])
  }

  /** Text after the first non-space character is untouched by `lstrip`. */
  lemma {:induction false} TrimStartAppend(a: string, b: string)
    requires HasNonSpace(a)
    ensures TrimStart(a + b) == TrimStart(a) + b
  {
    assert |a| > 0;
    if IsSpace(a[0]) {
      var i :| 0 <= i < |a| && !IsSpace(a[i]);
      assert i > 0 && a[1..][i - 1] == a[i];
      assert (a + b)[1..] == a[1..] + b;
      TrimStartAppend(a[1..], b);
    }
  }

  /** Leading text made only of whitespace vanishes under `lstrip`. */
  lemma {:induction false} TrimStartAppendSpaces(a: string, b: string)
    requires !HasNonSpace(a)
    ensures TrimStart(a + b) == TrimStart(b)
  {
    if |a| == 0 {
      assert a + b == b;
    } else {
      assert IsSpace(a[0]);
      assert (a + b)[1..] == a[1..] + b;
      assert forall i :: 0 <= i < |a[1..]| ==> a[1..][i] == a[i + 1];
      TrimStartAppendSpaces(a[1..], b);
    }
  }

  /** `sep.join(parts)`. */
  function Join(sep: string, parts: seq<string>): (r: string)
    ensures |parts| == 1 ==> r == parts[0]
    ensures |parts| == 0 ==> r == ""
  {
    if |parts| == 0 then ""
    else if |parts| == 1 then parts[0]
    else parts[0] + sep + Join(sep, parts[1..])
  }

  /** `s.split(c)` for a one-character separator: the pieces between the
      separators, so never an empty list. */
  function Split(c: char, s: string): (r: seq<string>)
    ensures |r| > 0
  {
    if |s| == 0 then [""]
    else if s[0] == c then [""] + Split(c, s[1..])
    else
      var rest := Split(c, s[1..]);
      [[s[0]] + rest[0]] + rest[1..]
  }

  /** A text without the separator is one piece. */
  lemma {:induction false} SplitWithout(c: char, a: string)
    requires c !in a
    ensures Split(c, a) == [a]
  {
    if |a| > 0 {
      SplitWithout(c, a[1..]);
      assert [a[0]] + a[1..] == a;
    }
  }

  /** A first piece without the separator is split off whole. */
  lemma {:induction false} SplitFirst(c: char, a: string, s: string)
    requires c !in a
    ensures Split(c, a + [c] + s) == [a] + Split(c, s)
  {
    if |a| == 0 {
      assert a + [c] + s == [c] + s;
      assert ([c] + s)[1..] == s;
    } else {
      SplitFirst(c, a[1..], s);
      var t := a + [c] + s;
      assert t[0] == a[0] && t[1..] == a[1..] + [c] + s;
      assert [a[0]] + a[1..] == a;
    }
  }

  /** Joining pieces without the separator and splitting the result gives
      the pieces back. */
  lemma {:induction false} SplitJoin(c: char, parts: seq<string>)
    requires |parts| > 0
    requires forall i :: 0 <= i < |parts| ==> c !in parts[i]
    ensures Split(c, Join([c], parts)) == parts
  {
    if |parts| == 1 {
      SplitWithout(c, parts[0]);
    } else {
      SplitJoin(c, parts[1..]);
      SplitFirst(c, parts[0], Join([c], parts[1..]));
      assert [parts[0]] + parts[1..] == parts;
    }
  }
}

=== FILE: ucp_types.dfy ===
/** The parts of the UCP SDK's checkout response that the service store reads
    and writes (the SDK itself is not part of this model): line items with
    their item and totals, totals entries, buyer, order confirmation and the
    retail location reference attached to appointment slots. Amounts are
    integer minor currency units. */
module UcpTypes {

  /** The checkout lifecycle states the store assigns. */
  datatype CheckoutStatus = Incomplete | ReadyForComplete | Completed {
    /** The wire value of the status. */
    function Text(): string {
      match this
      case Incomplete => "incomplete"
      case ReadyForComplete => "ready_for_complete"
      case Completed => "completed"
    }
  }

  /** The `type` field of a totals entry. */
  datatype TotalKind = ItemsDiscount | Subtotal | Discount | Tax | Total {
    function Text(): string {
      match this
      case ItemsDiscount => "items_discount"
      case Subtotal => "subtotal"
      case Discount => "discount"
      case Tax => "tax"
      case Total => "total"
    }
  }

  /** One named monetary component. */
  datatype TotalEntry = TotalEntry(kind: TotalKind, displayText: string, amount: int)

  /** The catalog item a line item refers to; `price` is the unit price. */
  datatype Item = Item(id: string, price: int, title: string)

  datatype LineItem = LineItem(id: string, item: Item, quantity: int, totals: seq<TotalEntry>)

  datatype Buyer = Buyer(email: string)

  datatype OrderConfirmation = OrderConfirmation(id: string, permalinkUrl: string)

  /** `RetailLocationResponse`: the location reference stored on a slot. */
  datatype RetailLocation = RetailLocation(id: string, name: string)
}
